=== FILE: README.md ===
# Grid Point Code, modelled in Dafny

Grid Point Code turns a coordinate into an 11-symbol code over the 27-symbol
alphabet `0123456789CDFGHJKLMNPRTVWXY`, and turns the code back into the
coordinate. The code can be formatted as `#XXXX-XXXX-XXX`. The repository has
two complete implementations, `CSharp/GPC.cs` and `Java/GPC.java`. They share
the algorithm but use different lattice sizes, so they produce different codes
for the same coordinate. This project models both, each as its own instance,
over shared, parametric modules.

A coordinate is modelled as a `Seven`: a negative flag, whole degrees and five
fractional digits. This is the coordinate after the source has split its
`double` into seven parts. The model then follows the integer pipeline of both
files.

1. **Sign folding** (`Coordinates`). An axis's sign and whole degrees become an
   assigned index, `2 * whole + (negative ? 1 : 0)`. Unfolding it gives the
   sign and whole back.
2. **Combination number** (`DiagonalRank`). This is one parametric definition:
   the rank of a cell `(la, lo)` of an `a`-by-`b` rectangle, taking cells
   anti-diagonal by anti-diagonal (by `la + lo`) and by increasing `lo` within
   a diagonal. `Unrank` is its inverse.
   - C# uses 182 by 362, for combination numbers 1 .. 65884. It computes the
     rank by walking X/Y/Z counters along a diagonal.
   - Java uses 180 by 360, for 1 .. 64800. It computes the rank from band
     formulas and summing loops.
   - Both implementations are methods whose loops are proved to compute
     `Rank`, and their inverses are proved to compute `Unrank`.
3. **Point number** (`PointNumber`). The combination number times 10^10, plus
   the ten fractional digits of both axes interleaved. It can be split back
   into those parts.
4. **Base 27** (`Base27`). The point number plus Eleven = 27^10 - 10^10 is
   written in base 27 and read back. Every point number whose combination
   number lies between 1 and 535316 (`Codec.Capacity`, far above either
   instance's 65884 or 64800) gives exactly eleven symbols.
5. **Formatting** (`Formatting`).
   - Formatting adds `#` and two dashes, giving 14 characters.
   - Unformatting removes spaces, dashes and `#`, trims white space, upper-cases,
     and validates the length and the alphabet. Both runtimes count the length
     in UTF-16 code units, so a character outside the Basic Multilingual Plane
     counts twice. White space follows `Char.IsWhiteSpace` for C# and Java's
     `trim` (characters up to U+0020).
   - Java's `toUpperCase(Locale.ROOT)` spells the ligatures U+FB00, U+FB02 and
     U+FB04 out as "FF", "FL" and "FFL". These are alphabet letters, so Java
     accepts a code typed with them. C#'s `ToUpperInvariant` keeps a ligature
     as one character, which then fails the checks.
6. **The two instances** (`CSharpGpc`, `JavaGpc`). Each has the range checks,
   the encoder, the decoder and the round trip properties.
   - C# checks both ranges inclusively and encodes a pole with longitude 0.0.
   - Java checks both ranges strictly, so there is no pole rule. Its decoder
     works on a signed point number with truncating division and remainder.

`Codec` joins the stages for any rectangle. It proves the round trips, that
encoding is injective, and that the codes with an in-range combination number
correspond one to one with the cells of the rectangle.

Decoded coordinates are stated as the decoded `Seven`s. The `GetCoordinates`
methods also give the scaled value `whole * 10^5 + digits` with its sign.
The source divides that value by 10^5 into a `double`.

## Model

| member | source | states |
|---|---|---|
| DiagonalRank.RankBounds | CSharp/GPC.cs:124-158 | every cell of the rectangle gets a combination number between 1 and the number of cells |
| DiagonalRank.RankOrder | CSharp/GPC.cs:124-158 | one cell gets a smaller combination number than another exactly when it lies on an earlier anti-diagonal, or on the same one with a smaller longitude index |
| DiagonalRank.EarlierDiagonal | Java/GPC.java:216-245 | a cell with a smaller latitude-plus-longitude index sum gets a smaller combination number |
| DiagonalRank.RankInjective | Java/GPC.java:207-248 | two cells with the same combination number are the same cell |
| DiagonalRank.RankInBlock | CSharp/GPC.cs:124-158 | a cell's number lies after all cells of earlier diagonals and within its own diagonal's block |
| DiagonalRank.BeforeLow | Java/GPC.java:216-223 | while the diagonals still grow, the cells before diagonal t number t(t+1)/2 |
| DiagonalRank.BeforeMiddle | Java/GPC.java:226-233 | in the middle band every diagonal adds a full column of `a` cells |
| DiagonalRank.BeforeHigh | Java/GPC.java:235-245 | in the last band the diagonals shrink by one cell each |
| DiagonalRank.TotalIsProduct | CSharp/GPC.cs:413-433 | all diagonals together hold exactly a times b cells |
| DiagonalRank.Unrank | CSharp/GPC.cs:406-574 | every number from 1 to a times b names a cell of the rectangle with exactly that number |
| DiagonalRank.UnrankRank | Java/GPC.java:392-456 | unranking the number of a cell gives the cell back |
| DiagonalRank.CellOnDiagonal | Java/GPC.java:413-414 | a number inside diagonal t's block, offset by lo from its lowest column, is the cell (t - lo, lo) |
| DiagonalRank.DiagonalOf | CSharp/GPC.cs:413-433 | for any number in range there is a diagonal whose block contains it |
| Coordinates.UnfoldFold | Java/GPC.java:451-454 | unfolding a folded sign and whole gives them back |
| Coordinates.FoldUnfold | CSharp/GPC.cs:570-573 | every assigned index is the fold of its unfolded sign and non-negative whole |
| Coordinates.FoldBound | CSharp/GPC.cs:112-113 | a whole is at most m exactly when its assigned index is below 2m + 2 |
| Coordinates.CombineSeven | CSharp/GPC.cs:368-384 | for a well-formed axis, the combined value is the signed scaled coordinate, and its whole and each digit can be read back from it |
| Coordinates.ReadBack | Java/GPC.java:352-367 | the six parts as a base-10 number are the magnitude in 10^-5 degrees, whose quotient by 10^5 is the whole and whose digits are the five fractional digits |
| Coordinates.Recombine | CSharp/GPC.cs:370-381 | the loop over the seven parts computes the signed scaled coordinate |
| Coordinates.WeightedSum | Java/GPC.java:356-361 | the power-weighted loop sum of six parts is their base-10 value |
| PointNumber.Assemble | CSharp/GPC.cs:66-82 | the point number's quotient by 10^10 is the combination number and digit k of its lower ten digits is the k-th woven fractional digit |
| PointNumber.SplitAssemble | Java/GPC.java:370-389 | splitting an assembled point number gives back the combination number and both digit lists |
| PointNumber.AssembleSplit | CSharp/GPC.cs:354-365 | every point number is the assembly of its own combination number and digits |
| PointNumber.WeaveSplit | CSharp/GPC.cs:394-400 | the interleaved longitude and latitude digits are the ten low decimal digits of the fractional part |
| PointNumber.AddFractional | CSharp/GPC.cs:73-80 | the loop adding 10^(9-2i) times the longitude digit and 10^(8-2i) times the latitude digit yields the assembled point number |
| PointNumber.SplitFractional | CSharp/GPC.cs:394-400 | the digit loop gives both axes' digits, and reassembling them restores a fractional part below 10^10 |
| Base27.ElevenIsGap | CSharp/GPC.cs:23 | Eleven is 27^10 - 10^10 |
| Base27.IndexOf | CSharp/GPC.cs:22 | a found index names the character's position in the alphabet |
| Base27.IndexOfMissing | Java/GPC.java:24 | the index is -1 exactly when the character is not in the alphabet |
| Base27.IndexOfSymbol | CSharp/GPC.cs:22 | every alphabet character is found at its own position |
| Base27.Symbols | CSharp/GPC.cs:262-283 | the base-27 text is non-empty, uses only alphabet characters and has no leading zero unless it is "0" |
| Base27.SymbolValueOfSymbols | Java/GPC.java:251-272 | reading back the base-27 text of n gives n |
| Base27.SymbolsOfSymbolValue | CSharp/GPC.cs:339-351 | text without a leading zero is the base-27 text of its own value |
| Base27.LeadingZero | Java/GPC.java:328-339 | a leading zero symbol does not change a code's value |
| Base27.SymbolsLength | CSharp/GPC.cs:262-283 | the text of n has at most k symbols exactly when n is below 27^k |
| Base27.ElevenSymbols | CSharp/GPC.cs:54 | the text of n has exactly eleven symbols exactly when 27^10 <= n < 27^11 |
| Base27.EncodePoint | CSharp/GPC.cs:262-283 | the digit loop (with the special case for 0) produces canonical text whose value is the input |
| Base27.DecodeToPoint | Java/GPC.java:328-339 | the accumulating loop computes the code's value, which is below 27^length and inverts the encoder on canonical text |
| Formatting.Formatted | Java/GPC.java:275-289 | an 11-symbol code formats to 14 characters: '#', four symbols, '-', four symbols, '-', three symbols |
| Formatting.FormatGPC | CSharp/GPC.cs:286-300 | the loop inserting '-' before indices 4 and 8 gives the formatted code |
| Formatting.Remove | CSharp/GPC.cs:320 | removal never lengthens the text |
| Formatting.RemoveCounts | Java/GPC.java:309 | after removal no copy of the character is left and every other character keeps its count |
| Formatting.TrimStart | CSharp/GPC.cs:320 | trimming drops exactly a leading run of white space and stops at a non-white character |
| Formatting.TrimEnd | Java/GPC.java:309 | trimming drops exactly a trailing run of white space and stops at a non-white character |
| Formatting.Validate | CSharp/GPC.cs:322-333 | a UTF-16 length other than 11 fails with WrongLength, else a character outside the alphabet fails with InvalidCharacter, else the text passes unchanged |
| Formatting.Unformat | CSharp/GPC.cs:318-336 | success means the cleaned text upper-cases (ligatures spelled out under Java) into eleven alphabet symbols, and then those are the result; the wrong-length error is raised exactly when the upper-cased text is not 11 UTF-16 code units long, which under C# is the cleaned text's own UTF-16 length |
| Formatting.LigatureCapitals | Java/GPC.java:309 | under Java each of the three ligatures becomes its two or three capitals and every other character stays as it is; under C# every character stays |
| Formatting.ExpandPlain | CSharp/GPC.cs:319 | text without those ligatures, and any text under C#, passes the expansion unchanged |
| Formatting.LeadingLigature | Java/GPC.java:309-322 | a ligature in front of symbols survives the clean-up, and the checks then see its capitals under Java and the ligature itself under C# |
| Formatting.LigatureAccepted | Java/GPC.java:309-322 | under Java a ligature followed by symbols, eleven capitals in all, is accepted as those capitals |
| Formatting.LigatureShort | CSharp/GPC.cs:319-324 | under C# a ligature followed by fewer than ten symbols is refused as the wrong length |
| Formatting.LigatureCodes | Java/GPC.java:309-322 | U+FB00 or U+FB02 with nine symbols, and U+FB04 with eight, are accepted by Java as "FF", "FL" or "FFL" and the symbols; C# refuses U+FB00 with nine symbols as the wrong length |
| Formatting.Utf16LengthIsLength | Java/GPC.java:311 | the UTF-16 length equals the number of characters exactly when every character is in the Basic Multilingual Plane |
| Formatting.SymbolsUtf16 | CSharp/GPC.cs:322-333 | text made only of alphabet symbols has one code unit per character |
| Formatting.UpperUtf16 | CSharp/GPC.cs:319-322 | ASCII upper-casing does not change the UTF-16 length, so the C# check sees the cleaned text's length |
| Formatting.WithWideCharacter | Java/GPC.java:311-322 | symbols followed by U+1F600 fail the character check when there are nine of them, and the length check otherwise |
| Formatting.SurrogatePairCounts | CSharp/GPC.cs:322-333 | ten symbols and U+1F600 fail as the wrong length, and nine symbols and U+1F600 fail as an invalid character |
| Formatting.UnformatBare | Java/GPC.java:307-325 | a bare code passes unformatting unchanged |
| Formatting.UnformatFormat | CSharp/GPC.cs:286-336 | unformatting a formatted code gives the code back |
| Formatting.UnformatIdempotent | Java/GPC.java:307-325 | unformatting an unformatted code changes nothing |
| Formatting.UnformatIgnoresCase | CSharp/GPC.cs:320 | two inputs that differ only in letter case unformat alike |
| Formatting.UnformatLowerCase | Java/GPC.java:309 | the lower-cased formatted code is still accepted and gives the code |
| Formatting.NoBreakSpaceDiffers | CSharp/GPC.cs:320 | a leading no-break space is trimmed by C# but makes Java report a wrong length |
| Formatting.ControlCharacterDiffers | Java/GPC.java:309 | a leading U+0001 is trimmed by Java but makes C# report a wrong length |
| Formatting.LeadingWhiteSpace | CSharp/GPC.cs:320-325 | a code with one leading white-space character is accepted |
| Formatting.LeadingOther | Java/GPC.java:309-314 | a code with one other leading non-separator character is refused as the wrong length |
| Codec.PointOf | CSharp/GPC.cs:66-82 | the point number of a cell has a combination number in 1 .. a*b and lies in [10^10, (a*b+1)10^10) |
| Codec.CodeOf | CSharp/GPC.cs:49-54 | the encoder's symbols for a cell are eleven canonical alphabet symbols |
| Codec.DecodePoint | CSharp/GPC.cs:354-365 | decoding an in-range point number gives two valid axes inside the rectangle |
| Codec.PointRoundTrip | Java/GPC.java:342-348 | decoding the point number of a pair gives the pair back |
| Codec.DecodedPoint | CSharp/GPC.cs:354-365 | every in-range point number is the point number of the pair it decodes to |
| Codec.CodeRoundTrip | CSharp/GPC.cs:305-315 | a code's value is at least Eleven, its combination number is in range and it decodes to the pair it came from |
| Codec.CodeInjective | Java/GPC.java:127-158 | two pairs with the same code are the same pair |
| Codec.CodeOfDecoded | CSharp/GPC.cs:305-315 | every eleven-symbol code with an in-range combination number is the code of the pair it decodes to |
| CSharpGpc.Constants | CSharp/GPC.cs:137-150 | the band bases 16653 and 49231 are the cell counts of diagonals 0 .. 181 and 0 .. 360, and the rectangle has 65884 cells |
| CSharpGpc.DiagonalLength | CSharp/GPC.cs:413-431 | the per-diagonal increments t + 1, 182 and 543 - t are the diagonal lengths of the 182-by-362 rectangle |
| CSharpGpc.GetCombinationNumber | CSharp/GPC.cs:110-259 | for folded indices inside the rectangle, the banded entry and the correcting walks compute the rank, a number in 1 .. 65884; the sentinel 66000 is never assigned |
| CSharpGpc.DiagonalEntry | CSharp/GPC.cs:124-158 | the band entry cell lies on the sum's diagonal (middle for the first band, lowest or highest column otherwise) and DCombi is its rank |
| CSharpGpc.WholesOf | CSharp/GPC.cs:406-574 | a combination number in range gives non-negative wholes whose folded indices are the cell it ranks; any other number gives zero wholes |
| CSharpGpc.WholesRoundTrip | CSharp/GPC.cs:110-113 | decoding the combination number of signs and wholes gives them back |
| CSharpGpc.GetWholesFromCombination | CSharp/GPC.cs:406-574 | the search loop, entry set-up and correcting walks compute the unranked signs and wholes; the sentinel 999 is never assigned |
| CSharpGpc.FindDiagonal | CSharp/GPC.cs:413-433 | for a number in range the loop stops at the diagonal whose block holds it; otherwise the sum stays 0 |
| CSharpGpc.DiagonalReached | CSharp/GPC.cs:413-433 | a number above every block is beyond 65884, and an in-range one lies above the blocks before the stopping diagonal |
| CSharpGpc.DiagonalExit | CSharp/GPC.cs:435-464 | the entry cell of the found diagonal and its rank, counted back from the end of the block |
| CSharpGpc.InRangeFits | CSharp/GPC.cs:34-47 | in-range coordinates, with or without the pole reset, are cells of the rectangle |
| CSharpGpc.Encode | CSharp/GPC.cs:28-63 | the latitude error comes exactly for a latitude outside [-90, 90], the longitude error exactly for an in-range latitude with a longitude outside [-180, 180], success otherwise, with 11 canonical symbols or 14 formatted characters |
| CSharpGpc.GetPointNumber | CSharp/GPC.cs:66-82 | the point number is the codec's point number of the pair, with combination number in 1 .. 65884 |
| CSharpGpc.GetGridPointCode | CSharp/GPC.cs:28-63 | the method computes the encoder's result |
| CSharpGpc.CoordinatesOfPoint | CSharp/GPC.cs:354-365 | an in-range point number decodes as the codec decodes it; an out-of-range one keeps zero wholes |
| CSharpGpc.GetCoordinateSeven | CSharp/GPC.cs:387-403 | the method builds the seven parts of both axes from the unranked wholes and the interleaved digits |
| CSharpGpc.GetCoordinatesOfPoint | CSharp/GPC.cs:354-365 | the method decodes a point number as the functional decoder does |
| CSharpGpc.DecodeSymbols | CSharp/GPC.cs:311-314 | eleven symbols with a value of at least Eleven decode to two valid axes; a smaller value, which the source wraps around, is reported as UndefinedDecode (see Left out) |
| CSharpGpc.Decode | CSharp/GPC.cs:305-315 | unformatting errors pass through, and decoding succeeds exactly when unformatting does and the value is at least Eleven |
| CSharpGpc.CoordinatesOfCode | CSharp/GPC.cs:305-315 | a cell's code decodes at point level to the cell |
| CSharpGpc.GetCoordinates | CSharp/GPC.cs:305-315 | the method fails as the decoder does (including the UndefinedDecode of a wrapped value, see Left out), and otherwise returns both axes' signed scaled values |
| CSharpGpc.GetCoordinatesOfSymbols | CSharp/GPC.cs:309-314 | the method takes the symbols' value less Eleven, splits it and recombines both axes into the decoder's signed scaled values; below Eleven it reports UndefinedDecode (see Left out) |
| CSharpGpc.RoundTrip | CSharp/GPC.cs:28-63 | decoding the code of in-range coordinates, formatted or not, gives the latitude and the encoded longitude |
| CSharpGpc.DecodeCode | CSharp/GPC.cs:305-336 | the bare and the formatted code of a cell both decode to the cell |
| CSharpGpc.ValueRoundTrip | CSharp/GPC.cs:368-384 | the decoded values equal the scaled input latitude and longitude, with longitude 0 at a pole |
| CSharpGpc.PoleIgnoresLongitude | CSharp/GPC.cs:43-47 | at latitude -90 or 90 the code does not depend on the longitude |
| CSharpGpc.EncodeInjective | CSharp/GPC.cs:28-63 | two inputs with the same code have the same latitude and the same encoded longitude |
| CSharpGpc.DecodeIgnoresCase | CSharp/GPC.cs:320 | inputs that differ only in letter case decode alike |
| CSharpGpc.DecodeLowerCase | CSharp/GPC.cs:320 | a lower-cased formatted code decodes to the encoded pair |
| CSharpGpc.LigatureRefused | CSharp/GPC.cs:305-324 | U+FB00 and nine symbols are refused with the wrong-length error |
| CSharpGpc.UnusedCombinationDecodes | CSharp/GPC.cs:413-433 | the code with combination number 65885 is accepted and decodes to (0.0, 0.0), which is also what a different code, the encoder's code for (0.0, 0.0), decodes to |
| CSharpGpc.BeyondPoleDecodes | CSharp/GPC.cs:34-37 | the code of latitude -90.5 decodes to -90.5, which the encoder refuses |
| CSharpGpc.CheckedSymbols | CSharp/GPC.cs:311-314 | an accepted code decodes as the source decodes it, to a pair the encoder accepts and encodes back to the same code; otherwise UndefinedDecode |
| CSharpGpc.CheckedDecode | CSharp/GPC.cs:305-315 | an accepted input decodes as the source decodes it, and the pair re-encodes to the unformatted input; unformatting errors pass through |
| CSharpGpc.CheckedRoundTrip | CSharp/GPC.cs:28-63 | the checked decoder also inverts the encoder |
| CSharpGpc.CheckedCode | CSharp/GPC.cs:305-315 | the checked decoder accepts every code of an encodable pair |
| CSharpGpc.CheckedRefusesUnused | CSharp/GPC.cs:413-433 | the checked decoder refuses combination number 65885 |
| CSharpGpc.CheckedRefusesBeyondPole | CSharp/GPC.cs:34-37 | the checked decoder refuses the code of latitude -90.5 |
| CSharpGpc.FitsBelow | CSharp/GPC.cs:110-113 | a pair is a cell of the 182-by-362 rectangle exactly when its latitude is below 91 degrees and its longitude below 181 degrees |
| CSharpGpc.UnencodableDecodes | CSharp/GPC.cs:34-47 | the code of any cell the encoder cannot produce (latitude beyond 90, longitude beyond 180, or a pole with a longitude other than 0.0) decodes to that cell, and no in-range input encodes to it |
| CSharpGpc.CheckedRefusesUnencodable | CSharp/GPC.cs:34-47 | the checked decoder refuses the code of every such cell |
| CSharpGpc.JustBeyondPoleDecodes | CSharp/GPC.cs:34-37 | the code of (90.00001, 0.0) decodes to latitude 90.00001, which the range check refuses, and the checked decoder refuses it |
| CSharpGpc.PoleLongitudeDecodes | CSharp/GPC.cs:43-47 | the code of (90.0, 1.0) decodes to longitude 1.0, while the encoder gives (90.0, 1.0) the code of (90.0, 0.0); the checked decoder refuses it |
| CSharpGpc.ZeroCombinationDecodes | CSharp/GPC.cs:411-545 | the code with combination number 0 is accepted and decodes to (0.0, 0.0), as the encoder's different code for (0.0, 0.0) does; the checked decoder refuses it |
| JavaGpc.Constants | Java/GPC.java:228-237 | the band bases 16290 and 48690 are the cell counts of diagonals 0 .. 179 and 0 .. 359, and all 64800 cells lie on diagonals 0 .. 538 |
| JavaGpc.DiagonalLength | Java/GPC.java:406-441 | the per-diagonal increments t + 1, 180 and 539 - t are the diagonal lengths of the 180-by-360 rectangle |
| JavaGpc.GetCombinationNumber | Java/GPC.java:207-248 | an index sum up to 538 gives the rank-style number of its diagonal position, which is the rank for a cell inside the rectangle; a larger sum gives 0 |
| JavaGpc.BlockStart | Java/GPC.java:218-221 | the summing loop of the first band counts the cells of all earlier diagonals |
| JavaGpc.MiddleStart | Java/GPC.java:228-232 | the middle band formula 16290 + (sum - 180) * 180 counts the earlier cells, and 180 - la is the position on the diagonal |
| JavaGpc.LastBlockStart | Java/GPC.java:237-242 | the summing loop of the last band, added to 48690, counts the cells of all earlier diagonals |
| JavaGpc.WholesOf | Java/GPC.java:392-456 | a number in 1 .. 64800 gives non-negative wholes whose cell it ranks; 0 or a negative number unfolds the negative assigned indices the first band leaves; a larger number gives zero wholes |
| JavaGpc.WholesRoundTrip | Java/GPC.java:209-210 | decoding the combination number of signs and wholes gives them back |
| JavaGpc.GetWholesFromCombination | Java/GPC.java:392-456 | the three band branches compute the decoded signs and wholes for every integer |
| JavaGpc.FirstBand | Java/GPC.java:404-416 | the search loop finds the cell of a number in 1 .. 16290, and leaves assigned indices (-c, c - 1) for c <= 0 |
| JavaGpc.MiddleBand | Java/GPC.java:417-432 | with the IsLast correction for multiples of 180, the cell found is the one the number ranks |
| JavaGpc.LastBand | Java/GPC.java:433-448 | the search loop from diagonal 360 finds the cell the number ranks |
| JavaGpc.InRangeFits | Java/GPC.java:135-143 | coordinates pass both strict range checks exactly when they are cells of the 180-by-360 rectangle |
| Coordinates.WholeBelow | Java/GPC.java:135-143 | a magnitude below m degrees is a whole below m |
| JavaGpc.Encode | Java/GPC.java:129-158 | the latitude error comes exactly for a latitude outside (-90, 90), the longitude error exactly for an in-range latitude with a longitude outside (-180, 180), success otherwise, with 11 canonical symbols or 14 formatted characters |
| JavaGpc.GetPointNumber | Java/GPC.java:161-178 | the point number is the codec's point number of the pair, with combination number in 1 .. 64800 |
| JavaGpc.GetGridPointCode | Java/GPC.java:129-158 | the method computes the encoder's result |
| JavaGpc.GetFormattedGridPointCode | Java/GPC.java:124-127 | the one-argument overload formats, giving 14 characters starting with '#' |
| JavaGpc.Truncation | Java/GPC.java:103-111 | truncating division leaves a remainder with the dividend's sign, which is the Euclidean remainder for non-negative dividends and its negation otherwise |
| JavaGpc.SignedDigits | Java/GPC.java:381-386 | for a non-negative fractional part the digits are the codec's digits, and for a negative one each digit is the negation of the corresponding digit of its magnitude |
| JavaGpc.DigitOf | Java/GPC.java:384-385 | the truncated quotient's remainder by 10 is the decimal digit, with the dividend's sign |
| JavaGpc.SevensAt | Java/GPC.java:370-389 | both axes have five digits, and with a non-negative fractional part they are the codec's axes |
| JavaGpc.CoordinatesOfPoint | Java/GPC.java:343-348 | every point number gives two axes of five digits, and a non-negative one splits by truncating division exactly as the codec splits it, into the decoded wholes of its combination number and the digits of its fractional block |
| JavaGpc.NonNegativeSplit | Java/GPC.java:345-346 | on a non-negative point number the truncated quotient by 10^10 and what is left are the Euclidean quotient and remainder |
| JavaGpc.CoordinatesInRange | Java/GPC.java:342-348 | a non-negative point number with combination number in range decodes as the codec decodes it |
| JavaGpc.NoCellBelow | Java/GPC.java:404-416 | a point number below 10^10 decodes to a negative longitude whole, an axis no coordinate has |
| JavaGpc.NoCellAbove | Java/GPC.java:433-456 | a point number beyond the last combination number keeps zero wholes |
| JavaGpc.GetCoordinateSeven | Java/GPC.java:370-389 | the method builds both axes from the decoded wholes and the signed digits |
| JavaGpc.FractionalDigits | Java/GPC.java:381-386 | the loop extracts the truncated digits of both axes |
| JavaGpc.GetCoordinatesOfPoint | Java/GPC.java:342-348 | the method decodes a signed point number as the functional decoder does |
| JavaGpc.DecodeSymbols | Java/GPC.java:298-303 | any eleven symbols decode to two axes of five digits each |
| JavaGpc.Decode | Java/GPC.java:294-304 | decoding fails exactly when unformatting fails, with the same error |
| JavaGpc.CoordinatesOfCode | Java/GPC.java:294-304 | a cell's symbols decode to the cell |
| JavaGpc.GetCoordinates | Java/GPC.java:294-304 | the method fails as the decoder does, and otherwise returns both axes' signed scaled values |
| JavaGpc.RoundTrip | Java/GPC.java:129-158 | decoding the code of in-range coordinates, formatted or not, gives the same coordinates |
| JavaGpc.DecodeCode | Java/GPC.java:294-325 | the bare and the formatted code of a cell both decode to the cell |
| JavaGpc.ValueRoundTrip | Java/GPC.java:352-367 | the decoded values equal the scaled input latitude and longitude |
| JavaGpc.EncodeInjective | Java/GPC.java:129-158 | two inputs with the same code are the same coordinates |
| JavaGpc.DecodeIgnoresCase | Java/GPC.java:309 | inputs that differ only in letter case decode alike |
| JavaGpc.DecodeLowerCase | Java/GPC.java:309 | a lower-cased formatted code decodes to the encoded coordinates |
| JavaGpc.LigatureDecodes | Java/GPC.java:293-322 | U+FB00 and nine symbols are accepted and decode exactly as "FF" and the same nine symbols |
| Codec.PaddedCode | Java/GPC.java:307-325 | a value with ten base-27 digits padded with a leading zero is an accepted eleven-symbol code with that value |
| JavaGpc.ZeroCombinationDecodes | Java/GPC.java:404-416 | the code with combination number 0 decodes to longitude whole -1, which recombines to +1.0 degree, the value the encoder's different code for (0.0, 1.0) decodes to |
| JavaGpc.NegativePointDecodes | Java/GPC.java:298-300 | a code 200 * 10^10 below Eleven decodes to latitude 100.0, which the encoder refuses, and a longitude whole of -101 |
| JavaGpc.UnusedCombinationDecodes | Java/GPC.java:433-456 | the code with combination number 64801 decodes to (0.0, 0.0), as the encoder's different code for (0.0, 0.0) does |
| JavaGpc.CheckedSymbols | Java/GPC.java:298-303 | the checked decoder accepts exactly the codes with value at least Eleven and combination number in 1 .. 64800, decodes them as the source does, and they re-encode to themselves; others fail with UndefinedDecode |
| JavaGpc.CheckedDecode | Java/GPC.java:294-304 | an accepted input decodes as the source decodes it to valid axes that re-encode to the unformatted input; unformatting errors pass through |
| JavaGpc.CheckedRoundTrip | Java/GPC.java:129-158 | the checked decoder also inverts the encoder |
| JavaGpc.CheckedCode | Java/GPC.java:294-304 | the checked decoder accepts every cell's code |
| JavaGpc.CheckedRefusesFindings | Java/GPC.java:392-456 | the checked decoder refuses the combination-0 code, the negative-point code and combination number 64801 |

## Left out

- Conversion between `double` and the seven parts is left out: the split of a
  coordinate into sign, whole and five digits (`decimal` in C#, `BigDecimal` in
  Java), and the final division of the scaled value by 10^5. The model starts
  and ends at the seven parts, and a decoded coordinate is its scaled integer.
- `Math.Pow`, `Math.Truncate` and the division of the point number by 10^10 are
  floating point in the source. They are modelled as exact integer arithmetic.
  Every value involved stays below 2^53, where the two agree.
- C# inputs between 90 and 90.00001 (and the same at the other bounds) are
  left out. The inclusive `double` check rejects them, although they truncate
  to 90.00000.
- The sign of -0.0 is left out. A coordinate is negative only below zero.
- CSharpGpc.Decode: a C# code whose value is below Eleven makes the `ulong`
  point number wrap around. The model reports UndefinedDecode there instead
  of decoding the wrapped value, whose division by 10^10 is floating point
  beyond 2^53.
- CSharpGpc.DecodeSymbols: reports UndefinedDecode for a value below Eleven,
  for the same reason; the source decodes the wrapped `ulong`.
- CSharpGpc.GetCoordinates: inherits that UndefinedDecode, which the source
  never raises.
- CSharpGpc.GetCoordinatesOfSymbols: returns UndefinedDecode for a value below
  Eleven, where the source goes on with the wrapped `ulong`.
- Exception classes and messages become the `Error` values of `Outcomes`.
- Formatting.Unformat: upper-cases ASCII letters and, under Java, the three
  ligatures whose capitals are alphabet letters. Both runtimes map other
  letters too (for example U+00E9 to U+00C9). Java also expands further
  characters (U+00DF to "SS", U+FB01 to "FI", U+FB06 to "ST"). Every such
  result holds a character outside the alphabet, so acceptance and the
  decoded pair are exact. Only the error can differ. U+00DF with nine symbols
  gives InvalidCharacter in Java but WrongLength in the model. With ten
  symbols it is the reverse.
- JavaGpc.Decode: accepts codes typed with U+FB00, U+FB02 or U+FB04, as Java
  does. For the other length-changing upper-case forms it may report
  WrongLength where Java reports InvalidCharacter, or the reverse (see
  Formatting.Unformat above).
- JavaGpc.GetCoordinates: inherits Decode's error for those inputs.
- Formatting.Validate: a Dafny string holds Unicode scalar values, so a
  lone surrogate cannot be written as input. In C# and Java a lone
  surrogate is one code unit and fails the alphabet check.
- The C++ header, the console test driver and `Coordinates.java` are not part
  of this model. They have no bodies, do console I/O, or hold `double`s.
- FormatGPC produces 14 characters: `#`, eleven symbols and two dashes.
- Neither source file raises an error for a combination number with no
  cell. Such codes decode silently (see Findings), and only the corrected
  decoders refuse them.

## Findings

| source | as written | input that shows it | evidently intended | confidence | as-written member | corrected member |
|---|---|---|---|---|---|---|
| CSharp/GPC.cs:413-433 | a combination number above 65884 finds no diagonal and decodes with zero wholes | the code with combination number 65885 and zero digits decodes to (0.0, 0.0), the pair of a different code | refuse combination numbers outside 1 .. 65884 | not executed | CSharpGpc.UnusedCombinationDecodes | CSharpGpc.CheckedDecode |
| CSharp/GPC.cs:411-545 | combination number 0 is not refused: the search stops on anti-diagonal 0 (Sum = 0), every correcting walk requires Sum > 0, Sum >= 182 or Sum >= 361, so the assigned indices stay 0 and the code decodes with zero wholes; this holds for the eleven-symbol codes starting with '0' whose value lies in [Eleven, Eleven + 10^10) | the code of value Eleven decodes to (0.0, 0.0), the pair of a different code | refuse combination number 0 | not executed | CSharpGpc.ZeroCombinationDecodes | CSharpGpc.CheckedDecode |
| CSharp/GPC.cs:34-47 | the decoder accepts every cell of the rectangle the encoder cannot produce: latitudes ±90.00001 .. ±90.99999, longitudes ±180.00001 .. ±180.99999, and ±90.0 with a longitude other than 0.0 | the code of (90.00001, 0.0) decodes to latitude 90.00001; the code of (-90.5, 0.0) to -90.5; the code of (90.0, 1.0) to longitude 1.0 | refuse decoded pairs the encoder would not produce | not executed | CSharpGpc.UnencodableDecodes | CSharpGpc.CheckedDecode |
| Java/GPC.java:404-416 | combination number 0 skips the search loop and leaves assigned longitude -1 | the code with combination number 0 and zero digits decodes to longitude whole -1, which recombines to +1.0 degree | refuse combination number 0 | not executed | JavaGpc.ZeroCombinationDecodes | JavaGpc.CheckedDecode |
| Java/GPC.java:298-300 | a code below Eleven gives a negative point number, which decodes with truncating division | the code of value Eleven - 200 * 10^10 decodes to latitude 100.0 | refuse codes below Eleven | not executed | JavaGpc.NegativePointDecodes | JavaGpc.CheckedDecode |
| Java/GPC.java:433-456 | a combination number above 64800 matches no band and decodes with zero wholes | the code with combination number 64801 and zero digits decodes to (0.0, 0.0), the pair of a different code | refuse combination numbers outside 1 .. 64800 | not executed | JavaGpc.UnusedCombinationDecodes | JavaGpc.CheckedDecode |

=== FILE: base27.dfy ===
/**
 The base-27 alphabet of the code and the two conversions between a number
 and its symbols. The alphabet is the ten digits followed by seventeen
 upper-case letters; the vowels and the letters easily mistaken for digits
 (B, I, O, S, Z, ...) are not in it. Both implementations share the same
 alphabet, the same offset Eleven and the same two conversions.
 */
module Base27 {
  import opened Positional

  const Characters: string := "0123456789CDFGHJKLMNPRTVWXY"

  /** Added to every point number so that each code has exactly eleven
      symbols: 27^10 - 10^10. */
  const Eleven: nat := 205881132094649

  /** A character of the alphabet (string Contains in both languages). */
  predicate IsSymbol(ch: char)
  {
    IndexOf(ch) >= 0
  }

  predicate AllSymbols(s: string)
  {
    forall i :: 0 <= i < |s| ==> IsSymbol(s[i])
  }

  /** The offset is the gap between the smallest eleven-symbol number and
      the smallest point number with a non-zero combination number. */
  lemma ElevenIsGap()
    ensures Eleven == Pow(27, 10) - Pow(10, 10)
    ensures Pow(27, 11) == 5559060566555523
  {
  }

  // ---------------------------------------------------------------------
  // Symbol indices

  /** The position of ch in the alphabet, searched from `from` on, or -1. */
  function IndexFrom(ch: char, from: nat): (k: int)
    requires from <= |Characters|
    ensures k == -1 || (from <= k < |Characters| && Characters[k] == ch)
    decreases |Characters| - from
  {
    if from == |Characters| then -1
    else if Characters[from] == ch then from
    else IndexFrom(ch, from + 1)
  }

  /** The search finds ch when ch occurs at or after `from`, and then at its
      first such position. */
  lemma {:induction false} IndexFromFinds(ch: char, from: nat, j: nat)
    requires from <= j < |Characters| && Characters[j] == ch
    ensures from <= IndexFrom(ch, from) <= j
    decreases j - from
  {
    if Characters[from] != ch {
      IndexFromFinds(ch, from + 1, j);
    }
  }

  /** The first position of ch in the alphabet, or -1 when ch does not
      occur in it (string IndexOf in both languages). */
  function IndexOf(ch: char): (k: int)
    ensures -1 <= k < 27
    ensures k >= 0 ==> Characters[k] == ch
  {
    IndexFrom(ch, 0)
  }

  /** IndexOf answers -1 exactly for the characters outside the alphabet. */
  lemma IndexOfMissing(ch: char)
    ensures IndexOf(ch) == -1 <==> forall j :: 0 <= j < 27 ==> Characters[j] != ch
  {
    if IndexOf(ch) == -1 {
      forall j | 0 <= j < 27
        ensures Characters[j] != ch
      {
        if Characters[j] == ch {
          IndexFromFinds(ch, 0, j);
        }
      }
    }
  }

  /** The symbols are pairwise distinct, so a symbol's index is its position. */
  lemma IndexOfSymbol(k: nat)
    requires k < 27
    ensures IndexOf(Characters[k]) == k
  {
    IndexFromFinds(Characters[k], 0, k);
    assert forall i, j :: 0 <= i < j < 27 ==> Characters[i] != Characters[j];
  }

  /** Every symbol is a decimal digit or an upper-case ASCII letter. */
  lemma SymbolShape(ch: char)
    requires IsSymbol(ch)
    ensures '0' <= ch <= '9' || 'C' <= ch <= 'Y'
  {
    var k := IndexOf(ch);
    if k < 10 {
      DigitSymbols(k);
    } else {
      LetterSymbols(k);
    }
  }

  lemma DigitSymbols(k: nat)
    requires k < 10
    ensures '0' <= Characters[k] <= '9'
  {
    assert Characters[..10] == "0123456789";
    assert Characters[k] == Characters[..10][k];
  }

  lemma LetterSymbols(k: nat)
    requires 10 <= k < 27
    ensures 'C' <= Characters[k] <= 'Y'
  {
    assert Characters[10..] == "CDFGHJKLMNPRTVWXY";
    assert Characters[k] == Characters[10..][k - 10];
  }

  /** The indices of all symbols of s. */
  function Indices(s: string): (ds: seq<int>)
    requires AllSymbols(s)
    ensures |ds| == |s| && IsDigits(27, ds)
    ensures forall i :: 0 <= i < |s| ==> Characters[ds[i]] == s[i]
  {
    seq(|s|, i requires 0 <= i < |s| => IndexOf(s[i]))
  }

  // ---------------------------------------------------------------------
  // Number to symbols and back

  /** The shortest base-27 representation of n ("0" for zero). */
  function Symbols(n: nat): (s: string)
    ensures |s| >= 1 && AllSymbols(s)
    ensures |s| > 1 ==> s[0] != Characters[0]
    decreases n
  {
    if n < 27 then IndexOfSymbol(n); [Characters[n]]
    else IndexOfSymbol(n % 27); Symbols(n / 27) + [Characters[n % 27]]
  }

  /** The number a string of symbols denotes. */
  function SymbolValue(s: string): (v: nat)
    requires AllSymbols(s)
    ensures v < Pow(27, |s|)
  {
    ValueBound(27, Indices(s));
    Value(27, Indices(s))
  }

  /** A string without a leading "0" (other than "0" itself). */
  predicate Canonical(s: string)
  {
    |s| >= 1 && (|s| > 1 ==> s[0] != Characters[0])
  }

  /** Reading back the symbols of n gives n. */
  lemma {:induction false} SymbolValueOfSymbols(n: nat)
    ensures SymbolValue(Symbols(n)) == n
    decreases n
  {
    var s := Symbols(n);
    var ds := Indices(s);
    if n < 27 {
      IndexOfSymbol(n);
      assert ds == [n];
      assert ds[..0] == [];
      assert Value(27, ds) == n;
    } else {
      var q, r := n / 27, n % 27;
      SymbolValueOfSymbols(q);
      var init := Symbols(q);
      assert s == init + [Characters[r]];
      IndexOfSymbol(r);
      assert ds[..|s| - 1] == Indices(init);
      assert ds[|s| - 1] == r;
      assert Value(27, ds) == q * 27 + r;
      assert n == q * 27 + r;
    }
    assert SymbolValue(s) == Value(27, ds);
  }

  /** A canonical string of symbols is the representation of its value. */
  lemma {:induction false} SymbolsOfSymbolValue(s: string)
    requires AllSymbols(s) && Canonical(s)
    ensures Symbols(SymbolValue(s)) == s
    decreases |s|
  {
    var ds := Indices(s);
    var v := SymbolValue(s);
    if |s| == 1 {
      assert ds[..0] == [];
      assert v == ds[0];
      assert Symbols(v) == [Characters[ds[0]]];
    } else {
      var init := s[..|s| - 1];
      var d := ds[|s| - 1];
      assert Indices(init) == ds[..|s| - 1];
      assert Canonical(init) by {
        assert init[0] == s[0];
      }
      var w := SymbolValue(init);
      assert v == w * 27 + d;
      SymbolsOfSymbolValue(init);
      assert w >= 1;
      DivUnique(v, 27, w, d);
      assert Symbols(v) == Symbols(w) + [Characters[d]];
      assert s == init + [s[|s| - 1]];
    }
  }

  /** A leading "0" adds nothing to the value. */
  lemma LeadingZero(s: string)
    requires AllSymbols(s) && |s| >= 2 && s[0] == Characters[0]
    ensures SymbolValue(s) == SymbolValue(s[1..])
  {
    IndexOfSymbol(0);
    var ds := Indices(s);
    assert ds == [0] + Indices(s[1..]);
    LeadingZeroDigits(Indices(s[1..]));
  }

  lemma LeadingZeroDigits(ds: seq<int>)
    ensures Value(27, [0] + ds) == Value(27, ds)
  {
    ValueConcat(27, [0], ds);
    assert [0][..0] == [];
    assert Value(27, [0]) == 0;
  }

  /** The representation of n has at most k symbols exactly when n < 27^k. */
  lemma {:induction false} SymbolsLength(n: nat, k: nat)
    requires k >= 1
    ensures |Symbols(n)| <= k <==> n < Pow(27, k)
    decreases n
  {
    if n >= 27 {
      if k == 1 {
        var m := n / 27;
        assert |Symbols(n)| == |Symbols(m)| + 1;
      } else {
        SymbolsLength(n / 27, k - 1);
        var p := Pow(27, k - 1);
        assert Pow(27, k) == 27 * p;
        assert n / 27 < p <==> n < 27 * p by {
          if n / 27 < p {
            MulMonotone(n / 27, p - 1, 27);
          } else {
            MulMonotone(p, n / 27, 27);
          }
        }
      }
    } else {
      PowPositive(27, k - 1);
      assert Pow(27, k) == 27 * Pow(27, k - 1);
    }
  }

  /** Exactly the numbers in [27^10, 27^11) have eleven symbols. */
  lemma ElevenSymbols(n: nat)
    ensures |Symbols(n)| == 11 <==> Pow(27, 10) <= n < Pow(27, 11)
  {
    SymbolsLength(n, 10);
    SymbolsLength(n, 11);
  }

  // ---------------------------------------------------------------------
  // The two conversions as the source writes them

  /** EncodePoint: "0" for zero, otherwise the remainders modulo 27 are
      prepended until the number is used up. */
  method EncodePoint(point: nat) returns (code: string)
    ensures code == Symbols(point)
    ensures AllSymbols(code) && Canonical(code) && SymbolValue(code) == point
  {
    if point == 0 {
      code := [Characters[0]];
      assert code == Symbols(0);
    } else {
      var p: nat := point;
      code := "";
      while p > 0
        invariant p > 0 ==> Symbols(p) + code == Symbols(point)
        invariant p == 0 ==> code == Symbols(point)
        decreases p
      {
        if p >= 27 {
          assert Symbols(p) == Symbols(p / 27) + [Characters[p % 27]];
        }
        code := [Characters[p % 27]] + code;
        p := p / 27;
      }
    }
    SymbolValueOfSymbols(point);
  }

  /** DecodeToPoint: the left fold result := result * 27 + index. The
      callers validate the code first, so every character is a symbol. */
  method DecodeToPoint(code: string) returns (point: nat)
    requires AllSymbols(code)
    ensures point == SymbolValue(code)
    ensures point < Pow(27, |code|)
    ensures Canonical(code) ==> Symbols(point) == code
  {
    var ds := Indices(code);
    point := 0;
    var i := 0;
    while i < |code|
      invariant 0 <= i <= |code|
      invariant point == Value(27, ds[..i])
    {
      assert ds[..i + 1][..i] == ds[..i];
      point := point * 27 + IndexOf(code[i]);
      i := i + 1;
    }
    assert ds[..|code|] == ds;
    if Canonical(code) {
      SymbolsOfSymbolValue(code);
    }
  }
}

=== FILE: codec.dfy ===
/**
 The codec core shared by both implementations, for a rectangle of `a`
 assigned latitude indices by `b` assigned longitude indices: a coordinate
 pair becomes a point number (its combination number above the ten
 interleaved fractional digits), the point number plus Eleven becomes
 eleven base-27 symbols, and each step is undone by the decoder.
 */
module Codec {
  import opened Positional
  import opened DiagonalRank
  import opened Coordinates
  import opened PointNumber
  import opened Base27

  /** The largest number of cells for which every point number, plus
      Eleven, still has exactly eleven symbols. */
  const Capacity: nat := 535316

  /** Two axes that the rectangle can number. */
  predicate Fits(a: nat, b: nat, lat: Seven, lon: Seven)
  {
    ValidShape(a, b) && Valid(lat) && Valid(lon) && InRect(a, b, Assigned(lat), Assigned(lon))
  }

  /** The point number of a coordinate pair; its combination number, the
      part above 10^10, is never zero. */
  function PointOf(a: nat, b: nat, lat: Seven, lon: Seven): (point: nat)
    requires Fits(a, b, lat, lon)
    ensures 1 <= point / Shift <= a * b
    ensures Shift <= point < (a * b + 1) * Shift
  {
    RankBounds(a, b, Assigned(lat), Assigned(lon));
    var point := Assemble(Rank(a, b, Assigned(lat), Assigned(lon)), lat.digits, lon.digits);
    QuotientBounds(point, a * b);
    point
  }

  lemma QuotientBounds(point: nat, m: nat)
    requires 1 <= point / Shift <= m
    ensures Shift <= point < (m + 1) * Shift
  {
    var q := point / Shift;
    assert point == q * Shift + point % Shift;
    MulMonotone(1, q, Shift);
    MulMonotone(q + 1, m + 1, Shift);
  }

  /** The unformatted code of a coordinate pair: eleven symbols without a
      leading zero. */
  function CodeOf(a: nat, b: nat, lat: Seven, lon: Seven): (code: string)
    requires Fits(a, b, lat, lon) && a * b <= Capacity
    ensures |code| == 11 && AllSymbols(code) && Canonical(code)
  {
    var n := PointOf(a, b, lat, lon) + Eleven;
    ElevenIsGap();
    MulMonotone(a * b + 1, Capacity + 1, Shift);
    ElevenSymbols(n);
    Symbols(n)
  }

  /** The two axes a decoder builds from signs and wholes and the ten
      fractional digits. */
  function SevensOf(w: SignWhole, fractional: nat): (lat_lon: (Seven, Seven))
    ensures WellFormed(lat_lon.0) && WellFormed(lat_lon.1)
  {
    (Seven(w.latitudeNegative, w.latitudeWhole, LatitudeDigits(fractional)),
     Seven(w.longitudeNegative, w.longitudeWhole, LongitudeDigits(fractional)))
  }

  /** Decoding a point number whose combination number is in range. */
  function DecodePoint(a: nat, b: nat, point: nat): (lat_lon: (Seven, Seven))
    requires ValidShape(a, b) && 1 <= point / Shift <= a * b
    ensures Fits(a, b, lat_lon.0, lat_lon.1)
  {
    var p := Unrank(a, b, point / Shift);
    FoldUnfold(p.la);
    FoldUnfold(p.lo);
    SevensOf(Unfold(p.la, p.lo), point % Shift)
  }

  // ---------------------------------------------------------------------
  // Round trips

  /** Decoding the point number of a coordinate pair gives the pair back. */
  lemma PointRoundTrip(a: nat, b: nat, lat: Seven, lon: Seven)
    requires Fits(a, b, lat, lon)
    ensures DecodePoint(a, b, PointOf(a, b, lat, lon)) == (lat, lon)
  {
    var point := PointOf(a, b, lat, lon);
    var cell := Cell(Assigned(lat), Assigned(lon));
    SplitAssemble(Rank(a, b, cell.la, cell.lo), lat.digits, lon.digits);
    UnrankRank(a, b, cell);
    UnfoldFold(lat.negative, lat.whole);
    UnfoldFold(lon.negative, lon.whole);
  }

  /** Every point number with its combination number in range is the
      point number of the pair it decodes to. */
  lemma DecodedPoint(a: nat, b: nat, point: nat)
    requires ValidShape(a, b) && 1 <= point / Shift <= a * b
    ensures PointOf(a, b, DecodePoint(a, b, point).0, DecodePoint(a, b, point).1) == point
  {
    var p := Unrank(a, b, point / Shift);
    FoldUnfold(p.la);
    FoldUnfold(p.lo);
    AssembleSplit(point);
  }

  /** The symbols of a code read back as its point number plus Eleven. */
  lemma CodeValue(a: nat, b: nat, lat: Seven, lon: Seven)
    requires Fits(a, b, lat, lon) && a * b <= Capacity
    ensures SymbolValue(CodeOf(a, b, lat, lon)) == PointOf(a, b, lat, lon) + Eleven
  {
    SymbolValueOfSymbols(PointOf(a, b, lat, lon) + Eleven);
  }

  /** Decoding a code gives back the coordinate pair it was made from. */
  lemma CodeRoundTrip(a: nat, b: nat, lat: Seven, lon: Seven)
    requires Fits(a, b, lat, lon) && a * b <= Capacity
    ensures SymbolValue(CodeOf(a, b, lat, lon)) >= Eleven
    ensures 1 <= (SymbolValue(CodeOf(a, b, lat, lon)) - Eleven) / Shift <= a * b
    ensures DecodePoint(a, b, SymbolValue(CodeOf(a, b, lat, lon)) - Eleven) == (lat, lon)
  {
    CodeValue(a, b, lat, lon);
    PointRoundTrip(a, b, lat, lon);
  }

  /** Distinct coordinate pairs have distinct codes. */
  lemma CodeInjective(a: nat, b: nat, lat1: Seven, lon1: Seven, lat2: Seven, lon2: Seven)
    requires Fits(a, b, lat1, lon1) && Fits(a, b, lat2, lon2) && a * b <= Capacity
    requires CodeOf(a, b, lat1, lon1) == CodeOf(a, b, lat2, lon2)
    ensures lat1 == lat2 && lon1 == lon2
  {
    CodeValue(a, b, lat1, lon1);
    CodeValue(a, b, lat2, lon2);
    PointInjective(a, b, lat1, lon1, lat2, lon2);
  }

  /** Distinct coordinate pairs have distinct point numbers. */
  lemma PointInjective(a: nat, b: nat, lat1: Seven, lon1: Seven, lat2: Seven, lon2: Seven)
    requires Fits(a, b, lat1, lon1) && Fits(a, b, lat2, lon2)
    requires PointOf(a, b, lat1, lon1) == PointOf(a, b, lat2, lon2)
    ensures lat1 == lat2 && lon1 == lon2
  {
    PointRoundTrip(a, b, lat1, lon1);
    PointRoundTrip(a, b, lat2, lon2);
  }

  /** Every eleven-symbol code whose combination number is in range is the
      code of the pair it decodes to: the codes with an in-range
      combination number and the coordinate pairs of the rectangle are in
      one-to-one correspondence. */
  lemma CodeOfDecoded(a: nat, b: nat, code: string, point: nat)
    requires ValidShape(a, b) && a * b <= Capacity
    requires |code| == 11 && AllSymbols(code) && SymbolValue(code) >= Eleven
    requires point == SymbolValue(code) - Eleven && 1 <= point / Shift <= a * b
    ensures CodeOf(a, b, DecodePoint(a, b, point).0, DecodePoint(a, b, point).1) == code
  {
    var pair := DecodePoint(a, b, point);
    DecodedPoint(a, b, point);
    assert PointOf(a, b, pair.0, pair.1) + Eleven == SymbolValue(code);
    QuotientBounds(point, a * b);
    ElevenCanonical(code);
    SymbolsOfSymbolValue(code);
  }

  /** An eleven-symbol code whose value reaches 27^10 has no leading zero. */
  lemma ElevenCanonical(code: string)
    requires |code| == 11 && AllSymbols(code) && SymbolValue(code) >= Eleven + Shift
    ensures Canonical(code)
  {
    ElevenIsGap();
    if code[0] == Characters[0] {
      LeadingZero(code);
    }
  }

  /** The code of a combination number with all ten fractional digits
      zero: its eleven symbols read back as the combination number above
      the fractional block, plus Eleven. */
  function BareCode(combination: nat): (code: string)
    requires 1 <= combination <= Capacity
    ensures |code| == 11 && AllSymbols(code) && SymbolValue(code) == Eleven + combination * Shift
  {
    var n := Eleven + combination * Shift;
    BareBounds(combination, n);
    ElevenSymbols(n);
    SymbolValueOfSymbols(n);
    Symbols(n)
  }

  /** The value of a bare code has eleven symbols. */
  lemma BareBounds(combination: nat, n: nat)
    requires 1 <= combination <= Capacity && n == Eleven + combination * Shift
    ensures Pow(27, 10) <= n < Pow(27, 11)
  {
    ElevenIsGap();
    MulMonotone(1, combination, Shift);
    MulMonotone(combination, Capacity, Shift);
    assert Capacity * Shift == 5353160000000000;
  }

  /** The eleven-symbol code of a value with ten symbols: a leading zero
      followed by the symbols. */
  function PaddedCode(n: nat): (code: string)
    requires Pow(27, 9) <= n < Pow(27, 10)
    ensures |code| == 11 && AllSymbols(code) && SymbolValue(code) == n
  {
    SymbolsLength(n, 10);
    SymbolsLength(n, 9);
    SymbolValueOfSymbols(n);
    IndexOfSymbol(0);
    var code := [Characters[0]] + Symbols(n);
    assert code[1..] == Symbols(n);
    LeadingZero(code);
    code
  }

  /** The code of value Eleven: point number 0, combination number 0. */
  function ZeroCombinationCode(): (code: string)
    ensures |code| == 11 && AllSymbols(code) && SymbolValue(code) == Eleven
  {
    ElevenIsGap();
    PaddedCode(Eleven)
  }
}

=== FILE: coordinates.dfy ===
/**
 One axis of a coordinate as both implementations hold it after breaking a
 double into "seven parts": a sign, the whole degrees and five fractional
 digits (truncated, never rounded). The model starts and ends at this form;
 the conversions from and to a double are floating point and are not part
 of it. Values are measured in units of 10^-5 degree, so that they stay
 integers.
 */
module Coordinates {
  import opened Positional

  /** Seven parts of one axis: sign (true for -1), whole degrees, and the
      fractional digits d1 .. d5. Wholes and digits are ints because the
      Java decoder, given a code below its range, unfolds a negative
      assigned index and takes digits of a negative block (see JavaGpc). */
  datatype Seven = Seven(negative: bool, whole: int, digits: seq<int>)

  /** The sign and whole degrees of both axes (CoordinateSignWhole in Java). */
  datatype SignWhole = SignWhole(
    latitudeNegative: bool, latitudeWhole: int,
    longitudeNegative: bool, longitudeWhole: int)

  /** Five decimal digits. */
  predicate WellFormed(x: Seven)
  {
    |x.digits| == 5 && IsDigits(10, x.digits)
  }

  /** The parts of an actual coordinate: five digits and a non-negative
      whole part. */
  predicate Valid(x: Seven)
  {
    WellFormed(x) && x.whole >= 0
  }

  /** The seven parts of 0.0: the longitude substituted at either pole. */
  const Zero: Seven := Seven(false, 0, [0, 0, 0, 0, 0])

  /** 0.0 is a coordinate of magnitude 0. */
  lemma ZeroMagnitude()
    ensures Valid(Zero) && Magnitude(Zero) == 0 && Scaled(Zero) == 0
  {
    AllZero(Zero.digits);
  }

  lemma {:induction false} AllZero(ds: seq<int>)
    requires forall i :: 0 <= i < |ds| ==> ds[i] == 0
    ensures Value(10, ds) == 0
    decreases |ds|
  {
    if |ds| > 0 {
      AllZero(ds[..|ds| - 1]);
    }
  }

  /** Absolute value of the axis in units of 10^-5 degree. */
  function Magnitude(x: Seven): nat
    requires Valid(x)
  {
    ValueBound(10, x.digits);
    x.whole * 100000 + Value(10, x.digits)
  }

  /** The signed value the seven parts denote, in units of 10^-5 degree. */
  function Scaled(x: Seven): int
    requires Valid(x)
  {
    if x.negative then -(Magnitude(x) as int) else Magnitude(x)
  }

  function Abs(v: int): nat
  {
    if v < 0 then -v else v
  }

  /** Recombination of the seven parts into one value: the whole and the
      five digits are read as one decimal number, which is then scaled by
      the sign. The whole degrees and every digit can be read back from the
      result, so nothing is lost. */
  function CombineSeven(x: Seven): (v: int)
    requires |x.digits| == 5
    ensures Valid(x) ==> v == Scaled(x)
    ensures Valid(x) ==> Abs(v) / 100000 == x.whole
    ensures Valid(x) ==> forall i :: 0 <= i < 5 ==> (Abs(v) / Pow(10, 4 - i)) % 10 == x.digits[i]
  {
    ReadBack(x);
    (if x.negative then -1 else 1) * Value(10, [x.whole] + x.digits)
  }

  /** The whole part followed by the five digits, read as one decimal
      number, is the magnitude, and every part can be read back from it. */
  lemma ReadBack(x: Seven)
    requires |x.digits| == 5
    ensures Valid(x) ==> Value(10, [x.whole] + x.digits) == Magnitude(x)
    ensures Valid(x) ==> Magnitude(x) / 100000 == x.whole
    ensures Valid(x) ==> forall i :: 0 <= i < 5 ==> (Magnitude(x) / Pow(10, 4 - i)) % 10 == x.digits[i]
  {
    if !Valid(x) {
      return;
    }
    var parts := [x.whole] + x.digits;
    ValueConcat(10, [x.whole], x.digits);
    assert Value(10, [x.whole]) == x.whole by {
      assert [x.whole][..0] == [];
    }
    assert Pow(10, 5) == 100000;
    ValueBound(10, x.digits);
    DivUnique(Value(10, parts), 100000, x.whole, Value(10, x.digits));
    forall i | 0 <= i < 5
      ensures (Value(10, parts) / Pow(10, 4 - i)) % 10 == x.digits[i]
    {
      assert parts[i + 1..] == x.digits[i..];
      assert NonNegative(parts) by {
        assert forall j :: 0 < j < |parts| ==> parts[j] == x.digits[j - 1];
      }
      DigitAt(10, parts, i + 1);
    }
  }

  // ---------------------------------------------------------------------
  // Sign folding

  /** The assigned index of an axis: twice the whole degrees, plus one when
      the sign is negative. */
  function Fold(negative: bool, whole: nat): nat
  {
    whole * 2 + (if negative then 1 else 0)
  }

  function Assigned(x: Seven): nat
    requires x.whole >= 0
  {
    Fold(x.negative, x.whole)
  }

  /** The sign read back from an assigned index: negative when it is odd. */
  function UnfoldNegative(index: int): bool
  {
    index % 2 != 0
  }

  /** The whole degrees read back from an assigned index. Both divisions are
      exact, so the truncating division of C# and Java gives the same
      result as Dafny's, also for a negative index. */
  function UnfoldWhole(index: int): int
  {
    if UnfoldNegative(index) then (index - 1) / 2 else index / 2
  }

  /** The signs and wholes of a pair of assigned indices. */
  function Unfold(assignedLatitude: int, assignedLongitude: int): SignWhole
  {
    SignWhole(UnfoldNegative(assignedLatitude), UnfoldWhole(assignedLatitude),
              UnfoldNegative(assignedLongitude), UnfoldWhole(assignedLongitude))
  }

  /** Unfolding recovers the sign and the whole degrees that were folded. */
  lemma UnfoldFold(negative: bool, whole: nat)
    ensures UnfoldNegative(Fold(negative, whole)) == negative
    ensures UnfoldWhole(Fold(negative, whole)) == whole
  {
  }

  /** Every assigned index is the fold of its unfolding. */
  lemma FoldUnfold(index: nat)
    ensures UnfoldWhole(index) >= 0
    ensures Fold(UnfoldNegative(index), UnfoldWhole(index)) == index
  {
  }

  /** An axis whose whole degrees are at most m has an assigned index below
      2m + 2, and conversely. */
  lemma FoldBound(negative: bool, whole: nat, m: nat)
    ensures whole <= m <==> Fold(negative, whole) < 2 * m + 2
  {
  }

  // ---------------------------------------------------------------------
  // Recombination

  /** The recombination loop of both decoders (GetCoordinates of two seven
      part arrays): from the last digit back to the whole part, the k-th
      part is weighted by 10^(5 - k), and the sign is applied at the end.
      The source then divides by 10^5 in floating point; the model keeps
      the value in units of 10^-5 degree. */
  method Recombine(x: Seven) returns (v: int)
    requires |x.digits| == 5
    ensures v == CombineSeven(x)
  {
    var temp := WeightedSum([x.whole] + x.digits);
    v := (if x.negative then -1 else 1) * temp;
    SignedValue(x, temp);
  }

  /** The loop itself: seven-part index x (from 6 down to 1) holds part
      x - 1 and is weighted by 10^(6 - x). */
  method WeightedSum(parts: seq<int>) returns (temp: int)
    requires |parts| == 6
    ensures temp == Value(10, parts)
  {
    var power := 0;
    temp := 0;
    var x := 6;
    while x >= 1
      invariant 0 <= x <= 6 && power == 6 - x
      invariant temp == Value(10, parts[x..])
    {
      PartStep(parts, x - 1);
      temp := temp + parts[x - 1] * Pow(10, power);
      power := power + 1;
      x := x - 1;
    }
    assert parts[0..] == parts;
  }

  lemma SignedValue(x: Seven, temp: int)
    requires |x.digits| == 5 && temp == Value(10, [x.whole] + x.digits)
    ensures (if x.negative then -1 else 1) * temp == CombineSeven(x)
  {
  }

  /** Part k is weighted by the width of the parts after it. */
  lemma PartStep(parts: seq<int>, k: nat)
    requires |parts| == 6 && k < 6
    ensures Value(10, parts[k..]) == parts[k] * Pow(10, 5 - k) + Value(10, parts[k + 1..])
  {
    assert parts[k..] == [parts[k]] + parts[k + 1..];
    ValueConcat(10, [parts[k]], parts[k + 1..]);
    assert [parts[k]][..0] == [];
  }

  /** A magnitude below m degrees has fewer than m whole degrees, and
      conversely. */
  lemma WholeBelow(x: Seven, m: nat)
    requires Valid(x)
    ensures Magnitude(x) < m * 100000 <==> x.whole < m
  {
    ValueBound(10, x.digits);
    ValueNonNegative(10, x.digits);
    if x.whole >= m {
      MulMonotone(m, x.whole, 100000);
    } else {
      MulMonotone(x.whole + 1, m, 100000);
    }
  }
}

=== FILE: csharp_gpc.dfy ===
/**
 The C# implementation (GPC.cs). Its rectangle of assigned indices is
 182 by 362: the latitude -90 .. 90 folds to 0 .. 181 and the longitude
 -180 .. 180 to 0 .. 361, so the combination numbers run from 1 to 65884.
 Both range checks are inclusive, and at either pole the longitude is
 replaced by 0.0 before encoding. The combination number is found by
 walking along an anti-diagonal with three counters X, Y and Z.
 */
module CSharpGpc {
  import opened Outcomes
  import opened Positional
  import opened DiagonalRank
  import opened Coordinates
  import opened PointNumber
  import opened Base27
  import opened Formatting
  import opened Codec

  /** Assigned latitudes 0 .. 181. */
  const Rows: nat := 182
  /** Assigned longitudes 0 .. 361. */
  const Columns: nat := 362
  /** The largest combination number. */
  const MaxCombination: nat := 65884

  /** The rectangle and its size. */
  lemma Shape()
    ensures ValidShape(Rows, Columns) && Rows * Columns == MaxCombination <= Capacity
  {
  }

  /** The rectangle, its size, and the two band bases the source adds:
      16653 cells lie on the anti-diagonals 0 .. 181 and 49231 on the
      anti-diagonals 0 .. 360. */
  lemma Constants()
    ensures ValidShape(Rows, Columns) && Rows * Columns == MaxCombination <= Capacity
    ensures Before(Rows, Columns, 182) == 16653
    ensures Before(Rows, Columns, 361) == 49231
  {
    BeforeLow(Rows, Columns, 182);
    BeforeMiddle(Rows, Columns, 361);
  }

  /** The number of cells on anti-diagonal t, as both loops of the source
      add it: t + 1 up to 181, then 182, then 543 - t up to 542. */
  lemma DiagonalLength(t: nat)
    ensures Count(Rows, Columns, t) ==
      if t <= 181 then t + 1 else if t <= 360 then 182 else if t <= 542 then 543 - t else 0
  {
  }

  // ---------------------------------------------------------------------
  // GetCombinationNumber

  /** The combination number of two axes' signs and wholes. The callers
      have checked the ranges, so both assigned indices lie in the
      rectangle; the three sentinel assignments of 66000 are unreachable. */
  method GetCombinationNumber(latitudeNegative: bool, latitudeWhole: nat,
                              longitudeNegative: bool, longitudeWhole: nat)
    returns (combination: int)
    requires InRect(Rows, Columns, Fold(latitudeNegative, latitudeWhole), Fold(longitudeNegative, longitudeWhole))
    ensures combination == Rank(Rows, Columns, Fold(latitudeNegative, latitudeWhole), Fold(longitudeNegative, longitudeWhole))
    ensures 1 <= combination <= MaxCombination
  {
    Constants();
    var assignedLongitude: int := Fold(longitudeNegative, longitudeWhole);
    var assignedLatitude: int := Fold(latitudeNegative, latitudeWhole);
    var sum := assignedLongitude + assignedLatitude;
    var difference := assignedLongitude - assignedLatitude;
    var isOdd := sum % 2 != 0;
    ghost var start := Before(Rows, Columns, sum);
    ghost var low := MinLo(Rows, sum);
    RankBounds(Rows, Columns, assignedLatitude, assignedLongitude);

    var d1, d2, dCombi := DiagonalEntry(sum);
    if sum <= 181 {
      assert 2 * d1 == sum + sum % 2;
    }
    // The counters start on the anti-diagonal, at the cell whose number
    // dCombi now holds.
    assert d1 + d2 == sum && dCombi == start + (d1 - low) + 1;
    OnDiagonal(Rows, Columns, sum, assignedLongitude);

    if sum > 0 && sum <= 181 && difference < 0 {
      var x, y, z := d1, d2, dCombi;
      while true
        invariant x + y == sum && assignedLongitude < x <= d1
        invariant z == start + (x - low) + 1
        decreases x
      {
        x := x - 1;
        y := y + 1;
        z := z - 1;
        if x + y != sum {
          assert false;
          dCombi := 66000;
          break;
        }
        if x == assignedLongitude {
          dCombi := z;
          break;
        }
      }
    } else if sum > 0 && sum <= 181 && difference >= 0 {
      var x, y, z := d1, d2, dCombi;
      while true
        invariant x + y == sum && d1 <= x <= assignedLongitude
        invariant z == start + (x - low) + 1
        decreases assignedLongitude - x
      {
        if x + y != sum {
          assert false;
          dCombi := 66000;
          break;
        }
        if x == assignedLongitude {
          dCombi := z;
          break;
        }
        x := x + 1;
        y := y - 1;
        z := z + 1;
      }
    }
    if sum >= 182 && sum <= 360 {
      var x, y, z := d1, d2, dCombi;
      while true
        invariant x + y == sum && d1 <= x <= assignedLongitude
        invariant z == start + (x - low) + 1
        decreases assignedLongitude - x
      {
        if x + y != sum {
          assert false;
          dCombi := 66000;
          break;
        }
        if x == assignedLongitude {
          dCombi := z;
          break;
        }
        x := x + 1;
        y := y - 1;
        z := z + 1;
      }
    }
    if sum >= 361 {
      var x, y, z := d1, d2, dCombi;
      while true
        invariant x + y == sum && assignedLongitude <= x <= d1
        invariant z == start + (x - low) + 1
        decreases x
      {
        if x + y != sum {
          assert false;
          dCombi := 66000;
          break;
        }
        if x == assignedLongitude {
          dCombi := z;
          break;
        }
        x := x - 1;
        y := y + 1;
        z := z - 1;
      }
    }
    combination := dCombi;
  }

  /** The first part of GetCombinationNumber: the band of the anti-diagonal
      decides where the counters X (d1), Y (d2) and Z (dCombi) start. They
      start on the anti-diagonal, with Z the number of the cell (Y, X): in
      the middle of the diagonal for the first band, at its first cell for
      the second and at its last cell for the third. */
  method DiagonalEntry(sum: int) returns (d1: int, d2: int, dCombi: int)
    requires 0 <= sum <= 542
    ensures d1 + d2 == sum
    ensures dCombi == Before(Rows, Columns, sum) + (d1 - MinLo(Rows, sum)) + 1
    ensures sum <= 181 ==> 2 * d1 == sum + sum % 2
    ensures 182 <= sum <= 360 ==> d1 == MinLo(Rows, sum)
    ensures 361 <= sum ==> d1 == MaxLo(Columns, sum)
  {
    Constants();
    var isOdd := sum % 2 != 0;
    ghost var start := Before(Rows, Columns, sum);
    d1, d2, dCombi := 0, 0, 0;
    if sum <= 181 {
      d1 := if isOdd then (sum - 1) / 2 + 1 else sum / 2;
      d2 := if isOdd then (sum - 1) / 2 else sum / 2;
      var x := sum - 1;
      while x >= 0
        invariant -1 <= x <= sum - 1
        invariant dCombi == start - Before(Rows, Columns, x + 1)
      {
        dCombi := dCombi + x + 1;
        x := x - 1;
      }
      dCombi := dCombi + (if isOdd then (sum + 1) / 2 + 1 else sum / 2 + 1);
    } else if sum <= 360 {
      dCombi := dCombi + 16653;
      d1 := sum - 181;
      d2 := 181;
      var x := sum - 1;
      while x >= 182
        invariant 181 <= x <= sum - 1
        invariant dCombi == 16653 + start - Before(Rows, Columns, x + 1)
      {
        dCombi := dCombi + 182;
        x := x - 1;
      }
      dCombi := dCombi + 1;
    } else if sum <= 542 {
      dCombi := dCombi + 49231;
      d1 := 361;
      d2 := sum - 361;
      var x := sum;
      while x >= 361
        invariant 360 <= x <= sum
        invariant dCombi == 49231 + Before(Rows, Columns, sum + 1) - Before(Rows, Columns, x + 1)
      {
        dCombi := dCombi + (543 - x);
        x := x - 1;
      }
      OnDiagonal(Rows, Columns, sum, 361);
    }
  }

  // ---------------------------------------------------------------------
  // GetWholesFromCombination

  /** The signs and wholes a combination number decodes to. Outside
      1 .. 65884 the source finds no anti-diagonal (or the first one) and
      leaves both assigned indices at 0, i.e. 0.0 on both axes. */
  function WholesOf(combination: int): (w: SignWhole)
    ensures w.latitudeWhole >= 0 && w.longitudeWhole >= 0
    ensures 1 <= combination <= MaxCombination ==>
      InRect(Rows, Columns, Fold(w.latitudeNegative, w.latitudeWhole), Fold(w.longitudeNegative, w.longitudeWhole)) &&
      Rank(Rows, Columns, Fold(w.latitudeNegative, w.latitudeWhole), Fold(w.longitudeNegative, w.longitudeWhole)) == combination
    ensures !(1 <= combination <= MaxCombination) ==> w == SignWhole(false, 0, false, 0)
  {
    Constants();
    if 1 <= combination <= MaxCombination then
      var p := Unrank(Rows, Columns, combination);
      FoldUnfold(p.la);
      FoldUnfold(p.lo);
      Unfold(p.la, p.lo)
    else
      Unfold(0, 0)
  }

  /** The signs and wholes of an in-range combination number unfold the
      cell Unrank gives. */
  lemma WholesOfCell(combination: int, la: int, lo: int)
    requires 1 <= combination <= MaxCombination && la >= 0 && lo >= 0
    requires ValidShape(Rows, Columns) && Unrank(Rows, Columns, combination) == Cell(la, lo)
    ensures WholesOf(combination) == Unfold(la, lo)
  {
  }

  /** Decoding the combination number of two axes gives their signs and
      wholes back. */
  lemma WholesRoundTrip(latitudeNegative: bool, latitudeWhole: nat, longitudeNegative: bool, longitudeWhole: nat)
    requires InRect(Rows, Columns, Fold(latitudeNegative, latitudeWhole), Fold(longitudeNegative, longitudeWhole))
    ensures WholesOf(Rank(Rows, Columns, Fold(latitudeNegative, latitudeWhole), Fold(longitudeNegative, longitudeWhole)))
         == SignWhole(latitudeNegative, latitudeWhole, longitudeNegative, longitudeWhole)
  {
    Constants();
    UnrankRank(Rows, Columns, Cell(Fold(latitudeNegative, latitudeWhole), Fold(longitudeNegative, longitudeWhole)));
    UnfoldFold(latitudeNegative, latitudeWhole);
    UnfoldFold(longitudeNegative, longitudeWhole);
  }

  /** The inverse of GetCombinationNumber, with the same counters walking
      the anti-diagonal until Z reaches the combination number. The four
      sentinel assignments of 999 are unreachable. */
  method GetWholesFromCombination(combinationNumber: int) returns (w: SignWhole)
    ensures w == WholesOf(combinationNumber)
  {
    Constants();
    var assignedLongitude, assignedLatitude := 0, 0;
    var combinationRange, sum := FindDiagonal(combinationNumber);
    var d1, d2, dCombi := DiagonalExit(sum, combinationRange);
    var difference := combinationNumber - dCombi;
    ghost var start := Before(Rows, Columns, sum);
    ghost var low := MinLo(Rows, sum);
    if sum > 0 {
      OnDiagonal(Rows, Columns, sum, d1);
    }

    if sum > 0 && sum <= 181 && difference < 0 {
      var x, y, z := d1, d2, dCombi;
      while true
        invariant x + y == sum && combinationNumber < z
        invariant z == start + (x - low) + 1
        decreases z
      {
        x := x - 1;
        y := y + 1;
        z := z - 1;
        if x + y != sum {
          assert false;
          assignedLongitude, assignedLatitude := 999, 999;
          break;
        }
        if z == combinationNumber {
          assignedLongitude, assignedLatitude := x, y;
          break;
        }
      }
    } else if sum > 0 && sum <= 181 && difference >= 0 {
      var x, y, z := d1, d2, dCombi;
      while true
        invariant x + y == sum && z <= combinationNumber
        invariant z == start + (x - low) + 1
        decreases combinationNumber - z
      {
        if x + y != sum {
          assert false;
          assignedLongitude, assignedLatitude := 999, 999;
          break;
        }
        if z == combinationNumber {
          assignedLongitude, assignedLatitude := x, y;
          break;
        }
        x := x + 1;
        y := y - 1;
        z := z + 1;
      }
    }
    if sum >= 182 && sum <= 360 {
      var x, y, z := d1, d2, dCombi;
      while true
        invariant x + y == sum && z <= combinationNumber
        invariant z == start + (x - low) + 1
        decreases combinationNumber - z
      {
        if x + y != sum {
          assert false;
          assignedLongitude, assignedLatitude := 999, 999;
          break;
        }
        if z == combinationNumber {
          assignedLongitude, assignedLatitude := x, y;
          break;
        }
        x := x + 1;
        y := y - 1;
        z := z + 1;
      }
    }
    if sum >= 361 {
      var x, y, z := d1, d2, dCombi;
      while true
        invariant x + y == sum && combinationNumber <= z
        invariant z == start + (x - low) + 1
        decreases z
      {
        if x + y != sum {
          assert false;
          assignedLongitude, assignedLatitude := 999, 999;
          break;
        }
        if z == combinationNumber {
          assignedLongitude, assignedLatitude := x, y;
          break;
        }
        x := x - 1;
        y := y + 1;
        z := z - 1;
      }
    }
    if 1 <= combinationNumber <= MaxCombination {
      CellOnDiagonal(Rows, Columns, sum, assignedLongitude, combinationNumber);
      WholesOfCell(combinationNumber, assignedLatitude, assignedLongitude);
    }
    w := Unfold(assignedLatitude, assignedLongitude);
  }

  /** The first part of GetWholesFromCombination: the cell counts of the
      anti-diagonals 0, 1, ... are added up until they reach the combination
      number, which then lies on the last anti-diagonal counted. When they
      never reach it, or reach it at once, the sum stays 0. */
  method FindDiagonal(combinationNumber: int) returns (combinationRange: int, sum: int)
    ensures 1 <= combinationNumber <= MaxCombination ==>
      0 <= sum <= 542 && combinationRange == Before(Rows, Columns, sum + 1) &&
      Before(Rows, Columns, sum) < combinationNumber <= combinationRange
    ensures !(1 <= combinationNumber <= MaxCombination) ==> sum == 0
  {
    Shape();
    combinationRange := 0;
    sum := 0;
    var i := 0;
    ghost var found := false;
    while i <= 543
      invariant 0 <= i <= 544 && sum == 0 && !found
      invariant combinationRange == Before(Rows, Columns, i)
      invariant 0 < i ==> combinationRange < combinationNumber
    {
      DiagonalLength(i);
      if i <= 181 {
        combinationRange := combinationRange + i + 1;
      } else if i <= 360 {
        combinationRange := combinationRange + 182;
      } else if i <= 542 {
        combinationRange := combinationRange + (543 - i);
      }
      if combinationRange >= combinationNumber {
        sum := i;
        found := true;
        break;
      }
      i := i + 1;
    }
    if found {
      DiagonalReached(i, combinationNumber);
    } else {
      TotalIsProduct(Rows, Columns, i);
    }
  }

  /** When the running count first reaches c on anti-diagonal i, c is a
      combination number of that anti-diagonal, or c < 1 and i is 0. */
  lemma DiagonalReached(i: nat, c: int)
    requires i <= 543 && c <= Before(Rows, Columns, i + 1)
    requires 0 < i ==> Before(Rows, Columns, i) < c
    ensures c <= MaxCombination
    ensures 1 <= c ==> i <= 542 && Before(Rows, Columns, i) < c
    ensures c < 1 ==> i == 0
  {
    Shape();
    var last := Rows + Columns;
    TotalIsProduct(Rows, Columns, last);
    BeforeMonotone(Rows, Columns, i + 1, last);
    if 1 <= c {
      BelowTotal(Rows, Columns, i);
    }
  }

  /** The second part of GetWholesFromCombination: from the count reached
      at the end of the anti-diagonal, the counters are put where
      GetCombinationNumber puts them (the same d1, d2 and dCombi as
      DiagonalEntry). */
  method DiagonalExit(sum: int, combinationRange: int) returns (d1: int, d2: int, dCombi: int)
    requires 0 <= sum <= 542
    ensures d1 + d2 == sum
    ensures dCombi == combinationRange - Count(Rows, Columns, sum) + (d1 - MinLo(Rows, sum)) + 1
    ensures sum <= 181 ==> 2 * d1 == sum + sum % 2
    ensures 182 <= sum <= 360 ==> d1 == MinLo(Rows, sum)
    ensures 361 <= sum ==> d1 == MaxLo(Columns, sum)
  {
    var isOdd := sum % 2 != 0;
    d1, d2 := 0, 0;
    dCombi := combinationRange;
    if sum <= 181 {
      d1 := if isOdd then (sum - 1) / 2 + 1 else sum / 2;
      d2 := if isOdd then (sum - 1) / 2 else sum / 2;
      dCombi := dCombi - (sum + 1);
      dCombi := dCombi + (if isOdd then (sum + 1) / 2 + 1 else sum / 2 + 1);
    } else if sum <= 360 {
      d1 := sum - 181;
      d2 := 181;
      dCombi := dCombi - 182;
      dCombi := dCombi + 1;
    } else if sum <= 542 {
      d1 := 361;
      d2 := sum - 361;
    }
  }

  // ---------------------------------------------------------------------
  // Encoding: GetGridPointCode and GetPointNumber

  /** The latitude check of GetGridPointCode: -90 <= latitude <= 90. */
  predicate LatitudeInRange(lat: Seven)
    requires Valid(lat)
  {
    Magnitude(lat) <= 9000000
  }

  /** The longitude check of GetGridPointCode: -180 <= longitude <= 180. */
  predicate LongitudeInRange(lon: Seven)
    requires Valid(lon)
  {
    Magnitude(lon) <= 18000000
  }

  /** Latitude exactly -90 or 90. */
  predicate AtPole(lat: Seven)
    requires Valid(lat)
  {
    Magnitude(lat) == 9000000
  }

  /** The longitude that is encoded: 0.0 at either pole. */
  function EncodedLongitude(lat: Seven, lon: Seven): Seven
    requires Valid(lat)
  {
    if AtPole(lat) then Zero else lon
  }

  /** Coordinates that pass both range checks lie in the rectangle. */
  lemma InRangeFits(lat: Seven, lon: Seven)
    requires Valid(lat) && Valid(lon) && LatitudeInRange(lat) && LongitudeInRange(lon)
    ensures Fits(Rows, Columns, lat, lon)
    ensures Fits(Rows, Columns, lat, EncodedLongitude(lat, lon))
  {
    Shape();
    ZeroMagnitude();
    WholeAtMost(lat, 90);
    WholeAtMost(lon, 180);
  }

  /** A magnitude of at most m degrees has at most m whole degrees. */
  lemma WholeAtMost(x: Seven, m: nat)
    requires Valid(x) && Magnitude(x) <= m * 100000
    ensures x.whole <= m
  {
    if x.whole > m {
      MulMonotone(m + 1, x.whole, 100000);
      ValueNonNegative(10, x.digits);
    }
  }

  /** GetGridPointCode on the seven parts of both axes. */
  function Encode(lat: Seven, lon: Seven, formatted: bool): (r: Result<string>)
    requires Valid(lat) && Valid(lon)
    ensures r == Failure(LatitudeOutOfRange) <==> !LatitudeInRange(lat)
    ensures r == Failure(LongitudeOutOfRange) <==> LatitudeInRange(lat) && !LongitudeInRange(lon)
    ensures r.Success? <==> LatitudeInRange(lat) && LongitudeInRange(lon)
    ensures r.Success? ==> |r.value| == if formatted then 14 else 11
    ensures r.Success? && !formatted ==> AllSymbols(r.value) && Canonical(r.value)
  {
    if !LatitudeInRange(lat) then Failure(LatitudeOutOfRange)
    else if !LongitudeInRange(lon) then Failure(LongitudeOutOfRange)
    else
      InRangeFits(lat, lon);
      Shape();
      var code := CodeOf(Rows, Columns, lat, EncodedLongitude(lat, lon));
      Success(if formatted then Formatted(code) else code)
  }

  /** GetPointNumber: the combination number above the interleaved digits. */
  method GetPointNumber(lat: Seven, lon: Seven) returns (point: nat)
    requires Fits(Rows, Columns, lat, lon)
    ensures point == PointOf(Rows, Columns, lat, lon)
    ensures 1 <= point / Shift <= MaxCombination
  {
    var combination := GetCombinationNumber(lat.negative, lat.whole, lon.negative, lon.whole);
    point := AddFractional(combination, lat.digits, lon.digits);
  }

  /** GetGridPointCode: check both ranges, put the longitude to 0.0 at a
      pole, encode the point number plus Eleven and format on request. */
  method GetGridPointCode(lat: Seven, lon: Seven, formatted: bool) returns (r: Result<string>)
    requires Valid(lat) && Valid(lon)
    ensures r == Encode(lat, lon, formatted)
  {
    if !LatitudeInRange(lat) {
      return Failure(LatitudeOutOfRange);
    }
    if !LongitudeInRange(lon) {
      return Failure(LongitudeOutOfRange);
    }
    var longitude := lon;
    if AtPole(lat) {
      longitude := Zero;
    }
    InRangeFits(lat, lon);
    var point := GetPointNumber(lat, longitude);
    var n := point + Eleven;
    var code := EncodePoint(n);
    SymbolsOfPoint(lat, longitude, point, n);
    var bare := code;
    if formatted {
      code := FormatGPC(code);
    }
    EncodeIs(lat, lon, longitude, formatted, bare);
    r := Success(code);
  }

  /** The symbols of a point number plus Eleven are the code of the pair. */
  lemma SymbolsOfPoint(lat: Seven, lon: Seven, point: nat, n: nat)
    requires Fits(Rows, Columns, lat, lon)
    requires point == PointOf(Rows, Columns, lat, lon) && n == point + Eleven
    ensures Symbols(n) == CodeOf(Rows, Columns, lat, lon)
  {
  }

  lemma EncodeIs(lat: Seven, lon: Seven, longitude: Seven, formatted: bool, code: string)
    requires Valid(lat) && Valid(lon) && LatitudeInRange(lat) && LongitudeInRange(lon)
    requires longitude == EncodedLongitude(lat, lon) && Fits(Rows, Columns, lat, longitude)
    requires code == CodeOf(Rows, Columns, lat, longitude)
    ensures Encode(lat, lon, formatted) == Success(if formatted then Formatted(code) else code)
  {
  }

  // ---------------------------------------------------------------------
  // Decoding: GetCoordinates and its helpers

  /** GetCoordinates of a point number: the combination number above 10^10
      gives the signs and wholes, the block below it the digits. */
  function CoordinatesOfPoint(point: nat): (lat_lon: (Seven, Seven))
    ensures Valid(lat_lon.0) && Valid(lat_lon.1)
    ensures 1 <= point / Shift <= MaxCombination ==> lat_lon == DecodePoint(Rows, Columns, point)
    ensures !(1 <= point / Shift <= MaxCombination) ==>
      lat_lon.0.whole == 0 && lat_lon.1.whole == 0 && !lat_lon.0.negative && !lat_lon.1.negative
  {
    Shape();
    SevensOf(WholesOf(point / Shift), point % Shift)
  }

  /** GetCoordinateSeven of a combination number and a fractional block. */
  method GetCoordinateSeven(combination: int, fractional: nat) returns (lat: Seven, lon: Seven)
    ensures (lat, lon) == SevensOf(WholesOf(combination), fractional)
  {
    var w := GetWholesFromCombination(combination);
    var latDigits, lonDigits := SplitFractional(fractional);
    lat := Seven(w.latitudeNegative, w.latitudeWhole, latDigits);
    lon := Seven(w.longitudeNegative, w.longitudeWhole, lonDigits);
  }

  /** GetCoordinates of a point number, as the source splits it. */
  method GetCoordinatesOfPoint(point: nat) returns (lat: Seven, lon: Seven)
    ensures (lat, lon) == CoordinatesOfPoint(point)
  {
    var combination := point / Shift;
    var fractional := point - combination * Shift;
    lat, lon := GetCoordinateSeven(combination, fractional);
  }

  /** The decoder once the code is cleaned and validated: the symbols less
      Eleven are the point number. A value below Eleven has no point
      number; the source computes one by unsigned wrap-around, which is not
      part of this model. */
  function DecodeSymbols(clean: string): (r: Result<(Seven, Seven)>)
    requires AllSymbols(clean)
    ensures r.Success? <==> SymbolValue(clean) >= Eleven
    ensures r.Failure? ==> r.error == UndefinedDecode
    ensures r.Success? ==> Valid(r.value.0) && Valid(r.value.1)
  {
    var value := SymbolValue(clean);
    if value < Eleven then Failure(UndefinedDecode)
    else Success(CoordinatesOfPoint(value - Eleven))
  }

  /** GetCoordinates of a code, up to the seven parts of both axes: the
      failures of unformatting and validation pass through. */
  function Decode(code: string): (r: Result<(Seven, Seven)>)
    ensures Unformat(DotNet, code).Failure? ==> r == Failure(Unformat(DotNet, code).error)
    ensures r.Success? <==> Unformat(DotNet, code).Success? && SymbolValue(Unformat(DotNet, code).value) >= Eleven
  {
    var clean :- Unformat(DotNet, code);
    DecodeSymbols(clean)
  }

  /** The point number of a code decodes to the pair it was made from. */
  lemma CoordinatesOfCode(lat: Seven, lon: Seven)
    requires Fits(Rows, Columns, lat, lon)
    ensures SymbolValue(CodeOf(Rows, Columns, lat, lon)) >= Eleven
    ensures CoordinatesOfPoint(SymbolValue(CodeOf(Rows, Columns, lat, lon)) - Eleven) == (lat, lon)
  {
    Shape();
    CodeRoundTrip(Rows, Columns, lat, lon);
    CoordinatesInRange(SymbolValue(CodeOf(Rows, Columns, lat, lon)) - Eleven);
  }

  lemma CoordinatesInRange(point: nat)
    requires 1 <= point / Shift <= Rows * Columns
    ensures CoordinatesOfPoint(point) == DecodePoint(Rows, Columns, point)
  {
    Shape();
  }

  lemma DecodeStages(code: string)
    requires Unformat(DotNet, code).Success?
    ensures Decode(code) == DecodeSymbols(Unformat(DotNet, code).value)
  {
  }

  lemma DecodedAs(clean: string, value: nat, point: nat, lat: Seven, lon: Seven)
    requires AllSymbols(clean) && value == SymbolValue(clean) && point == value - Eleven
    requires (lat, lon) == CoordinatesOfPoint(point)
    ensures DecodeSymbols(clean) == Success((lat, lon))
  {
    SamePoint(clean, value, point);
    DecodeSymbolsValue(clean);
  }

  lemma SamePoint(clean: string, value: nat, point: nat)
    requires AllSymbols(clean) && value == SymbolValue(clean) && point == value - Eleven
    ensures CoordinatesOfPoint(point) == CoordinatesOfPoint(SymbolValue(clean) - Eleven)
  {
  }

  lemma DecodeSymbolsValue(clean: string)
    requires AllSymbols(clean) && SymbolValue(clean) >= Eleven
    ensures DecodeSymbols(clean) == Success(CoordinatesOfPoint(SymbolValue(clean) - Eleven))
  {
  }

  /** GetCoordinates: unformat and validate, then decode the symbols. */
  method GetCoordinates(code: string) returns (r: Result<(int, int)>)
    ensures Decode(code).Failure? ==> r == Failure(Decode(code).error)
    ensures Decode(code).Success? ==>
      r == Success((CombineSeven(Decode(code).value.0), CombineSeven(Decode(code).value.1)))
  {
    var clean := Unformat(DotNet, code);
    if clean.Failure? {
      return Failure(clean.error);
    }
    DecodeStages(code);
    r := GetCoordinatesOfSymbols(clean.value);
  }

  /** The rest of GetCoordinates: decode the symbols, subtract Eleven, split
      the point number and recombine each axis (in units of 10^-5 degree). */
  method GetCoordinatesOfSymbols(clean: string) returns (r: Result<(int, int)>)
    requires AllSymbols(clean)
    ensures DecodeSymbols(clean).Failure? ==> r == Failure(UndefinedDecode)
    ensures DecodeSymbols(clean).Success? ==>
      r == Success((CombineSeven(DecodeSymbols(clean).value.0), CombineSeven(DecodeSymbols(clean).value.1)))
  {
    var value := DecodeToPoint(clean);
    if value < Eleven {
      return Failure(UndefinedDecode);
    }
    var point := value - Eleven;
    var lat, lon := GetCoordinatesOfPoint(point);
    DecodedAs(clean, value, point, lat, lon);
    var latitude := Recombine(lat);
    var longitude := Recombine(lon);
    r := Success((latitude, longitude));
  }

  // ---------------------------------------------------------------------
  // Properties of the codec

  /** Decoding the code of two in-range axes, formatted or not, gives the
      latitude back and the longitude that was encoded (0.0 at a pole). */
  lemma RoundTrip(lat: Seven, lon: Seven, formatted: bool)
    requires Valid(lat) && Valid(lon) && LatitudeInRange(lat) && LongitudeInRange(lon)
    ensures Decode(Encode(lat, lon, formatted).value) == Success((lat, EncodedLongitude(lat, lon)))
  {
    Shape();
    InRangeFits(lat, lon);
    var code := CodeOf(Rows, Columns, lat, EncodedLongitude(lat, lon));
    assert Encode(lat, lon, formatted).value == if formatted then Formatted(code) else code;
    DecodeCode(lat, EncodedLongitude(lat, lon));
  }

  /** A code, bare or formatted, decodes to the pair it was made from. */
  lemma DecodeCode(lat: Seven, lon: Seven)
    requires Fits(Rows, Columns, lat, lon)
    ensures Decode(CodeOf(Rows, Columns, lat, lon)) == Success((lat, lon))
    ensures Decode(Formatted(CodeOf(Rows, Columns, lat, lon))) == Success((lat, lon))
  {
    Shape();
    var code := CodeOf(Rows, Columns, lat, lon);
    CoordinatesOfCode(lat, lon);
    DecodeSymbolsValue(code);
    UnformatBare(DotNet, code);
    DecodeStages(code);
    UnformatFormat(DotNet, code);
    DecodeStages(Formatted(code));
  }

  /** Recombined, the decoded axes are the encoded values. */
  lemma ValueRoundTrip(lat: Seven, lon: Seven, formatted: bool)
    requires Valid(lat) && Valid(lon) && LatitudeInRange(lat) && LongitudeInRange(lon)
    ensures Decode(Encode(lat, lon, formatted).value).Success?
    ensures CombineSeven(Decode(Encode(lat, lon, formatted).value).value.0) == Scaled(lat)
    ensures CombineSeven(Decode(Encode(lat, lon, formatted).value).value.1) == if AtPole(lat) then 0 else Scaled(lon)
  {
    RoundTrip(lat, lon, formatted);
    var lon' := EncodedLongitude(lat, lon);
    ZeroMagnitude();
    assert CombineSeven(lon') == if AtPole(lat) then 0 else Scaled(lon);
  }

  /** At a pole every longitude gives the code of longitude 0.0. */
  lemma PoleIgnoresLongitude(lat: Seven, lon: Seven, formatted: bool)
    requires Valid(lat) && Valid(lon) && AtPole(lat) && LongitudeInRange(lon)
    ensures Encode(lat, lon, formatted) == Encode(lat, Zero, formatted)
  {
    ZeroMagnitude();
  }

  /** Two in-range coordinates share a code only when they share the
      latitude and the encoded longitude. */
  lemma EncodeInjective(lat1: Seven, lon1: Seven, lat2: Seven, lon2: Seven, formatted: bool)
    requires Valid(lat1) && Valid(lon1) && Valid(lat2) && Valid(lon2)
    requires Encode(lat1, lon1, formatted).Success?
    requires Encode(lat1, lon1, formatted) == Encode(lat2, lon2, formatted)
    ensures lat1 == lat2 && EncodedLongitude(lat1, lon1) == EncodedLongitude(lat2, lon2)
  {
    RoundTrip(lat1, lon1, formatted);
    RoundTrip(lat2, lon2, formatted);
  }

  /** Decoding ignores the case of the letters. */
  lemma DecodeIgnoresCase(s: string, t: string)
    requires Upper(s) == Upper(t)
    ensures Decode(s) == Decode(t)
  {
    UnformatIgnoresCase(DotNet, s, t);
  }

  /** A formatted code written in lower case decodes like the code. */
  lemma DecodeLowerCase(lat: Seven, lon: Seven)
    requires Valid(lat) && Valid(lon) && LatitudeInRange(lat) && LongitudeInRange(lon)
    ensures Decode(Lower(Encode(lat, lon, true).value)) == Success((lat, EncodedLongitude(lat, lon)))
  {
    Shape();
    InRangeFits(lat, lon);
    var code := CodeOf(Rows, Columns, lat, EncodedLongitude(lat, lon));
    UnformatLowerCase(DotNet, code);
    UnformatBare(DotNet, code);
    RoundTrip(lat, lon, false);
  }

  /** ToUpperInvariant keeps the ligature U+FB00 as one character, so the
      ligature and nine symbols are refused as too short. */
  lemma LigatureRefused(code: string)
    requires |code| == 9 && AllSymbols(code)
    ensures Decode(['\U{FB00}'] + code) == Failure(WrongLength)
  {
    LigatureCodes(code);
  }

  // ---------------------------------------------------------------------
  // Codes the encoder never produces

  /** The combination number just above the last cell. */
  const FirstUnused: nat := MaxCombination + 1

  /** The code whose combination number is FirstUnused and whose fractional
      digits are all zero. */
  function UnusedCode(): string
  {
    BareCode(FirstUnused)
  }

  /** The code the encoder gives for (0.0, 0.0). */
  function ZeroCode(): (code: string)
    ensures Valid(Zero) && Encode(Zero, Zero, false) == Success(code)
  {
    ZeroMagnitude();
    Encode(Zero, Zero, false).value
  }

  /** As written, a code whose combination number lies beyond the last cell
      is not refused: the wholes stay at 0 and it decodes to (0.0, 0.0),
      the same pair as the different code the encoder gives for (0.0, 0.0). */
  lemma UnusedCombinationDecodes()
    ensures Decode(UnusedCode()) == Success((Zero, Zero))
    ensures Decode(ZeroCode()) == Success((Zero, Zero))
    ensures UnusedCode() != ZeroCode()
  {
    UnusedCodeDecodes();
    ZeroCodeDecodes();
    UnusedIsNotZeroCode();
  }

  lemma ZeroCodeDecodes()
    ensures Decode(ZeroCode()) == Success((Zero, Zero))
  {
    ZeroMagnitude();
    assert EncodedLongitude(Zero, Zero) == Zero;
    RoundTrip(Zero, Zero, false);
  }

  lemma UnusedCodeDecodes()
    ensures Decode(UnusedCode()) == Success((Zero, Zero))
  {
    var code := UnusedCode();
    var value := SymbolValue(code);
    var point := value - Eleven;
    assert point == FirstUnused * Shift;
    assert point / Shift == FirstUnused;
    assert point % Shift == 0;
    ZeroFractional();
    assert CoordinatesOfPoint(point) == (Zero, Zero);
    DecodedAs(code, value, point, Zero, Zero);
    UnformatBare(DotNet, code);
    DecodeStages(code);
  }

  lemma ZeroFractional()
    ensures LatitudeDigits(0) == Zero.digits && LongitudeDigits(0) == Zero.digits
  {
  }

  lemma UnusedIsNotZeroCode()
    ensures UnusedCode() != ZeroCode()
  {
    ZeroCodeValue();
  }

  /** Latitude -90.5: on the assigned-index rectangle, but outside the
      range check of GetGridPointCode. */
  const BeyondSouthPole: Seven := Seven(true, 90, [5, 0, 0, 0, 0])

  /** The code of (-90.5, 0.0). */
  function BeyondPoleCode(): (code: string)
    ensures |code| == 11 && AllSymbols(code)
  {
    BeyondPoleFits();
    CodeOf(Rows, Columns, BeyondSouthPole, Zero)
  }

  lemma BeyondPoleFits()
    ensures Fits(Rows, Columns, BeyondSouthPole, Zero) && Rows * Columns <= Capacity
    ensures Scaled(BeyondSouthPole) == -9050000
  {
    Shape();
    ZeroMagnitude();
    FiveDigitValue(BeyondSouthPole.digits);
  }

  /** As written, the decoder also accepts the cells the range checks keep
      the encoder away from: the code of (-90.5, 0.0) decodes to latitude
      -90.5, which GetGridPointCode refuses to encode. */
  lemma BeyondPoleDecodes()
    ensures Valid(BeyondSouthPole) && Scaled(BeyondSouthPole) == -9050000 && !LatitudeInRange(BeyondSouthPole)
    ensures Decode(BeyondPoleCode()) == Success((BeyondSouthPole, Zero))
    ensures Encode(BeyondSouthPole, Zero, false) == Failure(LatitudeOutOfRange)
  {
    BeyondPoleFits();
    DecodeCode(BeyondSouthPole, Zero);
  }

  lemma FiveDigitValue(ds: seq<int>)
    requires |ds| == 5
    ensures Value(10, ds) == (((ds[0] * 10 + ds[1]) * 10 + ds[2]) * 10 + ds[3]) * 10 + ds[4]
  {
    assert ds[..4][..3] == ds[..3] && ds[..3][..2] == ds[..2] && ds[..2][..1] == ds[..1];
    assert ds[..1][..0] == [];
    assert Value(10, ds[..1]) == ds[0];
    assert Value(10, ds[..2]) == ds[0] * 10 + ds[1];
    assert Value(10, ds[..3]) == (ds[0] * 10 + ds[1]) * 10 + ds[2];
    assert Value(10, ds[..4]) == ((ds[0] * 10 + ds[1]) * 10 + ds[2]) * 10 + ds[3];
    assert ds[..5] == ds;
  }

  /** Whether a decoded pair is one the encoder produces: both range checks
      pass and a pole carries longitude 0.0. */
  predicate Encodable(lat: Seven, lon: Seven)
    requires Valid(lat) && Valid(lon)
  {
    LatitudeInRange(lat) && LongitudeInRange(lon) && (AtPole(lat) ==> lon == Zero)
  }

  /** The decoder with the check the source leaves out: the combination
      number must name a cell and the cell must be Encodable; otherwise
      the code is refused with UndefinedDecode. */
  function CheckedSymbols(clean: string): (r: Result<(Seven, Seven)>)
    requires |clean| == 11 && AllSymbols(clean)
    ensures r.Success? ==> DecodeSymbols(clean) == r
    ensures r.Success? ==> Encodable(r.value.0, r.value.1)
    ensures r.Success? ==> Encode(r.value.0, r.value.1, false) == Success(clean)
    ensures r.Failure? ==> r.error == UndefinedDecode
  {
    var value := SymbolValue(clean);
    if value < Eleven then Failure(UndefinedDecode)
    else
      var point := value - Eleven;
      if !(1 <= point / Shift <= MaxCombination) then Failure(UndefinedDecode)
      else
        var lat_lon := CoordinatesOfPoint(point);
        if !Encodable(lat_lon.0, lat_lon.1) then Failure(UndefinedDecode)
        else
          DecodedAs(clean, value, point, lat_lon.0, lat_lon.1);
          ReEncode(clean, value, point, lat_lon.0, lat_lon.1);
          Success(lat_lon)
  }

  /** A checked pair encodes back to the code it was decoded from. */
  lemma ReEncode(clean: string, value: nat, point: nat, lat: Seven, lon: Seven)
    requires |clean| == 11 && AllSymbols(clean) && value == SymbolValue(clean) && point == value - Eleven
    requires 1 <= point / Shift <= MaxCombination
    requires (lat, lon) == CoordinatesOfPoint(point) && Encodable(lat, lon)
    ensures Encode(lat, lon, false) == Success(clean)
  {
    Shape();
    CoordinatesInRange(point);
    CodeOfDecoded(Rows, Columns, clean, point);
    assert CodeOf(Rows, Columns, lat, lon) == clean;
    EncodeIs(lat, lon, lon, false, clean);
  }

  /** The checked decoder of a code: failures of unformatting and
      validation pass through. */
  function CheckedDecode(code: string): (r: Result<(Seven, Seven)>)
    ensures r.Success? ==> Decode(code) == r
    ensures r.Success? ==> Encode(r.value.0, r.value.1, false) == Unformat(DotNet, code)
    ensures Unformat(DotNet, code).Failure? ==> r == Failure(Unformat(DotNet, code).error)
  {
    var clean :- Unformat(DotNet, code);
    DecodeStages(code);
    CheckedSymbols(clean)
  }

  /** The checked decoder still undoes the encoder, so it accepts exactly
      the codes the encoder produces (up to formatting and case). */
  lemma CheckedRoundTrip(lat: Seven, lon: Seven, formatted: bool)
    requires Valid(lat) && Valid(lon) && LatitudeInRange(lat) && LongitudeInRange(lon)
    ensures CheckedDecode(Encode(lat, lon, formatted).value) == Success((lat, EncodedLongitude(lat, lon)))
  {
    Shape();
    InRangeFits(lat, lon);
    var lon' := EncodedLongitude(lat, lon);
    var code := CodeOf(Rows, Columns, lat, lon');
    var out := Encode(lat, lon, formatted).value;
    assert out == if formatted then Formatted(code) else code;
    EncodedIsEncodable(lat, lon);
    CheckedCode(lat, lon');
    if formatted {
      UnformatFormat(DotNet, code);
    } else {
      UnformatBare(DotNet, code);
    }
    CheckedOfClean(out, code);
  }

  /** Once a code cleans up, the checked decoder only looks at the clean symbols. */
  lemma CheckedOfClean(code: string, clean: string)
    requires |clean| == 11 && AllSymbols(clean) && Unformat(DotNet, code) == Success(clean)
    ensures CheckedDecode(code) == CheckedSymbols(clean)
  {
  }

  /** What the encoder encodes passes the check. */
  lemma EncodedIsEncodable(lat: Seven, lon: Seven)
    requires Valid(lat) && Valid(lon) && LatitudeInRange(lat) && LongitudeInRange(lon)
    ensures Valid(EncodedLongitude(lat, lon)) && Encodable(lat, EncodedLongitude(lat, lon))
  {
    ZeroMagnitude();
  }

  lemma CheckedCode(lat: Seven, lon: Seven)
    requires Fits(Rows, Columns, lat, lon) && Encodable(lat, lon)
    ensures CheckedSymbols(CodeOf(Rows, Columns, lat, lon)) == Success((lat, lon))
  {
    Shape();
    CodeRoundTrip(Rows, Columns, lat, lon);
    CoordinatesOfCode(lat, lon);
  }

  /** Both codes of the findings are refused by the checked decoder. */
  lemma CheckedRefusesUnused()
    ensures CheckedDecode(UnusedCode()).Failure?
  {
    UnformatBare(DotNet, UnusedCode());
    UnusedIsUnchecked();
  }

  lemma UnusedIsUnchecked()
    ensures CheckedSymbols(UnusedCode()).Failure?
  {
    var value := SymbolValue(UnusedCode());
    var point := value - Eleven;
    assert point / Shift == FirstUnused;
  }

  lemma CheckedRefusesBeyondPole()
    ensures CheckedDecode(BeyondPoleCode()).Failure?
  {
    var code := BeyondPoleCode();
    UnformatBare(DotNet, code);
    BeyondPoleDecodes();
    DecodeStages(code);
  }

  // ---------------------------------------------------------------------
  // Every pair the decoder accepts but the encoder never gives

  /** The C# rectangle of assigned indices holds exactly the pairs below
      91 degrees of latitude and 181 degrees of longitude. */
  lemma FitsBelow(lat: Seven, lon: Seven)
    requires Valid(lat) && Valid(lon)
    ensures Fits(Rows, Columns, lat, lon) <==> Magnitude(lat) < 9100000 && Magnitude(lon) < 18100000
  {
    Shape();
    WholeBelow(lat, 91);
    WholeBelow(lon, 181);
    FoldBound(lat.negative, lat.whole, 90);
    FoldBound(lon.negative, lon.whole, 180);
  }

  /** As written, the decoder accepts the code of every pair of the
      rectangle that is not Encodable: a latitude of 90.00001 .. 90.99999
      degrees either side, a longitude of 180.00001 .. 180.99999 degrees
      either side, or a pole with a longitude other than 0.0. The code
      decodes to that pair, yet no input of the encoder gives it. */
  lemma UnencodableDecodes(lat: Seven, lon: Seven)
    requires Fits(Rows, Columns, lat, lon) && !Encodable(lat, lon)
    ensures Decode(CodeOf(Rows, Columns, lat, lon)) == Success((lat, lon))
    ensures forall lat', lon', formatted ::
      Valid(lat') && Valid(lon') && LatitudeInRange(lat') && LongitudeInRange(lon') ==>
      Encode(lat', lon', formatted) != Success(CodeOf(Rows, Columns, lat, lon))
  {
    Shape();
    var code := CodeOf(Rows, Columns, lat, lon);
    DecodeCode(lat, lon);
    CheckedRefusesUnencodable(lat, lon);
    forall lat', lon', formatted |
      Valid(lat') && Valid(lon') && LatitudeInRange(lat') && LongitudeInRange(lon')
      ensures Encode(lat', lon', formatted) != Success(code)
    {
      CheckedRoundTrip(lat', lon', formatted);
    }
  }

  /** The checked decoder refuses every such code. */
  lemma CheckedRefusesUnencodable(lat: Seven, lon: Seven)
    requires Fits(Rows, Columns, lat, lon) && !Encodable(lat, lon)
    ensures CheckedDecode(CodeOf(Rows, Columns, lat, lon)).Failure?
  {
    Shape();
    var code := CodeOf(Rows, Columns, lat, lon);
    DecodeCode(lat, lon);
    UnformatBare(DotNet, code);
    DecodeStages(code);
  }

  /** Latitude 90.00001. */
  const JustBeyondNorthPole: Seven := Seven(false, 90, [0, 0, 0, 0, 1])

  /** The code of (90.00001, 0.0) decodes to 90.00001, which the range
      check refuses, and the checked decoder refuses the code. */
  lemma JustBeyondPoleDecodes()
    ensures Valid(JustBeyondNorthPole) && Scaled(JustBeyondNorthPole) == 9000001
    ensures !LatitudeInRange(JustBeyondNorthPole) && Fits(Rows, Columns, JustBeyondNorthPole, Zero)
    ensures Decode(CodeOf(Rows, Columns, JustBeyondNorthPole, Zero)) == Success((JustBeyondNorthPole, Zero))
    ensures CheckedDecode(CodeOf(Rows, Columns, JustBeyondNorthPole, Zero)).Failure?
  {
    JustBeyondFits();
    UnencodableDecodes(JustBeyondNorthPole, Zero);
    CheckedRefusesUnencodable(JustBeyondNorthPole, Zero);
  }

  lemma JustBeyondFits()
    ensures Valid(JustBeyondNorthPole) && Scaled(JustBeyondNorthPole) == 9000001
    ensures Valid(Zero) && !LatitudeInRange(JustBeyondNorthPole)
    ensures Fits(Rows, Columns, JustBeyondNorthPole, Zero) && !Encodable(JustBeyondNorthPole, Zero)
  {
    FiveDigitValue(JustBeyondNorthPole.digits);
    ZeroMagnitude();
    FitsBelow(JustBeyondNorthPole, Zero);
  }

  /** Latitude 90.0 and longitude 1.0. */
  const NorthPole: Seven := Seven(false, 90, [0, 0, 0, 0, 0])
  const OneEast: Seven := Seven(false, 1, [0, 0, 0, 0, 0])

  /** The code of (90.0, 1.0) decodes to longitude 1.0, although the
      encoder gives (90.0, 1.0) the code of (90.0, 0.0); the checked decoder
      refuses it. */
  lemma PoleLongitudeDecodes()
    ensures Valid(NorthPole) && Valid(OneEast) && AtPole(NorthPole) && OneEast != Zero
    ensures Fits(Rows, Columns, NorthPole, OneEast)
    ensures Decode(CodeOf(Rows, Columns, NorthPole, OneEast)) == Success((NorthPole, OneEast))
    ensures Encode(NorthPole, OneEast, false) == Encode(NorthPole, Zero, false)
    ensures Encode(NorthPole, OneEast, false) != Success(CodeOf(Rows, Columns, NorthPole, OneEast))
    ensures CheckedDecode(CodeOf(Rows, Columns, NorthPole, OneEast)).Failure?
  {
    AllZero(NorthPole.digits);
    AllZero(OneEast.digits);
    ZeroMagnitude();
    FitsBelow(NorthPole, OneEast);
    PoleIgnoresLongitude(NorthPole, OneEast, false);
    UnencodableDecodes(NorthPole, OneEast);
    CheckedRefusesUnencodable(NorthPole, OneEast);
  }

  /** As written, combination number 0 is not refused either. For the code
      of value Eleven, a '0' and ten symbols, the search stops on
      anti-diagonal 0 (Sum = 0). Every correcting walk requires Sum > 0,
      Sum >= 182 or Sum >= 361, so the assigned indices stay 0 and the code
      decodes to (0.0, 0.0), the pair of the different code the encoder
      gives for (0.0, 0.0). The checked decoder refuses it. */
  lemma ZeroCombinationDecodes()
    ensures Decode(ZeroCombinationCode()) == Success((Zero, Zero))
    ensures Decode(ZeroCode()) == Success((Zero, Zero))
    ensures ZeroCombinationCode() != ZeroCode()
    ensures CheckedDecode(ZeroCombinationCode()).Failure?
  {
    ZeroCombinationAsWritten();
    ZeroCodeDecodes();
    ZeroCodeValue();
    CheckedRefusesZeroCombination();
  }

  lemma ZeroCombinationAsWritten()
    ensures Decode(ZeroCombinationCode()) == Success((Zero, Zero))
  {
    var code := ZeroCombinationCode();
    var value := SymbolValue(code);
    var point := value - Eleven;
    assert point == 0;
    ZeroFractional();
    assert CoordinatesOfPoint(point) == (Zero, Zero);
    DecodedAs(code, value, point, Zero, Zero);
    UnformatBare(DotNet, code);
    DecodeStages(code);
  }

  lemma CheckedRefusesZeroCombination()
    ensures CheckedDecode(ZeroCombinationCode()).Failure?
  {
    var code := ZeroCombinationCode();
    UnformatBare(DotNet, code);
    assert (SymbolValue(code) - Eleven) / Shift == 0;
  }

  /** The encoder's code for (0.0, 0.0) has combination number 1. */
  lemma ZeroCodeValue()
    ensures Eleven + Shift <= SymbolValue(ZeroCode()) < Eleven + 2 * Shift
  {
    ZeroCodeIsCode();
    CodeValue(Rows, Columns, Zero, Zero);
    ZeroPoint();
  }

  lemma ZeroCodeIsCode()
    ensures Fits(Rows, Columns, Zero, Zero) && Rows * Columns <= Capacity
    ensures ZeroCode() == CodeOf(Rows, Columns, Zero, Zero)
  {
    ZeroFits();
    EncodeIs(Zero, Zero, Zero, false, CodeOf(Rows, Columns, Zero, Zero));
  }

  lemma ZeroFits()
    ensures Valid(Zero) && LatitudeInRange(Zero) && LongitudeInRange(Zero) && EncodedLongitude(Zero, Zero) == Zero
    ensures Fits(Rows, Columns, Zero, Zero) && Rows * Columns <= Capacity
  {
    ZeroMagnitude();
    Shape();
    InRangeFits(Zero, Zero);
  }

  /** (0.0, 0.0) is the first cell. */
  lemma ZeroPoint()
    ensures Fits(Rows, Columns, Zero, Zero)
    ensures PointOf(Rows, Columns, Zero, Zero) / Shift == 1
  {
    ZeroFits();
    FoldBound(false, 0, 1);
  }
}

=== FILE: diagonal_rank.dfy ===
/**
 The numbering both implementations use for a pair of assigned indices: the
 cells (la, lo) of a rectangle with `a` latitude rows and `b` longitude
 columns are enumerated anti-diagonal by anti-diagonal (by the sum la + lo),
 and within one anti-diagonal by increasing lo, starting from 1. The C#
 file uses a 182-by-362 rectangle and the Java file a 180-by-360 one; both
 implementations are proved against this one definition with their own
 constants.
 */
module DiagonalRank {

  /** A pair of assigned indices: la from the latitude, lo from the longitude. */
  datatype Cell = Cell(la: nat, lo: nat)

  /** The latitude side is the shorter one. */
  predicate ValidShape(a: nat, b: nat)
  {
    1 <= a <= b
  }

  predicate InRect(a: nat, b: nat, la: int, lo: int)
  {
    0 <= la < a && 0 <= lo < b
  }

  /** Smallest longitude index on anti-diagonal t. */
  function MinLo(a: nat, t: nat): nat
  {
    if t < a then 0 else t - a + 1
  }

  /** Largest longitude index on anti-diagonal t. */
  function MaxLo(b: nat, t: nat): int
  {
    if t < b then t else b - 1
  }

  /** Number of cells on anti-diagonal t. */
  function Count(a: nat, b: nat, t: nat): nat
    requires ValidShape(a, b)
  {
    if t + 2 > a + b then 0 else MaxLo(b, t) - MinLo(a, t) + 1
  }

  /** Number of cells on the anti-diagonals 0 .. t-1. */
  function Before(a: nat, b: nat, t: nat): nat
    requires ValidShape(a, b)
  {
    if t == 0 then 0 else Before(a, b, t - 1) + Count(a, b, t - 1)
  }

  /** The 1-based position of (la, lo) in the anti-diagonal enumeration. */
  function Rank(a: nat, b: nat, la: nat, lo: nat): nat
    requires ValidShape(a, b) && InRect(a, b, la, lo)
  {
    Before(a, b, la + lo) + (lo - MinLo(a, la + lo)) + 1
  }

  // ---------------------------------------------------------------------
  // The anti-diagonals

  /** The cells of the rectangle on anti-diagonal t are exactly those whose
      longitude index lies in [MinLo(t), MaxLo(t)]; Count(t) is the size of
      that interval. */
  lemma OnDiagonal(a: nat, b: nat, t: nat, lo: int)
    requires ValidShape(a, b)
    ensures InRect(a, b, t - lo, lo) <==> MinLo(a, t) <= lo <= MaxLo(b, t)
    ensures t + 2 <= a + b ==> Count(a, b, t) == MaxLo(b, t) - MinLo(a, t) + 1
    ensures t + 2 > a + b ==> MaxLo(b, t) < MinLo(a, t) && Count(a, b, t) == 0
  {
  }

  lemma {:induction false} BeforeMonotone(a: nat, b: nat, t1: nat, t2: nat)
    requires ValidShape(a, b) && t1 <= t2
    ensures Before(a, b, t1) <= Before(a, b, t2)
    decreases t2
  {
    if t1 < t2 {
      BeforeMonotone(a, b, t1, t2 - 1);
    }
  }

  /** The rank of a cell lies in the block of numbers of its anti-diagonal. */
  lemma RankInBlock(a: nat, b: nat, la: nat, lo: nat)
    requires ValidShape(a, b) && InRect(a, b, la, lo)
    ensures Before(a, b, la + lo) < Rank(a, b, la, lo) <= Before(a, b, la + lo + 1)
  {
    OnDiagonal(a, b, la + lo, lo);
  }

  // ---------------------------------------------------------------------
  // Closed forms of Before in the three bands

  /** Up to the a-th anti-diagonal every diagonal t holds t + 1 cells. */
  lemma {:induction false} BeforeLow(a: nat, b: nat, t: nat)
    requires ValidShape(a, b) && t <= a
    ensures 2 * Before(a, b, t) == t * (t + 1)
    decreases t
  {
    if t > 0 {
      BeforeLow(a, b, t - 1);
      assert Count(a, b, t - 1) == t;
      assert (t - 1) * t + 2 * t == t * (t + 1);
    }
  }

  /** Between the a-th and the b-th anti-diagonal every diagonal holds a cells. */
  lemma {:induction false} BeforeMiddle(a: nat, b: nat, t: nat)
    requires ValidShape(a, b) && a <= t <= b
    ensures 2 * Before(a, b, t) == a * (a + 1) + 2 * (t - a) * a
    decreases t
  {
    if t == a {
      BeforeLow(a, b, a);
    } else {
      BeforeMiddle(a, b, t - 1);
      assert Count(a, b, t - 1) == a;
      assert 2 * (t - 1 - a) * a + 2 * a == 2 * (t - a) * a;
    }
  }

  /** From the b-th anti-diagonal on, diagonal t holds a + b - 1 - t cells. */
  lemma {:induction false} BeforeHigh(a: nat, b: nat, t: nat)
    requires ValidShape(a, b) && b <= t <= a + b - 1
    ensures 2 * Before(a, b, t) == a * (a + 1) + 2 * (b - a) * a + (t - b) * (2 * a - 1 - (t - b))
    decreases t
  {
    if t == b {
      BeforeMiddle(a, b, b);
    } else {
      BeforeHigh(a, b, t - 1);
      var m := t - b;
      assert Count(a, b, t - 1) == a + b - t;
      assert (m - 1) * (2 * a - 1 - (m - 1)) + 2 * (a + b - t) == m * (2 * a - 1 - m);
    }
  }

  /** Every cell of the rectangle is counted: there are a * b of them. */
  lemma TotalIsProduct(a: nat, b: nat, t: nat)
    requires ValidShape(a, b) && t >= a + b - 1
    ensures Before(a, b, t) == a * b
  {
    BeforeHigh(a, b, a + b - 1);
    assert (a - 1) * (2 * a - 1 - (a - 1)) == (a - 1) * a;
    assert a * (a + 1) + 2 * (b - a) * a + (a - 1) * a == 2 * a * b;
    BeforeFlat(a, b, a + b - 1, t);
  }

  /** Anti-diagonals that still leave cells uncounted lie inside the rectangle. */
  lemma BelowTotal(a: nat, b: nat, t: nat)
    requires ValidShape(a, b) && Before(a, b, t) < a * b
    ensures t < a + b - 1
  {
    if t >= a + b - 1 {
      TotalIsProduct(a, b, t);
    }
  }

  /** Past the last anti-diagonal nothing more is counted. */
  lemma {:induction false} BeforeFlat(a: nat, b: nat, t1: nat, t2: nat)
    requires ValidShape(a, b) && a + b - 1 <= t1 <= t2
    ensures Before(a, b, t2) == Before(a, b, t1)
    decreases t2
  {
    if t1 < t2 {
      BeforeFlat(a, b, t1, t2 - 1);
    }
  }

  // ---------------------------------------------------------------------
  // Properties of the rank

  /** The ranks are exactly 1 .. a * b (onto: see Unrank). */
  lemma RankBounds(a: nat, b: nat, la: nat, lo: nat)
    requires ValidShape(a, b) && InRect(a, b, la, lo)
    ensures 1 <= Rank(a, b, la, lo) <= a * b
  {
    RankInBlock(a, b, la, lo);
    BeforeMonotone(a, b, la + lo + 1, a + b - 1);
    TotalIsProduct(a, b, a + b - 1);
  }

  /** One cell ranks before another exactly when it lies on an earlier
      anti-diagonal, or on the same one with a smaller longitude index. */
  lemma RankOrder(a: nat, b: nat, p: Cell, q: Cell)
    requires ValidShape(a, b) && InRect(a, b, p.la, p.lo) && InRect(a, b, q.la, q.lo)
    ensures Rank(a, b, p.la, p.lo) < Rank(a, b, q.la, q.lo)
        <==> p.la + p.lo < q.la + q.lo || (p.la + p.lo == q.la + q.lo && p.lo < q.lo)
  {
    if p.la + p.lo < q.la + q.lo {
      EarlierDiagonal(a, b, p, q);
    } else if q.la + q.lo < p.la + p.lo {
      EarlierDiagonal(a, b, q, p);
    }
  }

  /** Every cell of an earlier anti-diagonal ranks lower. */
  lemma EarlierDiagonal(a: nat, b: nat, p: Cell, q: Cell)
    requires ValidShape(a, b) && InRect(a, b, p.la, p.lo) && InRect(a, b, q.la, q.lo)
    requires p.la + p.lo < q.la + q.lo
    ensures Rank(a, b, p.la, p.lo) < Rank(a, b, q.la, q.lo)
  {
    RankInBlock(a, b, p.la, p.lo);
    RankInBlock(a, b, q.la, q.lo);
    BeforeMonotone(a, b, p.la + p.lo + 1, q.la + q.lo);
  }

  /** Distinct cells have distinct ranks. */
  lemma RankInjective(a: nat, b: nat, p: Cell, q: Cell)
    requires ValidShape(a, b) && InRect(a, b, p.la, p.lo) && InRect(a, b, q.la, q.lo)
    requires Rank(a, b, p.la, p.lo) == Rank(a, b, q.la, q.lo)
    ensures p == q
  {
    RankOrder(a, b, p, q);
    RankOrder(a, b, q, p);
  }

  // ---------------------------------------------------------------------
  // The inverse

  /** The anti-diagonal whose block holds the number c, searched from t on. */
  function DiagonalOf(a: nat, b: nat, c: nat, t: nat): (s: nat)
    requires ValidShape(a, b) && Before(a, b, t) < c <= a * b
    ensures t <= s < a + b - 1
    ensures Before(a, b, s) < c <= Before(a, b, s + 1)
    decreases a + b - t
  {
    BelowTotal(a, b, t);
    if c <= Before(a, b, t + 1) then t else DiagonalOf(a, b, c, t + 1)
  }

  /** The cell whose rank is c. */
  function Unrank(a: nat, b: nat, c: nat): (p: Cell)
    requires ValidShape(a, b) && 1 <= c <= a * b
    ensures InRect(a, b, p.la, p.lo)
    ensures Rank(a, b, p.la, p.lo) == c
  {
    var t := DiagonalOf(a, b, c, 0);
    OnDiagonal(a, b, t, MinLo(a, t) + (c - Before(a, b, t) - 1));
    var lo := MinLo(a, t) + (c - Before(a, b, t) - 1);
    Cell(t - lo, lo)
  }

  /** Unrank undoes Rank. */
  lemma UnrankRank(a: nat, b: nat, p: Cell)
    requires ValidShape(a, b) && InRect(a, b, p.la, p.lo)
    ensures 1 <= Rank(a, b, p.la, p.lo) <= a * b
    ensures Unrank(a, b, Rank(a, b, p.la, p.lo)) == p
  {
    RankBounds(a, b, p.la, p.lo);
    var q := Unrank(a, b, Rank(a, b, p.la, p.lo));
    RankInjective(a, b, p, q);
  }

  /** A number in the block of anti-diagonal t, at offset lo - MinLo(t)
      within it, is the rank of the cell (t - lo, lo); this is how both
      decoders locate a cell once they know its anti-diagonal. */
  lemma CellOnDiagonal(a: nat, b: nat, t: nat, lo: int, c: int)
    requires ValidShape(a, b) && Before(a, b, t) < c <= Before(a, b, t + 1)
    requires c == Before(a, b, t) + (lo - MinLo(a, t)) + 1
    ensures InRect(a, b, t - lo, lo)
    ensures Rank(a, b, t - lo, lo) == c
    ensures 1 <= c <= a * b && Unrank(a, b, c) == Cell(t - lo, lo)
  {
    OnDiagonal(a, b, t, lo);
    UnrankRank(a, b, Cell(t - lo, lo));
  }
}

=== FILE: formatting.dfy ===
/**
 The printed form of a code and the clean-up applied to text handed to the
 decoder. A formatted code is '#' followed by the eleven symbols with a '-'
 inserted before the fifth and the ninth symbol. The clean-up removes every
 ' ', '-' and '#', trims white space at both ends, upper-cases, and then
 insists on exactly eleven characters of the alphabet. The two
 implementations differ in what their runtime's Trim counts as white space
 and in whether upper-casing spells ligatures out.
 */
module Formatting {
  import opened Outcomes
  import opened Base27

  // ---------------------------------------------------------------------
  // FormatGPC

  /** The symbols with '-' inserted before positions 4 and 8, where the
      code is long enough to have them. */
  function Dashed(code: string): (d: string)
    ensures |d| == |code| + (if |code| > 8 then 2 else if |code| > 4 then 1 else 0)
  {
    if |code| <= 4 then code
    else if |code| <= 8 then code[..4] + "-" + code[4..]
    else code[..4] + "-" + code[4..8] + "-" + code[8..]
  }

  /** The printed form of a code: '#' and the dashed symbols. */
  function Formatted(code: string): (f: string)
    ensures |code| == 11 ==> |f| == 14 && f[0] == '#' && f[5] == '-' && f[10] == '-'
    ensures |code| == 11 ==> f[1..5] == code[..4] && f[6..10] == code[4..8] && f[11..] == code[8..]
  {
    if |code| == 11 then HashDashed(code); "#" + Dashed(code) else "#" + Dashed(code)
  }

  lemma HashDashed(code: string)
    requires |code| == 11
    ensures var f := "#" + Dashed(code);
      |f| == 14 && f[0] == '#' && f[5] == '-' && f[10] == '-' &&
      f[1..5] == code[..4] && f[6..10] == code[4..8] && f[11..] == code[8..]
  {
    var a, b, c := code[..4], code[4..8], code[8..];
    var f := "#" + Dashed(code);
    assert f == "#" + a + "-" + b + "-" + c;
    assert f[1..5] == a;
    assert f[6..10] == b;
    assert f[11..] == c;
  }

  /** Appending one symbol appends a dash first exactly at positions 4 and 8. */
  lemma DashedStep(p: string, c: char)
    ensures Dashed(p + [c]) == Dashed(p) + (if |p| == 4 || |p| == 8 then "-" else "") + [c]
  {
    var q := p + [c];
    if |p| < 4 {
    } else if |p| == 4 {
      assert q[..4] == p;
      assert q[4..] == [c];
    } else if |p| < 8 {
      assert q[..4] == p[..4];
      assert q[4..] == p[4..] + [c];
    } else if |p| == 8 {
      assert q[..4] == p[..4];
      assert q[4..8] == p[4..];
      assert q[8..] == [c];
    } else {
      assert q[..4] == p[..4];
      assert q[4..8] == p[4..8];
      assert q[8..] == p[8..] + [c];
    }
  }

  /** FormatGPC: start from "#" and copy the symbols one by one, adding a
      '-' before the ones at positions 4 and 8. */
  method FormatGPC(code: string) returns (f: string)
    ensures f == Formatted(code)
  {
    f := "#";
    var index := 0;
    while index < |code|
      invariant 0 <= index <= |code|
      invariant f == "#" + Dashed(code[..index])
    {
      var done, ch := code[..index], code[index];
      DashedStep(done, ch);
      assert code[..index + 1] == done + [ch];
      assert code[index..index + 1] == [ch];
      var sep := if index == 4 || index == 8 then "-" else "";
      if index == 4 || index == 8 {
        f := f + "-";
      }
      assert f == "#" + Dashed(done) + sep;
      f := f + code[index..index + 1];
      index := index + 1;
    }
    assert code[..index] == code;
  }

  // ---------------------------------------------------------------------
  // The clean-up steps

  /** s without any occurrence of c (string Replace(c, "")). */
  function Remove(s: string, c: char): (r: string)
    ensures |r| <= |s|
  {
    if |s| == 0 then ""
    else (if s[0] == c then "" else [s[0]]) + Remove(s[1..], c)
  }

  /** Afterwards c no longer occurs, and every other character occurs as
      often as before. */
  lemma {:induction false} RemoveCounts(s: string, c: char, d: char)
    ensures multiset(Remove(s, c))[c] == 0
    ensures d != c ==> multiset(Remove(s, c))[d] == multiset(s)[d]
    decreases |s|
  {
    if |s| > 0 {
      RemoveCounts(s[1..], c, d);
      assert s == [s[0]] + s[1..];
    }
  }

  /** A string without c is left as it is. */
  lemma {:induction false} RemoveAbsent(s: string, c: char)
    requires forall i :: 0 <= i < |s| ==> s[i] != c
    ensures Remove(s, c) == s
    decreases |s|
  {
    if |s| > 0 {
      RemoveAbsent(s[1..], c);
      assert s == [s[0]] + s[1..];
    }
  }

  lemma {:induction false} RemoveConcat(s: string, t: string, c: char)
    ensures Remove(s + t, c) == Remove(s, c) + Remove(t, c)
    decreases |s|
  {
    if |s| > 0 {
      assert (s + t)[1..] == s[1..] + t;
      RemoveConcat(s[1..], t, c);
    } else {
      assert s + t == t;
    }
  }

  /** Whose Trim is applied. */
  datatype TrimRule =
    | DotNet   // String.Trim: every Char.IsWhiteSpace character
    | Java     // String.trim: every character up to U+0020

  predicate IsWhiteSpace(rule: TrimRule, ch: char)
  {
    match rule
    case DotNet =>
      ch == ' ' || '\t' <= ch <= '\r' || ch == '\U{0085}' || ch == '\U{00A0}' || ch == '\U{1680}'
      || '\U{2000}' <= ch <= '\U{200A}' || ch == '\U{2028}' || ch == '\U{2029}' || ch == '\U{202F}'
      || ch == '\U{205F}' || ch == '\U{3000}'
    case Java =>
      ch <= ' '
  }

  /** s without its leading white space. */
  function TrimStart(rule: TrimRule, s: string): (r: string)
    ensures |r| <= |s| && r == s[|s| - |r|..]
    ensures forall k :: 0 <= k < |s| - |r| ==> IsWhiteSpace(rule, s[k])
    ensures |r| > 0 ==> !IsWhiteSpace(rule, r[0])
  {
    if |s| > 0 && IsWhiteSpace(rule, s[0]) then
      var r := TrimStart(rule, s[1..]);
      DropLeading(rule, s, r);
      r
    else s
  }

  /** Dropping one leading white-space character before trimming the rest. */
  lemma DropLeading(rule: TrimRule, s: string, r: string)
    requires |s| > 0 && IsWhiteSpace(rule, s[0])
    requires |r| <= |s| - 1 && r == s[1..][|s| - 1 - |r|..]
    requires forall k :: 0 <= k < |s| - 1 - |r| ==> IsWhiteSpace(rule, s[1..][k])
    ensures r == s[|s| - |r|..]
    ensures forall k :: 0 <= k < |s| - |r| ==> IsWhiteSpace(rule, s[k])
  {
    assert s[1..][|s| - 1 - |r|..] == s[|s| - |r|..];
    forall k | 0 <= k < |s| - |r|
      ensures IsWhiteSpace(rule, s[k])
    {
      if k > 0 {
        assert s[k] == s[1..][k - 1];
      }
    }
  }

  /** s without its trailing white space. */
  function TrimEnd(rule: TrimRule, s: string): (r: string)
    ensures |r| <= |s| && r == s[..|r|]
    ensures forall k :: |r| <= k < |s| ==> IsWhiteSpace(rule, s[k])
    ensures |r| > 0 ==> !IsWhiteSpace(rule, r[|r| - 1])
  {
    if |s| > 0 && IsWhiteSpace(rule, s[|s| - 1]) then
      var r := TrimEnd(rule, s[..|s| - 1]);
      assert s[..|s| - 1][..|r|] == s[..|r|];
      r
    else s
  }

  function Trim(rule: TrimRule, s: string): string
  {
    TrimEnd(rule, TrimStart(rule, s))
  }

  /** Upper-casing of the ASCII letters; every other character is kept. */
  function UpperChar(ch: char): char
  {
    if 'a' <= ch <= 'z' then (ch as int - 32) as char else ch
  }

  function LowerChar(ch: char): char
  {
    if 'A' <= ch <= 'Z' then (ch as int + 32) as char else ch
  }

  function Upper(s: string): (r: string)
    ensures |r| == |s|
  {
    seq(|s|, i requires 0 <= i < |s| => UpperChar(s[i]))
  }

  function Lower(s: string): (r: string)
    ensures |r| == |s|
  {
    seq(|s|, i requires 0 <= i < |s| => LowerChar(s[i]))
  }

  /** The ligatures U+FB00 (ff), U+FB02 (fl) and U+FB04 (ffl), whose full
      upper-case forms consist of alphabet letters only. */
  predicate IsLigature(ch: char)
  {
    ch == '\U{FB00}' || ch == '\U{FB02}' || ch == '\U{FB04}'
  }

  /** Java's String.toUpperCase applies the full case mapping, which spells
      a ligature out in capitals; .NET's ToUpperInvariant maps one character
      to one and keeps it. */
  function LigatureCapitals(rule: TrimRule, ch: char): (r: string)
    ensures |r| >= 1
    ensures rule == DotNet || !IsLigature(ch) <==> r == [ch]
  {
    if rule == DotNet then [ch]
    else if ch == '\U{FB00}' then "FF"
    else if ch == '\U{FB02}' then "FL"
    else if ch == '\U{FB04}' then "FFL"
    else [ch]
  }

  function ExpandLigatures(rule: TrimRule, s: string): (r: string)
    ensures |r| >= |s|
  {
    if |s| == 0 then "" else LigatureCapitals(rule, s[0]) + ExpandLigatures(rule, s[1..])
  }

  /** The runtime's upper-casing: ASCII letters, then the ligatures. */
  function UpperCase(rule: TrimRule, s: string): string
  {
    ExpandLigatures(rule, Upper(s))
  }

  /** Without a ligature, or under .NET, nothing is expanded. */
  lemma {:induction false} ExpandPlain(rule: TrimRule, s: string)
    requires rule == DotNet || forall i :: 0 <= i < |s| ==> !IsLigature(s[i])
    ensures ExpandLigatures(rule, s) == s
    decreases |s|
  {
    if |s| > 0 {
      assert rule == DotNet || !IsLigature(s[0]);
      ExpandPlain(rule, s[1..]);
      assert [s[0]] + s[1..] == s;
    }
  }

  // ---------------------------------------------------------------------
  // Length in UTF-16 code units

  /** Both runtimes store a string as UTF-16: a character outside the Basic
      Multilingual Plane takes a surrogate pair, two code units. */
  predicate InBmp(ch: char)
  {
    ch as int < 0x10000
  }

  function CodeUnits(ch: char): nat
  {
    if InBmp(ch) then 1 else 2
  }

  /** The length the runtimes report for s: its number of UTF-16 code units. */
  function Utf16Length(s: string): (n: nat)
    ensures |s| <= n <= 2 * |s|
  {
    if |s| == 0 then 0 else Utf16Length(s[..|s| - 1]) + CodeUnits(s[|s| - 1])
  }

  /** The UTF-16 length counts characters exactly when every character is
      in the Basic Multilingual Plane. */
  lemma {:induction false} Utf16LengthIsLength(s: string)
    ensures Utf16Length(s) == |s| <==> forall i :: 0 <= i < |s| ==> InBmp(s[i])
  {
    if |s| > 0 {
      var p := s[..|s| - 1];
      Utf16LengthIsLength(p);
      if forall i :: 0 <= i < |s| ==> InBmp(s[i]) {
        forall i | 0 <= i < |p|
          ensures InBmp(p[i])
        {
          assert p[i] == s[i];
        }
      } else {
        var i :| 0 <= i < |s| && !InBmp(s[i]);
        if i < |p| {
          assert !InBmp(p[i]);
        }
      }
    }
  }

  /** Code units add up over a concatenation. */
  lemma {:induction false} Utf16LengthConcat(a: string, b: string)
    ensures Utf16Length(a + b) == Utf16Length(a) + Utf16Length(b)
    decreases |b|
  {
    if |b| > 0 {
      var b' := b[..|b| - 1];
      assert (a + b)[..|a + b| - 1] == a + b';
      Utf16LengthConcat(a, b');
    } else {
      assert a + b == a;
    }
  }

  /** Two strings whose characters take the same number of code units
      position by position have the same UTF-16 length. */
  lemma {:induction false} Utf16LengthAlike(s: string, t: string)
    requires |s| == |t|
    requires forall i :: 0 <= i < |s| ==> CodeUnits(s[i]) == CodeUnits(t[i])
    ensures Utf16Length(s) == Utf16Length(t)
  {
    if |s| > 0 {
      var p, q := s[..|s| - 1], t[..|t| - 1];
      assert forall i :: 0 <= i < |p| ==> p[i] == s[i] && q[i] == t[i];
      Utf16LengthAlike(p, q);
    }
  }

  /** Every symbol is a single code unit. */
  lemma SymbolsUtf16(s: string)
    requires AllSymbols(s)
    ensures Utf16Length(s) == |s|
  {
    forall i | 0 <= i < |s|
      ensures InBmp(s[i])
    {
      SymbolShape(s[i]);
    }
    Utf16LengthIsLength(s);
  }

  /** Upper-casing keeps the UTF-16 length. */
  lemma UpperUtf16(s: string)
    ensures Utf16Length(Upper(s)) == Utf16Length(s)
  {
    Utf16LengthAlike(Upper(s), s);
  }

  /** The length check, on UTF-16 code units, comes first; then every
      character must be a symbol. */
  function Validate(s: string): (r: Result<string>)
    ensures r == Failure(WrongLength) <==> Utf16Length(s) != 11
    ensures r == Failure(InvalidCharacter) <==> Utf16Length(s) == 11 && exists i :: 0 <= i < |s| && !IsSymbol(s[i])
    ensures r.Success? <==> |s| == 11 && AllSymbols(s)
    ensures r.Success? ==> r.value == s
  {
    if AllSymbols(s) then SymbolsUtf16(s); ValidateSteps(s) else ValidateSteps(s)
  }

  function ValidateSteps(s: string): Result<string>
  {
    if Utf16Length(s) != 11 then Failure(WrongLength)
    else if !AllSymbols(s) then Failure(InvalidCharacter)
    else Success(s)
  }

  /** The characters that survive the removal and the trim. */
  function Cleaned(rule: TrimRule, code: string): string
  {
    Trim(rule, Remove(Remove(Remove(code, ' '), '-'), '#'))
  }

  /** UnformatNValidateGPC: clean, upper-case, validate. */
  function Unformat(rule: TrimRule, code: string): (r: Result<string>)
    ensures r.Success? ==> |r.value| == 11 && AllSymbols(r.value)
    ensures r.Success? <==> |UpperCase(rule, Cleaned(rule, code))| == 11 && AllSymbols(UpperCase(rule, Cleaned(rule, code)))
    ensures r == Failure(WrongLength) <==> Utf16Length(UpperCase(rule, Cleaned(rule, code))) != 11
    ensures rule == DotNet ==> (r == Failure(WrongLength) <==> Utf16Length(Cleaned(rule, code)) != 11)
  {
    if rule == DotNet then
      ExpandPlain(rule, Upper(Cleaned(rule, code)));
      UpperUtf16(Cleaned(rule, code));
      Validate(UpperCase(rule, Cleaned(rule, code)))
    else
      Validate(UpperCase(rule, Cleaned(rule, code)))
  }

  // ---------------------------------------------------------------------
  // Properties

  /** No symbol is removed, trimmed or changed by upper-casing. */
  lemma SymbolsSurvive(rule: TrimRule, ch: char)
    requires IsSymbol(ch)
    ensures ch != ' ' && ch != '-' && ch != '#'
    ensures !IsWhiteSpace(rule, ch)
    ensures UpperChar(ch) == ch && !IsLigature(ch)
  {
    SymbolShape(ch);
  }

  /** A bare code of eleven symbols is accepted and returned as it is. */
  lemma UnformatBare(rule: TrimRule, code: string)
    requires |code| == 11 && AllSymbols(code)
    ensures Unformat(rule, code) == Success(code)
  {
    forall i | 0 <= i < |code|
      ensures code[i] != ' ' && code[i] != '-' && code[i] != '#'
      ensures !IsWhiteSpace(rule, code[i]) && UpperChar(code[i]) == code[i] && !IsLigature(code[i])
    {
      SymbolsSurvive(rule, code[i]);
    }
    RemovePlain(code);
    assert TrimStart(rule, code) == code;
    assert TrimEnd(rule, code) == code;
    assert Upper(code) == code;
    ExpandPlain(rule, code);
  }

  lemma RemoveFive(x1: string, x2: string, x3: string, x4: string, x5: string, c: char)
    ensures Remove(x1 + x2 + x3 + x4 + x5, c)
         == Remove(x1, c) + Remove(x2, c) + Remove(x3, c) + Remove(x4, c) + Remove(x5, c)
  {
    RemoveConcat(x1 + x2 + x3 + x4, x5, c);
    RemoveConcat(x1 + x2 + x3, x4, c);
    RemoveConcat(x1 + x2, x3, c);
    RemoveConcat(x1, x2, c);
  }

  /** The separators are removed from a formatted code, and nothing else. */
  lemma RemoveSeparators(code: string)
    requires Plain(code) && |code| == 11
    ensures Remove(Remove(Remove(Formatted(code), ' '), '-'), '#') == code
  {
    var a, b, c := code[..4], code[4..8], code[8..];
    FormattedPieces(code);
    assert a + b + c == code;
    PlainSlice(code, 0, 4);
    PlainSlice(code, 4, 8);
    PlainSlice(code, 8, 11);
    SeparatorsInPieces(a, b, c);
  }

  /** A formatted code is '#' and the three groups, separated by dashes. */
  lemma FormattedPieces(code: string)
    requires |code| == 11
    ensures Formatted(code) == "#" + code[..4] + "-" + code[4..8] + "-" + code[8..]
  {
    var a, b, c := code[..4], code[4..8], code[8..];
    assert Dashed(code) == a + "-" + b + "-" + c;
    HashRegroup(a, b, c);
  }

  lemma HashRegroup(a: string, b: string, c: string)
    ensures "#" + (a + "-" + b + "-" + c) == "#" + a + "-" + b + "-" + c
  {
  }

  lemma PlainSlice(s: string, i: nat, j: nat)
    requires Plain(s) && i <= j <= |s|
    ensures Plain(s[i..j])
  {
    forall k | 0 <= k < j - i
      ensures s[i..j][k] != ' ' && s[i..j][k] != '-' && s[i..j][k] != '#'
    {
      assert s[i..j][k] == s[i + k];
    }
  }

  /** No separator occurs in s. */
  predicate Plain(s: string)
  {
    forall i :: 0 <= i < |s| ==> s[i] != ' ' && s[i] != '-' && s[i] != '#'
  }

  lemma SeparatorsInPieces(a: string, b: string, c: string)
    requires Plain(a) && Plain(b) && Plain(c)
    ensures Remove(Remove(Remove("#" + a + "-" + b + "-" + c, ' '), '-'), '#') == a + b + c
  {
    SpacesInPieces(a, b, c);
    DashesInPieces(a, b, c);
    PlainJoin(a, b, c);
    HashInPieces(a + b + c);
  }

  lemma PlainJoin(a: string, b: string, c: string)
    requires Plain(a) && Plain(b) && Plain(c)
    ensures Plain(a + b + c)
  {
    var s := a + b + c;
    forall i | 0 <= i < |s|
      ensures s[i] != ' ' && s[i] != '-' && s[i] != '#'
    {
      if i < |a| {
        assert s[i] == a[i];
      } else if i < |a| + |b| {
        assert s[i] == b[i - |a|];
      } else {
        assert s[i] == c[i - |a| - |b|];
      }
    }
  }

  lemma SpacesInPieces(a: string, b: string, c: string)
    requires Plain(a) && Plain(b) && Plain(c)
    ensures Remove("#" + a + "-" + b + "-" + c, ' ') == "#" + a + "-" + b + "-" + c
  {
    RemovePlain(a);
    RemovePlain(b);
    RemovePlain(c);
    RemoveAbsent("#", ' ');
    RemoveAbsent("-", ' ');
    RemoveFive("#" + a, "-", b, "-", c, ' ');
    RemoveConcat("#", a, ' ');
  }

  lemma DashesInPieces(a: string, b: string, c: string)
    requires Plain(a) && Plain(b) && Plain(c)
    ensures Remove("#" + a + "-" + b + "-" + c, '-') == "#" + (a + b + c)
  {
    var h := "#" + a;
    assert h + "" + b + "" + c == "#" + (a + b + c);
    RemovePlain(a);
    RemovePlain(b);
    RemovePlain(c);
    RemoveAbsent("#", '-');
    RemoveConcat("#", a, '-');
    assert Remove(h, '-') == h;
    assert Remove("-", '-') == "";
    RemoveFive(h, "-", b, "-", c, '-');
    assert Remove(h + "-" + b + "-" + c, '-') == h + "" + b + "" + c;
  }

  lemma HashInPieces(s: string)
    requires Plain(s)
    ensures Remove("#" + s, '#') == s
  {
    RemovePlain(s);
    RemoveConcat("#", s, '#');
    assert Remove("#", '#') == "";
  }

  lemma RemovePlain(s: string)
    requires Plain(s)
    ensures Remove(s, ' ') == s && Remove(s, '-') == s && Remove(s, '#') == s
  {
    RemoveAbsent(s, ' ');
    RemoveAbsent(s, '-');
    RemoveAbsent(s, '#');
  }

  /** Unformatting undoes formatting. */
  lemma UnformatFormat(rule: TrimRule, code: string)
    requires |code| == 11 && AllSymbols(code)
    ensures Unformat(rule, Formatted(code)) == Success(code)
  {
    SymbolsArePlain(code);
    RemoveSeparators(code);
    RemovePlain(code);
    UnformatBare(rule, code);
  }

  lemma SymbolsArePlain(code: string)
    requires AllSymbols(code)
    ensures Plain(code)
  {
    forall i | 0 <= i < |code|
      ensures code[i] != ' ' && code[i] != '-' && code[i] != '#'
    {
      SymbolsSurvive(DotNet, code[i]);
    }
  }

  /** A successful clean-up is a fixed point: its result is accepted again
      and returned unchanged. */
  lemma UnformatIdempotent(rule: TrimRule, code: string)
    requires Unformat(rule, code).Success?
    ensures Unformat(rule, Unformat(rule, code).value) == Unformat(rule, code)
  {
    UnformatBare(rule, Unformat(rule, code).value);
  }

  // ---------------------------------------------------------------------
  // Case

  lemma {:induction false} UpperRemove(s: string, c: char)
    requires !('a' <= c <= 'z') && !('A' <= c <= 'Z')
    ensures Upper(Remove(s, c)) == Remove(Upper(s), c)
    decreases |s|
  {
    if |s| > 0 {
      assert Upper(s)[1..] == Upper(s[1..]);
      UpperRemove(s[1..], c);
      var head := if s[0] == c then "" else [s[0]];
      assert Upper(head + Remove(s[1..], c)) == Upper(head) + Upper(Remove(s[1..], c));
    } else {
      assert Upper(s) == s;
    }
  }

  /** Upper-casing neither creates nor removes white space. */
  lemma UpperKeepsWhiteSpace(rule: TrimRule, ch: char)
    ensures IsWhiteSpace(rule, UpperChar(ch)) == IsWhiteSpace(rule, ch)
  {
  }

  lemma {:induction false} UpperTrimStart(rule: TrimRule, s: string)
    ensures Upper(TrimStart(rule, s)) == TrimStart(rule, Upper(s))
    decreases |s|
  {
    if |s| > 0 {
      UpperKeepsWhiteSpace(rule, s[0]);
      assert Upper(s)[0] == UpperChar(s[0]);
      if IsWhiteSpace(rule, s[0]) {
        assert Upper(s)[1..] == Upper(s[1..]);
        UpperTrimStart(rule, s[1..]);
      }
    }
  }

  lemma {:induction false} UpperTrimEnd(rule: TrimRule, s: string)
    ensures Upper(TrimEnd(rule, s)) == TrimEnd(rule, Upper(s))
    decreases |s|
  {
    if |s| > 0 {
      UpperKeepsWhiteSpace(rule, s[|s| - 1]);
      assert Upper(s)[|s| - 1] == UpperChar(s[|s| - 1]);
      if IsWhiteSpace(rule, s[|s| - 1]) {
        assert Upper(s)[..|s| - 1] == Upper(s[..|s| - 1]);
        UpperTrimEnd(rule, s[..|s| - 1]);
      }
    }
  }

  /** Upper-casing first changes nothing: the clean-up only looks at
      characters that are not letters. */
  lemma UpperCleaned(rule: TrimRule, code: string)
    ensures Upper(Cleaned(rule, code)) == Cleaned(rule, Upper(code))
  {
    var r1 := Remove(code, ' ');
    var r2 := Remove(r1, '-');
    var r3 := Remove(r2, '#');
    UpperRemove(code, ' ');
    UpperRemove(r1, '-');
    UpperRemove(r2, '#');
    UpperTrimStart(rule, r3);
    UpperTrimEnd(rule, TrimStart(rule, r3));
  }

  lemma UpperIdempotent(s: string)
    ensures Upper(Upper(s)) == Upper(s)
  {
  }

  /** The decoder does not distinguish ASCII upper and lower case: two
      inputs that agree after upper-casing are treated alike. */
  lemma UnformatIgnoresCase(rule: TrimRule, s: string, t: string)
    requires Upper(s) == Upper(t)
    ensures Unformat(rule, s) == Unformat(rule, t)
  {
    UpperCleaned(rule, s);
    UpperCleaned(rule, t);
    UpperCleaned(rule, Upper(s));
    UpperIdempotent(s);
    UpperIdempotent(t);
    UpperIdempotent(Cleaned(rule, s));
    UpperIdempotent(Cleaned(rule, t));
  }

  /** In particular a formatted code typed in lower case is accepted. */
  lemma UnformatLowerCase(rule: TrimRule, code: string)
    requires |code| == 11 && AllSymbols(code)
    ensures Unformat(rule, Lower(Formatted(code))) == Success(code)
  {
    var f := Formatted(code);
    assert Upper(Lower(f)) == Upper(f);
    UnformatIgnoresCase(rule, Lower(f), f);
    UnformatFormat(rule, code);
  }

  // ---------------------------------------------------------------------
  // The two runtimes' Trim

  /** A sample code: the first eleven symbols. */
  lemma SampleCode()
    ensures |"0123456789C"| == 11 && AllSymbols("0123456789C")
  {
    var code := "0123456789C";
    forall i | 0 <= i < 11
      ensures IsSymbol(code[i])
    {
      assert code[i] == Characters[i];
      IndexOfSymbol(i);
    }
  }

  /** A leading no-break space is trimmed by .NET but not by Java. */
  lemma NoBreakSpaceDiffers()
    ensures Unformat(DotNet, ['\U{00A0}'] + "0123456789C") == Success("0123456789C")
    ensures Unformat(Java, ['\U{00A0}'] + "0123456789C") == Failure(WrongLength)
  {
    SampleCode();
    LeadingWhiteSpace(DotNet, "0123456789C", '\U{00A0}');
    LeadingOther(Java, "0123456789C", '\U{00A0}');
  }

  /** A leading control character such as U+0001 is trimmed by Java but
      not by .NET. */
  lemma ControlCharacterDiffers()
    ensures Unformat(Java, ['\U{0001}'] + "0123456789C") == Success("0123456789C")
    ensures Unformat(DotNet, ['\U{0001}'] + "0123456789C") == Failure(WrongLength)
  {
    SampleCode();
    LeadingWhiteSpace(Java, "0123456789C", '\U{0001}');
    LeadingOther(DotNet, "0123456789C", '\U{0001}');
  }

  /** The removals keep a code with one extra leading non-separator. */
  lemma RemoveKeepsLeading(code: string, ch: char)
    requires |code| == 11 && AllSymbols(code)
    requires ch != ' ' && ch != '-' && ch != '#'
    ensures Remove(Remove(Remove([ch] + code, ' '), '-'), '#') == [ch] + code
  {
    forall i | 0 <= i < |code|
      ensures code[i] != ' ' && code[i] != '-' && code[i] != '#'
    {
      SymbolsSurvive(DotNet, code[i]);
    }
    var s := [ch] + code;
    assert Plain(s) by {
      forall i | 0 <= i < |s|
        ensures s[i] != ' ' && s[i] != '-' && s[i] != '#'
      {
        if i > 0 {
          assert s[i] == code[i - 1];
        }
      }
    }
    RemovePlain(s);
  }

  /** White space before a code is trimmed away. */
  lemma LeadingWhiteSpace(rule: TrimRule, code: string, ch: char)
    requires |code| == 11 && AllSymbols(code)
    requires ch != ' ' && ch != '-' && ch != '#' && IsWhiteSpace(rule, ch)
    ensures Unformat(rule, [ch] + code) == Success(code)
  {
    RemoveKeepsLeading(code, ch);
    assert ([ch] + code)[1..] == code;
    assert TrimStart(rule, [ch] + code) == TrimStart(rule, code);
    UnformatBare(rule, code);
    assert Cleaned(rule, [ch] + code) == Cleaned(rule, code) by {
      forall i | 0 <= i < |code|
        ensures code[i] != ' ' && code[i] != '-' && code[i] != '#'
      {
        SymbolsSurvive(rule, code[i]);
      }
    }
  }

  /** Any other character before a code stays and makes it too long. */
  lemma LeadingOther(rule: TrimRule, code: string, ch: char)
    requires |code| == 11 && AllSymbols(code)
    requires ch != ' ' && ch != '-' && ch != '#' && !IsWhiteSpace(rule, ch)
    ensures Unformat(rule, [ch] + code) == Failure(WrongLength)
  {
    RemoveKeepsLeading(code, ch);
    var s := [ch] + code;
    assert TrimStart(rule, s) == s;
    SymbolsSurvive(rule, code[10]);
    assert s[|s| - 1] == code[10];
    assert TrimEnd(rule, s) == s;
  }

  /** A character outside the Basic Multilingual Plane counts as two: ten
      symbols and U+1F600 are twelve code units, so the length check
      fails, and nine symbols and U+1F600 are eleven, so the character
      check fails instead. */
  lemma SurrogatePairCounts(rule: TrimRule)
    ensures Unformat(rule, "0123456789" + ['\U{1F600}']) == Failure(WrongLength)
    ensures Unformat(rule, "012345678" + ['\U{1F600}']) == Failure(InvalidCharacter)
  {
    SampleCode();
    var ten := "0123456789C"[..10];
    var nine := "0123456789C"[..9];
    assert ten == "0123456789" && nine == "012345678";
    WithWideCharacter(rule, ten);
    WithWideCharacter(rule, nine);
  }

  /** Symbols followed by U+1F600 fail the length check unless they are
      nine, and then fail the character check. */
  lemma WithWideCharacter(rule: TrimRule, code: string)
    requires 0 < |code| && AllSymbols(code)
    ensures Unformat(rule, code + ['\U{1F600}'])
         == if |code| == 9 then Failure(InvalidCharacter) else Failure(WrongLength)
  {
    var w := '\U{1F600}';
    var s := code + [w];
    WideCleaned(rule, code, w);
    WideUpper(rule, code, w);
    SymbolsUtf16(code);
    Utf16LengthConcat(code, [w]);
    assert [w][..0] == [];
    if IsSymbol(w) {
      SymbolShape(w);
    }
    assert s[|code|] == w;
  }

  lemma WideCleaned(rule: TrimRule, code: string, w: char)
    requires 0 < |code| && AllSymbols(code) && w == '\U{1F600}'
    ensures Cleaned(rule, code + [w]) == code + [w]
  {
    var s := code + [w];
    WidePlain(code, w);
    RemovePlain(s);
    SymbolsSurvive(rule, code[0]);
    TrimKeeps(rule, s);
  }

  lemma WidePlain(code: string, w: char)
    requires AllSymbols(code) && w == '\U{1F600}'
    ensures Plain(code + [w])
  {
    var s := code + [w];
    forall i | 0 <= i < |s|
      ensures s[i] != ' ' && s[i] != '-' && s[i] != '#'
    {
      if i < |code| {
        assert s[i] == code[i];
        SymbolsSurvive(DotNet, code[i]);
      }
    }
  }

  /** A string that neither starts nor ends with white space is its own
      trim. */
  lemma TrimKeeps(rule: TrimRule, s: string)
    requires 0 < |s| && !IsWhiteSpace(rule, s[0]) && !IsWhiteSpace(rule, s[|s| - 1])
    ensures Trim(rule, s) == s
  {
  }

  lemma WideUpper(rule: TrimRule, code: string, w: char)
    requires AllSymbols(code) && w == '\U{1F600}'
    ensures UpperCase(rule, code + [w]) == code + [w]
  {
    var s := code + [w];
    forall i | 0 <= i < |s|
      ensures UpperChar(s[i]) == s[i] && !IsLigature(s[i])
    {
      if i < |code| {
        assert s[i] == code[i];
        SymbolsSurvive(DotNet, code[i]);
      }
    }
    assert Upper(s) == s;
    ExpandPlain(rule, s);
  }

  // ---------------------------------------------------------------------
  // Ligatures

  /** A ligature in front of symbols survives the clean-up; the runtime's
      upper-casing then decides what the checks see. */
  lemma LeadingLigature(rule: TrimRule, code: string, ch: char)
    requires IsLigature(ch) && 0 < |code| && AllSymbols(code)
    ensures Unformat(rule, [ch] + code) == Validate(LigatureCapitals(rule, ch) + code)
  {
    LigatureCleaned(rule, code, ch);
    LigatureUpper(rule, code, ch);
  }

  lemma LigatureCleaned(rule: TrimRule, code: string, ch: char)
    requires IsLigature(ch) && 0 < |code| && AllSymbols(code)
    ensures Cleaned(rule, [ch] + code) == [ch] + code
  {
    var s := [ch] + code;
    LigaturePlain(code, ch);
    RemovePlain(s);
    SymbolsSurvive(rule, code[|code| - 1]);
    assert s[|s| - 1] == code[|code| - 1];
    TrimKeeps(rule, s);
  }

  lemma LigaturePlain(code: string, ch: char)
    requires IsLigature(ch) && AllSymbols(code)
    ensures Plain([ch] + code)
  {
    var s := [ch] + code;
    forall i | 0 <= i < |s|
      ensures s[i] != ' ' && s[i] != '-' && s[i] != '#'
    {
      if i > 0 {
        assert s[i] == code[i - 1];
        SymbolsSurvive(DotNet, code[i - 1]);
      }
    }
  }

  lemma LigatureUpper(rule: TrimRule, code: string, ch: char)
    requires IsLigature(ch) && AllSymbols(code)
    ensures UpperCase(rule, [ch] + code) == LigatureCapitals(rule, ch) + code
  {
    var s := [ch] + code;
    forall i | 0 <= i < |code|
      ensures UpperChar(code[i]) == code[i] && !IsLigature(code[i])
    {
      SymbolsSurvive(DotNet, code[i]);
    }
    assert Upper(s) == s;
    assert s[0] == ch && s[1..] == code;
    ExpandPlain(rule, code);
  }

  /** Java accepts ff, fl and ffl in place of their capitals, so U+FB00 and
      nine symbols, or U+FB04 and eight, make an accepted code; .NET keeps
      the ligature and finds the text too short. */
  lemma LigatureCodes(code: string)
    requires |code| == 9 && AllSymbols(code)
    ensures Unformat(Java, ['\U{FB00}'] + code) == Success("FF" + code)
    ensures Unformat(Java, ['\U{FB02}'] + code) == Success("FL" + code)
    ensures Unformat(Java, ['\U{FB04}'] + code[1..]) == Success("FFL" + code[1..])
    ensures Unformat(DotNet, ['\U{FB00}'] + code) == Failure(WrongLength)
  {
    LigatureAccepted('\U{FB00}', code);
    LigatureAccepted('\U{FB02}', code);
    LigatureAccepted('\U{FB04}', code[1..]);
    LigatureShort(code, '\U{FB00}');
  }

  /** Under Java a ligature and symbols of eleven capitals in all are
      accepted as those capitals. */
  lemma LigatureAccepted(ch: char, code: string)
    requires IsLigature(ch) && AllSymbols(code) && |LigatureCapitals(Java, ch)| + |code| == 11
    ensures Unformat(Java, [ch] + code) == Success(LigatureCapitals(Java, ch) + code)
  {
    LeadingLigature(Java, code, ch);
    CapitalsAreSymbols(ch);
    CapitalsThenSymbols(LigatureCapitals(Java, ch), code);
  }

  /** Under .NET a ligature and fewer than ten symbols are too short. */
  lemma LigatureShort(code: string, ch: char)
    requires IsLigature(ch) && 0 < |code| < 10 && AllSymbols(code)
    ensures Unformat(DotNet, [ch] + code) == Failure(WrongLength)
  {
    LeadingLigature(DotNet, code, ch);
    SymbolsUtf16(code);
    Utf16LengthConcat([ch], code);
    assert [ch][..0] == [];
  }

  lemma CapitalsAreSymbols(ch: char)
    requires IsLigature(ch)
    ensures AllSymbols(LigatureCapitals(Java, ch))
  {
    assert Characters[12] == 'F' && Characters[17] == 'L';
    IndexOfSymbol(12);
    IndexOfSymbol(17);
    var caps := LigatureCapitals(Java, ch);
    assert forall i :: 0 <= i < |caps| ==> caps[i] == 'F' || caps[i] == 'L';
  }

  lemma CapitalsThenSymbols(caps: string, code: string)
    requires AllSymbols(caps) && AllSymbols(code) && |caps| + |code| == 11
    ensures Validate(caps + code) == Success(caps + code)
  {
    var s := caps + code;
    forall i | 0 <= i < |s|
      ensures IsSymbol(s[i])
    {
      if i < |caps| {
        assert s[i] == caps[i];
      } else {
        assert s[i] == code[i - |caps|];
      }
    }
  }
}

=== FILE: java_gpc.dfy ===
/**
 The Java implementation (GPC.java). Its rectangle of assigned indices is
 180 by 360: both range checks are strict, so a latitude has at most 89
 whole degrees (assigned index 0 .. 179) and a longitude at most 179
 (0 .. 359), and the combination numbers run from 1 to 64800. There is no
 pole rule. The combination number is computed from closed band formulas
 and two summing loops, and decoded by the reverse search. The decoder
 works on a signed 64-bit point number with truncating division, so a code
 below Eleven, or one whose combination number is 0, is not refused but
 decodes to a negative assigned longitude.
 */
module JavaGpc {
  import opened Outcomes
  import opened Positional
  import opened DiagonalRank
  import opened Coordinates
  import opened PointNumber
  import opened Base27
  import opened Formatting
  import opened Codec

  /** Assigned latitudes 0 .. 179. */
  const Rows: nat := 180
  /** Assigned longitudes 0 .. 359. */
  const Columns: nat := 360
  /** The largest combination number. */
  const MaxCombination: nat := 64800

  /** The rectangle, its size, and the band bases the source adds: 16290
      cells lie on the anti-diagonals 0 .. 179, 48690 on 0 .. 359, and all
      64800 on 0 .. 538. */
  lemma Constants()
    ensures ValidShape(Rows, Columns) && Rows * Columns == MaxCombination <= Capacity
    ensures Before(Rows, Columns, 180) == 16290
    ensures Before(Rows, Columns, 360) == 48690
    ensures Before(Rows, Columns, 539) == MaxCombination
  {
    BeforeLow(Rows, Columns, 180);
    BeforeMiddle(Rows, Columns, 360);
    TotalIsProduct(Rows, Columns, 539);
  }

  /** The number of cells on anti-diagonal t, as the source adds it: t + 1
      up to 179, then 180, then 539 - t up to 538. */
  lemma DiagonalLength(t: nat)
    ensures Count(Rows, Columns, t) ==
      if t <= 179 then t + 1 else if t <= 359 then 180 else if t <= 538 then 539 - t else 0
  {
  }

  // ---------------------------------------------------------------------
  // GetCombinationNumber

  /** The combination number of two axes' signs and wholes. On the
      anti-diagonals 0 .. 538 it is the position of the cell in its block
      (also for a pair off the rectangle, which no caller passes), so on the
      rectangle it is the rank; beyond the last anti-diagonal it is 0. */
  method GetCombinationNumber(latitudeNegative: bool, latitudeWhole: nat,
                              longitudeNegative: bool, longitudeWhole: nat)
    returns (combination: int)
    ensures var la := Fold(latitudeNegative, latitudeWhole);
            var lo := Fold(longitudeNegative, longitudeWhole);
            (la + lo <= 538 ==> combination == Before(Rows, Columns, la + lo) + (lo - MinLo(Rows, la + lo)) + 1) &&
            (la + lo > 538 ==> combination == 0) &&
            (InRect(Rows, Columns, la, lo) ==> combination == Rank(Rows, Columns, la, lo))
  {
    var assignedLongitude := Fold(longitudeNegative, longitudeWhole);
    var assignedLatitude := Fold(latitudeNegative, latitudeWhole);
    var sum := assignedLongitude + assignedLatitude;
    combination := 0;
    if sum <= 179 {
      combination := BlockStart(sum);
      combination := combination + assignedLongitude + 1;
    } else if sum <= 359 {
      combination := combination + 16290;
      combination := combination + (sum - 180) * 180;
      combination := combination + 180 - assignedLatitude;
      MiddleStart(sum);
    } else if sum <= 538 {
      var count := LastBlockStart(sum);
      combination := combination + 48690 + count;
      combination := combination + 180 - assignedLatitude;
    }
  }

  /** The first band's loop of GetCombinationNumber: the lengths xSum + 1
      of the diagonals before anti-diagonal sum. */
  method BlockStart(sum: nat) returns (combination: int)
    requires sum <= 179
    ensures combination == Before(Rows, Columns, sum)
  {
    combination := 0;
    var xSum: int := sum - 1;
    while xSum >= 0
      invariant -1 <= xSum <= sum - 1
      invariant combination == Before(Rows, Columns, sum) - Before(Rows, Columns, xSum + 1)
    {
      DiagonalLength(xSum);
      combination := combination + xSum + 1;
      xSum := xSum - 1;
    }
  }

  /** The middle band's closed form: 180 cells per diagonal after 16290. */
  lemma MiddleStart(sum: nat)
    requires 180 <= sum <= 359
    ensures Before(Rows, Columns, sum) == 16290 + (sum - 180) * 180
    ensures MinLo(Rows, sum) == sum - 179
  {
    BeforeMiddle(Rows, Columns, sum);
  }

  /** The last band's loop of GetCombinationNumber: the lengths
      538 - xSum + 1 of the diagonals from 360 up to sum, added to 48690. */
  method LastBlockStart(sum: nat) returns (count: int)
    requires 360 <= sum <= 538
    ensures 48690 + count == Before(Rows, Columns, sum)
  {
    Constants();
    count := 0;
    var xSum: int := sum - 1;
    while xSum >= 360
      invariant 359 <= xSum <= sum - 1
      invariant count == Before(Rows, Columns, sum) - Before(Rows, Columns, xSum + 1)
    {
      DiagonalLength(xSum);
      count := count + (538 - xSum + 1);
      xSum := xSum - 1;
    }
  }

  // ---------------------------------------------------------------------
  // GetWholesFromCombination

  /** The signs and wholes a combination number decodes to. In 1 .. 64800
      they name the cell of that rank. Below 1 the first band's search
      stops at once and leaves the assigned indices -c and c - 1, so the
      longitude has a negative whole part; above 64800 both stay at 0. */
  function WholesOf(combination: int): (w: SignWhole)
    ensures 1 <= combination <= MaxCombination ==>
      w.latitudeWhole >= 0 && w.longitudeWhole >= 0 &&
      InRect(Rows, Columns, Fold(w.latitudeNegative, w.latitudeWhole), Fold(w.longitudeNegative, w.longitudeWhole)) &&
      Rank(Rows, Columns, Fold(w.latitudeNegative, w.latitudeWhole), Fold(w.longitudeNegative, w.longitudeWhole)) == combination
    ensures combination <= 0 ==>
      2 * w.latitudeWhole + (if w.latitudeNegative then 1 else 0) == -combination &&
      2 * w.longitudeWhole + (if w.longitudeNegative then 1 else 0) == combination - 1 &&
      w.latitudeWhole >= 0 && w.longitudeWhole < 0
    ensures combination > MaxCombination ==> w == SignWhole(false, 0, false, 0)
  {
    Constants();
    if combination <= 0 then
      Unfold(-combination, combination - 1)
    else if combination <= MaxCombination then
      var p := Unrank(Rows, Columns, combination);
      FoldUnfold(p.la);
      FoldUnfold(p.lo);
      Unfold(p.la, p.lo)
    else
      Unfold(0, 0)
  }

  /** The signs and wholes of an in-range combination number unfold the
      cell Unrank gives. */
  lemma WholesOfCell(combination: int, la: int, lo: int)
    requires 1 <= combination <= MaxCombination && la >= 0 && lo >= 0
    requires ValidShape(Rows, Columns) && Unrank(Rows, Columns, combination) == Cell(la, lo)
    ensures WholesOf(combination) == Unfold(la, lo)
  {
  }

  /** Decoding the combination number of two axes on the rectangle gives
      their signs and wholes back. */
  lemma WholesRoundTrip(latitudeNegative: bool, latitudeWhole: nat, longitudeNegative: bool, longitudeWhole: nat)
    requires InRect(Rows, Columns, Fold(latitudeNegative, latitudeWhole), Fold(longitudeNegative, longitudeWhole))
    ensures WholesOf(Rank(Rows, Columns, Fold(latitudeNegative, latitudeWhole), Fold(longitudeNegative, longitudeWhole)))
         == SignWhole(latitudeNegative, latitudeWhole, longitudeNegative, longitudeWhole)
  {
    Constants();
    UnrankRank(Rows, Columns, Cell(Fold(latitudeNegative, latitudeWhole), Fold(longitudeNegative, longitudeWhole)));
    UnfoldFold(latitudeNegative, latitudeWhole);
    UnfoldFold(longitudeNegative, longitudeWhole);
  }

  /** The inverse of GetCombinationNumber: one search per band, then the
      assigned indices are unfolded into signs and wholes. */
  method GetWholesFromCombination(combination: int) returns (w: SignWhole)
    ensures w == WholesOf(combination)
  {
    Constants();
    var assignedLongitude, assignedLatitude := 0, 0;
    if combination <= 16290 {
      assignedLatitude, assignedLongitude := FirstBand(combination);
    } else if combination <= 48690 {
      assignedLatitude, assignedLongitude := MiddleBand(combination);
    } else if combination <= 64800 {
      assignedLatitude, assignedLongitude := LastBand(combination);
    }
    if 1 <= combination <= MaxCombination {
      WholesOfCell(combination, assignedLatitude, assignedLongitude);
    }
    w := Unfold(assignedLatitude, assignedLongitude);
  }

  /** The first band: the diagonal lengths 1, 2, 3, ... are added up until
      they reach the combination number, which then lies on the last
      diagonal counted. For a number below 1 nothing is added. */
  method FirstBand(combination: int) returns (assignedLatitude: int, assignedLongitude: int)
    requires combination <= 16290
    ensures combination <= 0 ==> assignedLatitude == -combination && assignedLongitude == combination - 1
    ensures 1 <= combination ==>
      assignedLatitude >= 0 && assignedLongitude >= 0 &&
      1 <= combination <= Rows * Columns &&
      Unrank(Rows, Columns, combination) == Cell(assignedLatitude, assignedLongitude)
  {
    Constants();
    var xSum := 0;
    var maxCombination := 0;
    while maxCombination < combination
      invariant 0 <= xSum <= 180
      invariant maxCombination == Before(Rows, Columns, xSum)
      invariant 0 < xSum ==> Before(Rows, Columns, xSum - 1) < combination
      decreases 180 - xSum
    {
      DiagonalLength(xSum);
      maxCombination := maxCombination + xSum + 1;
      xSum := xSum + 1;
    }
    var sum := xSum - 1;
    var xCombination := maxCombination - (sum + 1);
    assignedLongitude := combination - xCombination - 1;
    assignedLatitude := sum - assignedLongitude;
    if 1 <= combination {
      DiagonalLength(sum);
      CellOnDiagonal(Rows, Columns, sum, assignedLongitude, combination);
    }
  }

  /** The middle band: every diagonal holds 180 cells, so the diagonal and
      the position on it follow from one division. */
  method MiddleBand(combination: int) returns (assignedLatitude: int, assignedLongitude: int)
    requires 16290 < combination <= 48690
    ensures assignedLatitude >= 0 && assignedLongitude >= 0
    ensures 1 <= combination <= Rows * Columns
    ensures Unrank(Rows, Columns, combination) == Cell(assignedLatitude, assignedLongitude)
  {
    Constants();
    var xCombination := 16290;
    var xSum := 179;
    var isLast := (combination - xCombination) % 180 == 0;
    var pre := (combination - xCombination) / 180 - (if isLast then 1 else 0);
    assert pre == (combination - 16291) / 180;
    xSum := xSum + pre;
    xCombination := xCombination + pre * 180;
    var sum := xSum + 1;
    assignedLatitude := 180 - (combination - xCombination);
    assignedLongitude := sum - assignedLatitude;
    BeforeMiddle(Rows, Columns, sum);
    DiagonalLength(sum);
    CellOnDiagonal(Rows, Columns, sum, assignedLongitude, combination);
  }

  /** The last band: the diagonal lengths 179, 178, ... are added to 48690
      until they reach the combination number. */
  method LastBand(combination: int) returns (assignedLatitude: int, assignedLongitude: int)
    requires 48690 < combination <= 64800
    ensures assignedLatitude >= 0 && assignedLongitude >= 0
    ensures 1 <= combination <= Rows * Columns
    ensures Unrank(Rows, Columns, combination) == Cell(assignedLatitude, assignedLongitude)
  {
    Constants();
    var xCombination := 48690;
    var maxCombination := 0;
    maxCombination := maxCombination + xCombination;
    var xSum := 360;
    while maxCombination < combination
      invariant 360 <= xSum <= 539
      invariant maxCombination == Before(Rows, Columns, xSum)
      invariant 360 < xSum ==> Before(Rows, Columns, xSum - 1) < combination
      decreases 539 - xSum
    {
      DiagonalLength(xSum);
      maxCombination := maxCombination + (538 - xSum + 1);
      xSum := xSum + 1;
    }
    var sum := xSum - 1;
    DiagonalLength(sum);
    xCombination := maxCombination - (538 - sum + 1);
    assignedLatitude := 180 - (combination - xCombination);
    assignedLongitude := sum - assignedLatitude;
    CellOnDiagonal(Rows, Columns, sum, assignedLongitude, combination);
  }

  // ---------------------------------------------------------------------
  // Encoding: GetGridPointCode and GetPointNumber

  /** The latitude check of GetGridPointCode: -90 < latitude < 90. */
  predicate LatitudeInRange(lat: Seven)
    requires Valid(lat)
  {
    Magnitude(lat) < 9000000
  }

  /** The longitude check of GetGridPointCode: -180 < longitude < 180. */
  predicate LongitudeInRange(lon: Seven)
    requires Valid(lon)
  {
    Magnitude(lon) < 18000000
  }

  /** The two range checks carve out exactly the rectangle: a pair passes
      both if and only if its assigned indices are cells. */
  lemma InRangeFits(lat: Seven, lon: Seven)
    requires Valid(lat) && Valid(lon)
    ensures LatitudeInRange(lat) && LongitudeInRange(lon) <==> Fits(Rows, Columns, lat, lon)
  {
    WholeBelow(lat, 90);
    WholeBelow(lon, 180);
  }

  /** GetGridPointCode on the seven parts of both axes. */
  function Encode(lat: Seven, lon: Seven, formatted: bool): (r: Result<string>)
    requires Valid(lat) && Valid(lon)
    ensures r == Failure(LatitudeOutOfRange) <==> !LatitudeInRange(lat)
    ensures r == Failure(LongitudeOutOfRange) <==> LatitudeInRange(lat) && !LongitudeInRange(lon)
    ensures r.Success? <==> LatitudeInRange(lat) && LongitudeInRange(lon)
    ensures r.Success? ==> |r.value| == if formatted then 14 else 11
    ensures r.Success? && !formatted ==> AllSymbols(r.value) && Canonical(r.value)
  {
    if !LatitudeInRange(lat) then Failure(LatitudeOutOfRange)
    else if !LongitudeInRange(lon) then Failure(LongitudeOutOfRange)
    else
      InRangeFits(lat, lon);
      Constants();
      var code := CodeOf(Rows, Columns, lat, lon);
      Success(if formatted then Formatted(code) else code)
  }

  /** GetPointNumber: the combination number above the interleaved digits. */
  method GetPointNumber(lat: Seven, lon: Seven) returns (point: nat)
    requires Fits(Rows, Columns, lat, lon)
    ensures point == PointOf(Rows, Columns, lat, lon)
    ensures 1 <= point / Shift <= MaxCombination
  {
    Constants();
    var combination := GetCombinationNumber(lat.negative, lat.whole, lon.negative, lon.whole);
    point := AddFractional(combination, lat.digits, lon.digits);
  }

  /** GetGridPointCode: check both ranges, encode the point number plus
      Eleven and format on request. */
  method GetGridPointCode(lat: Seven, lon: Seven, formatted: bool) returns (r: Result<string>)
    requires Valid(lat) && Valid(lon)
    ensures r == Encode(lat, lon, formatted)
  {
    if !LatitudeInRange(lat) {
      return Failure(LatitudeOutOfRange);
    }
    if !LongitudeInRange(lon) {
      return Failure(LongitudeOutOfRange);
    }
    InRangeFits(lat, lon);
    var point := GetPointNumber(lat, lon);
    var n := point + Eleven;
    var code := EncodePoint(n);
    SymbolsOfPoint(lat, lon, point, n);
    var bare := code;
    if formatted {
      code := FormatGPC(code);
    }
    EncodeIs(lat, lon, formatted, bare);
    r := Success(code);
  }

  /** The two-argument GetGridPointCode: the code is formatted. */
  method GetFormattedGridPointCode(lat: Seven, lon: Seven) returns (r: Result<string>)
    requires Valid(lat) && Valid(lon)
    ensures r == Encode(lat, lon, true)
    ensures r.Success? ==> |r.value| == 14 && r.value[0] == '#'
  {
    r := GetGridPointCode(lat, lon, true);
    if r.Success? {
      InRangeFits(lat, lon);
      Constants();
    }
  }

  /** The symbols of a point number plus Eleven are the code of the pair. */
  lemma SymbolsOfPoint(lat: Seven, lon: Seven, point: nat, n: nat)
    requires Fits(Rows, Columns, lat, lon)
    requires point == PointOf(Rows, Columns, lat, lon) && n == point + Eleven
    ensures Symbols(n) == CodeOf(Rows, Columns, lat, lon)
  {
  }

  lemma EncodeIs(lat: Seven, lon: Seven, formatted: bool, code: string)
    requires Valid(lat) && Valid(lon) && Fits(Rows, Columns, lat, lon)
    requires code == CodeOf(Rows, Columns, lat, lon)
    ensures Encode(lat, lon, formatted) == Success(if formatted then Formatted(code) else code)
  {
    InRangeFits(lat, lon);
  }

  // ---------------------------------------------------------------------
  // Java's integer arithmetic on the decoding side

  /** Java's long division, and MathTruncate of a quotient: the quotient
      is truncated toward zero. */
  function Quot(n: int, d: int): int
    requires d > 0
  {
    if n >= 0 then n / d else -((-n) / d)
  }

  /** Java's remainder operator: it takes the sign of n. */
  function Rem(n: int, d: int): int
    requires d > 0
  {
    n - Quot(n, d) * d
  }

  /** The truncated quotient leaves a remainder of the sign of n and of
      magnitude below d, which determines it; the remainder of a negative
      n is the negated remainder of -n. */
  lemma Truncation(n: int, d: int)
    requires d > 0
    ensures n >= 0 ==> 0 <= n - Quot(n, d) * d < d && Rem(n, d) == n % d
    ensures n < 0 ==> -d < n - Quot(n, d) * d <= 0 && Rem(n, d) == -((-n) % d)
  {
    if n < 0 {
      var m := -n;
      var q := m / d;
      assert m == q * d + m % d;
      assert Quot(n, d) * d == -(q * d);
    }
  }

  /** The longitude digits GetCoordinateSeven takes from a fractional block
      of either sign: the block divided by 10^p (p = 9, 7, 5, 3, 1), truncated,
      remainder 10. */
  function JavaLongitudeDigits(fractional: int): (ds: seq<int>)
    ensures |ds| == 5
  {
    seq(5, i requires 0 <= i < 5 => Rem(Quot(fractional, Pow(10, 9 - 2 * i)), 10))
  }

  /** The latitude digits, at p = 8, 6, 4, 2, 0. */
  function JavaLatitudeDigits(fractional: int): (ds: seq<int>)
    ensures |ds| == 5
  {
    seq(5, i requires 0 <= i < 5 => Rem(Quot(fractional, Pow(10, 8 - 2 * i)), 10))
  }

  /** On a non-negative block Java's digits are the decimal digits; on a
      negative block they are the digits of its magnitude, negated. */
  lemma SignedDigits(fractional: int)
    ensures fractional >= 0 ==>
      JavaLongitudeDigits(fractional) == LongitudeDigits(fractional) &&
      JavaLatitudeDigits(fractional) == LatitudeDigits(fractional)
    ensures fractional < 0 ==> forall i :: 0 <= i < 5 ==>
      JavaLongitudeDigits(fractional)[i] == -LongitudeDigits(-fractional)[i] &&
      JavaLatitudeDigits(fractional)[i] == -LatitudeDigits(-fractional)[i]
  {
    forall p: nat
      ensures Rem(Quot(fractional, Pow(10, p)), 10) ==
        if fractional >= 0 then (fractional / Pow(10, p)) % 10 else -(((-fractional) / Pow(10, p)) % 10)
    {
      DigitOf(fractional, Pow(10, p));
    }
  }

  lemma DigitOf(f: int, w: nat)
    requires w > 0
    ensures Rem(Quot(f, w), 10) == if f >= 0 then (f / w) % 10 else -(((-f) / w) % 10)
  {
    var q := Quot(f, w);
    if f >= 0 {
      var m := f / w;
      QuotientNonNegative(f, w);
      assert q == m;
      LastDigit(m);
    } else {
      var m := (-f) / w;
      QuotientNonNegative(-f, w);
      assert q == -m;
      LastDigit(m);
    }
  }

  lemma QuotientNonNegative(n: int, w: int)
    requires n >= 0 && w > 0
    ensures n / w >= 0
  {
  }

  /** The remainder by 10 of m and of -m: the last decimal digit of m,
      with the sign of the operand. */
  lemma LastDigit(m: int)
    requires m >= 0
    ensures Rem(m, 10) == m % 10 && Rem(-m, 10) == -(m % 10)
  {
    Truncation(m, 10);
    Truncation(-m, 10);
  }

  // ---------------------------------------------------------------------
  // Decoding: GetCoordinates and its helpers

  /** The two axes GetCoordinateSeven builds from signs and wholes and a
      fractional block of either sign. */
  function SevensAt(w: SignWhole, fractional: int): (lat_lon: (Seven, Seven))
    ensures |lat_lon.0.digits| == 5 && |lat_lon.1.digits| == 5
    ensures fractional >= 0 ==> lat_lon == SevensOf(w, fractional)
  {
    SignedDigits(fractional);
    (Seven(w.latitudeNegative, w.latitudeWhole, JavaLatitudeDigits(fractional)),
     Seven(w.longitudeNegative, w.longitudeWhole, JavaLongitudeDigits(fractional)))
  }

  /** GetCoordinates of a signed point number: the truncated quotient by
      10^10 is the combination number, what is left the fractional block. */
  function CoordinatesOfPoint(point: int): (lat_lon: (Seven, Seven))
    ensures |lat_lon.0.digits| == 5 && |lat_lon.1.digits| == 5
    ensures point >= 0 ==> lat_lon == SevensOf(WholesOf(point / Shift), point % Shift)
  {
    var combination := Quot(point, Shift);
    var fractional := point - combination * Shift;
    if point >= 0 then
      NonNegativeSplit(point, combination, fractional);
      SevensAt(WholesOf(combination), fractional)
    else
      SevensAt(WholesOf(combination), fractional)
  }

  /** On a non-negative point number the truncating split is the
      Euclidean one. */
  lemma NonNegativeSplit(point: int, combination: int, fractional: int)
    requires point >= 0 && combination == Quot(point, Shift) && fractional == point - combination * Shift
    ensures combination == point / Shift && fractional == point % Shift && fractional >= 0
    ensures SevensAt(WholesOf(combination), fractional) == SevensOf(WholesOf(point / Shift), point % Shift)
  {
    Truncation(point, Shift);
  }

  /** A point number whose combination number names a cell decodes as the
      codec core decodes it. */
  lemma CoordinatesInRange(point: int)
    requires 0 <= point && 1 <= point / Shift <= Rows * Columns
    ensures CoordinatesOfPoint(point) == DecodePoint(Rows, Columns, point)
  {
    Constants();
    var c := point / Shift;
    var f := point % Shift;
    Truncation(point, Shift);
    assert Quot(point, Shift) == c;
    assert point - c * Shift == f;
    assert CoordinatesOfPoint(point) == SevensAt(WholesOf(c), f);
    var p := Unrank(Rows, Columns, c);
    assert WholesOf(c) == Unfold(p.la, p.lo);
  }

  /** A point number below 10^10 (a negative one included) has a
      combination number below 1 and decodes to a longitude with a
      negative whole part, which is not a coordinate. */
  lemma NoCellBelow(point: int)
    requires point < Shift
    ensures CoordinatesOfPoint(point).1.whole < 0 && !Valid(CoordinatesOfPoint(point).1)
  {
    var combination := Quot(point, Shift);
    Truncation(point, Shift);
    assert combination <= 0;
  }

  /** A point number beyond the last cell decodes to whole parts 0 with
      positive signs. */
  lemma NoCellAbove(point: int)
    requires 0 <= point && point / Shift > MaxCombination
    ensures var lat_lon := CoordinatesOfPoint(point);
      !lat_lon.0.negative && lat_lon.0.whole == 0 && !lat_lon.1.negative && lat_lon.1.whole == 0
  {
  }

  /** GetCoordinateSeven: the wholes from the combination number and the
      digits from the fractional block. */
  method GetCoordinateSeven(combination: int, fractional: int) returns (lat: Seven, lon: Seven)
    ensures (lat, lon) == SevensAt(WholesOf(combination), fractional)
  {
    var w := GetWholesFromCombination(combination);
    var latDigits, lonDigits := FractionalDigits(fractional);
    lat := Seven(w.latitudeNegative, w.latitudeWhole, latDigits);
    lon := Seven(w.longitudeNegative, w.longitudeWhole, lonDigits);
  }

  /** The digit loop of GetCoordinateSeven, with Java's truncating division
      and remainder. */
  method FractionalDigits(fractional: int) returns (lat: seq<int>, lon: seq<int>)
    ensures lat == JavaLatitudeDigits(fractional) && lon == JavaLongitudeDigits(fractional)
  {
    lat, lon := [], [];
    var power := 9;
    var x := 2;
    while x <= 6
      invariant 2 <= x <= 7 && power == 9 - 2 * (x - 2)
      invariant |lat| == x - 2 && |lon| == x - 2
      invariant forall i :: 0 <= i < x - 2 ==> lon[i] == Rem(Quot(fractional, Pow(10, 9 - 2 * i)), 10)
      invariant forall i :: 0 <= i < x - 2 ==> lat[i] == Rem(Quot(fractional, Pow(10, 8 - 2 * i)), 10)
    {
      lon := lon + [Rem(Quot(fractional, Pow(10, power)), 10)];
      power := power - 1;
      lat := lat + [Rem(Quot(fractional, Pow(10, power)), 10)];
      power := power - 1;
      x := x + 1;
    }
  }

  /** GetCoordinates of a point number, as the source splits it. */
  method GetCoordinatesOfPoint(point: int) returns (lat: Seven, lon: Seven)
    ensures (lat, lon) == CoordinatesOfPoint(point)
  {
    var combination := Quot(point, Shift);
    var fractional := point - combination * Shift;
    lat, lon := GetCoordinateSeven(combination, fractional);
    PointParts(point, combination, fractional);
  }

  lemma PointParts(point: int, combination: int, fractional: int)
    requires combination == Quot(point, Shift) && fractional == point - combination * Shift
    ensures CoordinatesOfPoint(point) == SevensAt(WholesOf(combination), fractional)
  {
  }

  /** The decoder once the code is cleaned and validated: the symbols less
      Eleven are the point number, negative for a code below Eleven. */
  function DecodeSymbols(clean: string): (lat_lon: (Seven, Seven))
    requires AllSymbols(clean)
    ensures |lat_lon.0.digits| == 5 && |lat_lon.1.digits| == 5
  {
    var point: int := SymbolValue(clean) - Eleven;
    CoordinatesOfPoint(point)
  }

  /** GetCoordinates of a code, up to the seven parts of both axes: the
      failures of unformatting and validation pass through, and every code
      that passes them decodes. */
  function Decode(code: string): (r: Result<(Seven, Seven)>)
    ensures r.Success? <==> Unformat(Java, code).Success?
    ensures r.Failure? ==> r.error == Unformat(Java, code).error
    ensures r.Success? ==> |r.value.0.digits| == 5 && |r.value.1.digits| == 5
  {
    var clean :- Unformat(Java, code);
    Success(DecodeSymbols(clean))
  }

  lemma DecodeStages(code: string)
    requires Unformat(Java, code).Success?
    ensures Decode(code) == Success(DecodeSymbols(Unformat(Java, code).value))
  {
  }

  lemma DecodedAs(clean: string, value: nat, point: int, lat: Seven, lon: Seven)
    requires AllSymbols(clean) && value == SymbolValue(clean) && point == value - Eleven
    requires (lat, lon) == CoordinatesOfPoint(point)
    ensures DecodeSymbols(clean) == (lat, lon)
  {
    SymbolsPoint(clean, point);
  }

  lemma SymbolsPoint(clean: string, point: int)
    requires AllSymbols(clean) && point == SymbolValue(clean) - Eleven
    ensures DecodeSymbols(clean) == CoordinatesOfPoint(point)
  {
  }

  /** GetCoordinates: unformat and validate, then decode the symbols. */
  method GetCoordinates(code: string) returns (r: Result<(int, int)>)
    ensures Decode(code).Failure? ==> r == Failure(Decode(code).error)
    ensures Decode(code).Success? ==>
      r == Success((CombineSeven(Decode(code).value.0), CombineSeven(Decode(code).value.1)))
  {
    var clean := Unformat(Java, code);
    if clean.Failure? {
      return Failure(clean.error);
    }
    DecodeStages(code);
    var value := DecodeToPoint(clean.value);
    var point: int := value - Eleven;
    var lat, lon := GetCoordinatesOfPoint(point);
    DecodedAs(clean.value, value, point, lat, lon);
    var latitude := Recombine(lat);
    var longitude := Recombine(lon);
    r := Success((latitude, longitude));
  }

  // ---------------------------------------------------------------------
  // Properties of the codec

  /** Decoding the code of two in-range axes, formatted or not, gives both
      axes back. */
  lemma RoundTrip(lat: Seven, lon: Seven, formatted: bool)
    requires Valid(lat) && Valid(lon) && LatitudeInRange(lat) && LongitudeInRange(lon)
    ensures Decode(Encode(lat, lon, formatted).value) == Success((lat, lon))
  {
    Constants();
    InRangeFits(lat, lon);
    var code := CodeOf(Rows, Columns, lat, lon);
    assert Encode(lat, lon, formatted).value == if formatted then Formatted(code) else code;
    DecodeCode(lat, lon);
  }

  /** A code, bare or formatted, decodes to the pair it was made from. */
  lemma DecodeCode(lat: Seven, lon: Seven)
    requires Fits(Rows, Columns, lat, lon)
    ensures Decode(CodeOf(Rows, Columns, lat, lon)) == Success((lat, lon))
    ensures Decode(Formatted(CodeOf(Rows, Columns, lat, lon))) == Success((lat, lon))
  {
    Constants();
    var code := CodeOf(Rows, Columns, lat, lon);
    CoordinatesOfCode(lat, lon);
    UnformatBare(Java, code);
    DecodeStages(code);
    UnformatFormat(Java, code);
    DecodeStages(Formatted(code));
  }

  /** The symbols of a code decode to the pair it was made from. */
  lemma CoordinatesOfCode(lat: Seven, lon: Seven)
    requires Fits(Rows, Columns, lat, lon)
    ensures DecodeSymbols(CodeOf(Rows, Columns, lat, lon)) == (lat, lon)
  {
    Constants();
    var p := PointOf(Rows, Columns, lat, lon);
    CodeValue(Rows, Columns, lat, lon);
    PointRoundTrip(Rows, Columns, lat, lon);
    var code := CodeOf(Rows, Columns, lat, lon);
    var value := SymbolValue(code);
    var point: int := value - Eleven;
    assert point == p;
    CoordinatesInRange(point);
    DecodedAs(code, value, point, lat, lon);
  }

  /** Recombined, the decoded axes are the encoded values. */
  lemma ValueRoundTrip(lat: Seven, lon: Seven, formatted: bool)
    requires Valid(lat) && Valid(lon) && LatitudeInRange(lat) && LongitudeInRange(lon)
    ensures Decode(Encode(lat, lon, formatted).value).Success?
    ensures CombineSeven(Decode(Encode(lat, lon, formatted).value).value.0) == Scaled(lat)
    ensures CombineSeven(Decode(Encode(lat, lon, formatted).value).value.1) == Scaled(lon)
  {
    RoundTrip(lat, lon, formatted);
  }

  /** Two in-range pairs share a code only when they are the same pair. */
  lemma EncodeInjective(lat1: Seven, lon1: Seven, lat2: Seven, lon2: Seven, formatted: bool)
    requires Valid(lat1) && Valid(lon1) && Valid(lat2) && Valid(lon2)
    requires Encode(lat1, lon1, formatted).Success?
    requires Encode(lat1, lon1, formatted) == Encode(lat2, lon2, formatted)
    ensures lat1 == lat2 && lon1 == lon2
  {
    RoundTrip(lat1, lon1, formatted);
    RoundTrip(lat2, lon2, formatted);
  }

  /** Decoding ignores the case of the letters. */
  lemma DecodeIgnoresCase(s: string, t: string)
    requires Upper(s) == Upper(t)
    ensures Decode(s) == Decode(t)
  {
    UnformatIgnoresCase(Java, s, t);
  }

  /** A formatted code written in lower case decodes like the code. */
  lemma DecodeLowerCase(lat: Seven, lon: Seven)
    requires Valid(lat) && Valid(lon) && LatitudeInRange(lat) && LongitudeInRange(lon)
    ensures Decode(Lower(Encode(lat, lon, true).value)) == Success((lat, lon))
  {
    Constants();
    InRangeFits(lat, lon);
    var code := CodeOf(Rows, Columns, lat, lon);
    UnformatLowerCase(Java, code);
    UnformatBare(Java, code);
    RoundTrip(lat, lon, false);
  }

  /** Java's upper-casing spells the ligature U+FB00 out as "FF", so a code
      starting with FF may be typed with the ligature and decodes alike. */
  lemma LigatureDecodes(code: string)
    requires |code| == 9 && AllSymbols(code)
    ensures Decode(['\U{FB00}'] + code).Success?
    ensures Decode(['\U{FB00}'] + code) == Decode("FF" + code)
  {
    LigatureCodes(code);
    UnformatBare(Java, "FF" + code);
  }

  // ---------------------------------------------------------------------
  // Codes the encoder never produces

  /** The seven parts of longitude -1.0 with a negative whole part: the
      longitude a combination number 0 decodes to. */
  const MinusOneWhole: Seven := Seven(true, -1, [0, 0, 0, 0, 0])

  /** The seven parts of 1.0. */
  const OneDegree: Seven := Seven(false, 1, [0, 0, 0, 0, 0])

  /** As written, a combination number 0 is not refused: the code of value
      Eleven decodes to latitude 0.0 and a longitude whose seven parts are
      sign -1 and whole -1, which GetCoordinates recombines to +1.0; the
      encoder gives (0.0, 1.0) a different code. */
  lemma ZeroCombinationDecodes()
    ensures Decode(ZeroCombinationCode()) == Success((Zero, MinusOneWhole))
    ensures !Valid(MinusOneWhole) && CombineSeven(MinusOneWhole) == 100000
    ensures Valid(OneDegree) && Scaled(OneDegree) == 100000
    ensures Encode(Zero, OneDegree, false).Success?
    ensures Decode(Encode(Zero, OneDegree, false).value) == Success((Zero, OneDegree))
    ensures Encode(Zero, OneDegree, false).value != ZeroCombinationCode()
  {
    ZeroCodeDecodes();
    MinusOneValue();
    OneDegreeCode();
  }

  lemma ZeroCodeDecodes()
    ensures Decode(ZeroCombinationCode()) == Success((Zero, MinusOneWhole))
  {
    var code := ZeroCombinationCode();
    var value := SymbolValue(code);
    var point: int := value - Eleven;
    assert point == 0;
    assert Quot(point, Shift) == 0;
    assert WholesOf(0) == SignWhole(false, 0, true, -1);
    ZeroDigits();
    assert CoordinatesOfPoint(point) == (Zero, MinusOneWhole);
    DecodedAs(code, value, point, Zero, MinusOneWhole);
    UnformatBare(Java, code);
    DecodeStages(code);
  }

  lemma ZeroDigits()
    ensures JavaLatitudeDigits(0) == Zero.digits && JavaLongitudeDigits(0) == Zero.digits
  {
    forall i | 0 <= i < 5
      ensures JavaLatitudeDigits(0)[i] == 0 && JavaLongitudeDigits(0)[i] == 0
    {
      PowPositive(10, 8 - 2 * i);
      PowPositive(10, 9 - 2 * i);
    }
  }

  lemma MinusOneValue()
    ensures !Valid(MinusOneWhole) && CombineSeven(MinusOneWhole) == 100000
  {
    WholeFirst(-1, MinusOneWhole.digits);
    AllZero(MinusOneWhole.digits);
  }

  /** The whole part in front of five digits weighs 10^5. */
  lemma WholeFirst(whole: int, digits: seq<int>)
    requires |digits| == 5
    ensures Value(10, [whole] + digits) == whole * 100000 + Value(10, digits)
  {
    ValueConcat(10, [whole], digits);
    assert [whole][..0] == [];
  }

  lemma OneDegreeCode()
    ensures Valid(OneDegree) && Scaled(OneDegree) == 100000
    ensures Encode(Zero, OneDegree, false).Success?
    ensures Decode(Encode(Zero, OneDegree, false).value) == Success((Zero, OneDegree))
    ensures Encode(Zero, OneDegree, false).value != ZeroCombinationCode()
  {
    OneDegreeValue();
    RoundTrip(Zero, OneDegree, false);
    OneDegreeCodeDiffers();
  }

  lemma OneDegreeValue()
    ensures Valid(Zero) && Valid(OneDegree) && Scaled(OneDegree) == 100000
    ensures LatitudeInRange(Zero) && LongitudeInRange(OneDegree)
  {
    ZeroMagnitude();
    AllZero(OneDegree.digits);
  }

  lemma OneDegreeCodeDiffers()
    ensures Valid(Zero) && Valid(OneDegree) && Encode(Zero, OneDegree, false).Success?
    ensures Encode(Zero, OneDegree, false).value != ZeroCombinationCode()
  {
    OneDegreeValue();
    InRangeFits(Zero, OneDegree);
    Constants();
    EncodeIs(Zero, OneDegree, false, CodeOf(Rows, Columns, Zero, OneDegree));
    CodeValue(Rows, Columns, Zero, OneDegree);
  }

  /** The code of value Eleven - 200 * 10^10: point number -200 * 10^10. */
  function NegativeCode(): (code: string)
    ensures |code| == 11 && AllSymbols(code) && SymbolValue(code) == Eleven - 200 * Shift
  {
    ElevenIsGap();
    PaddedCode(Eleven - 200 * Shift)
  }

  /** Latitude 100.0 as the decoder builds it. */
  const HundredDegrees: Seven := Seven(false, 100, [0, 0, 0, 0, 0])

  /** Longitude 101.0 as the decoder builds it: sign -1, whole -101. */
  const MinusHundredOne: Seven := Seven(true, -101, [0, 0, 0, 0, 0])

  /** As written, a code below Eleven is not refused either: its point
      number is negative, the truncated combination number -200 unfolds to
      assigned indices 200 and -201, and GetCoordinates returns latitude
      100.0 and longitude 101.0, a latitude beyond the pole. */
  lemma NegativePointDecodes()
    ensures Decode(NegativeCode()) == Success((HundredDegrees, MinusHundredOne))
    ensures CombineSeven(HundredDegrees) == 10000000 && CombineSeven(MinusHundredOne) == 10100000
    ensures Valid(HundredDegrees) && !LatitudeInRange(HundredDegrees)
  {
    NegativeCodeDecodes();
    HundredValues();
  }

  lemma NegativeCodeDecodes()
    ensures Decode(NegativeCode()) == Success((HundredDegrees, MinusHundredOne))
  {
    var code := NegativeCode();
    var value := SymbolValue(code);
    var point: int := value - Eleven;
    assert point == -200 * Shift;
    assert Quot(point, Shift) == -200;
    assert point - (-200) * Shift == 0;
    assert WholesOf(-200) == SignWhole(false, 100, true, -101);
    ZeroDigits();
    assert CoordinatesOfPoint(point) == (HundredDegrees, MinusHundredOne);
    DecodedAs(code, value, point, HundredDegrees, MinusHundredOne);
    UnformatBare(Java, code);
    DecodeStages(code);
  }

  lemma HundredValues()
    ensures CombineSeven(HundredDegrees) == 10000000 && CombineSeven(MinusHundredOne) == 10100000
    ensures Valid(HundredDegrees) && !LatitudeInRange(HundredDegrees)
  {
    WholeFirst(100, HundredDegrees.digits);
    WholeFirst(-101, MinusHundredOne.digits);
    AllZero(HundredDegrees.digits);
  }

  /** The combination number just above the last cell. */
  const FirstUnused: nat := MaxCombination + 1

  /** The code whose combination number is FirstUnused and whose fractional
      digits are all zero. */
  function UnusedCode(): string
  {
    BareCode(FirstUnused)
  }

  /** The code the encoder gives for (0.0, 0.0). */
  function ZeroCode(): (code: string)
    ensures Valid(Zero) && Encode(Zero, Zero, false) == Success(code)
  {
    ZeroMagnitude();
    Encode(Zero, Zero, false).value
  }

  /** As written, a code whose combination number lies beyond the last cell
      is not refused: the wholes stay at 0 and it decodes to (0.0, 0.0),
      the same pair as the different code the encoder gives for (0.0, 0.0). */
  lemma UnusedCombinationDecodes()
    ensures Decode(UnusedCode()) == Success((Zero, Zero))
    ensures Decode(ZeroCode()) == Success((Zero, Zero))
    ensures UnusedCode() != ZeroCode()
  {
    UnusedCodeDecodes();
    ZeroCodeRoundTrip();
    UnusedIsNotZeroCode();
  }

  lemma ZeroCodeRoundTrip()
    ensures Decode(ZeroCode()) == Success((Zero, Zero))
  {
    ZeroMagnitude();
    RoundTrip(Zero, Zero, false);
  }

  lemma UnusedCodeDecodes()
    ensures Decode(UnusedCode()) == Success((Zero, Zero))
  {
    var code := UnusedCode();
    var value := SymbolValue(code);
    var point: int := value - Eleven;
    assert point == FirstUnused * Shift;
    assert Quot(point, Shift) == FirstUnused;
    assert point - FirstUnused * Shift == 0;
    ZeroDigits();
    assert CoordinatesOfPoint(point) == (Zero, Zero);
    DecodedAs(code, value, point, Zero, Zero);
    UnformatBare(Java, code);
    DecodeStages(code);
  }

  lemma UnusedIsNotZeroCode()
    ensures UnusedCode() != ZeroCode()
  {
    ZeroCodeBelow();
  }

  /** The encoder's code for (0.0, 0.0) has combination number 1. */
  lemma ZeroCodeBelow()
    ensures SymbolValue(ZeroCode()) < Eleven + 2 * Shift
  {
    ZeroCodeIsCode();
    Constants();
    CodeValue(Rows, Columns, Zero, Zero);
    FirstCell();
  }

  lemma ZeroCodeIsCode()
    ensures Fits(Rows, Columns, Zero, Zero) && Rows * Columns <= Capacity
    ensures ZeroCode() == CodeOf(Rows, Columns, Zero, Zero)
  {
    ZeroFits();
    EncodeIs(Zero, Zero, false, CodeOf(Rows, Columns, Zero, Zero));
  }

  lemma ZeroFits()
    ensures Valid(Zero) && Fits(Rows, Columns, Zero, Zero) && Rows * Columns <= Capacity
  {
    ZeroMagnitude();
    Constants();
    InRangeFits(Zero, Zero);
  }

  /** (0.0, 0.0) is the first cell: its point number is below 2 * 10^10. */
  lemma FirstCell()
    ensures Fits(Rows, Columns, Zero, Zero)
    ensures PointOf(Rows, Columns, Zero, Zero) < 2 * Shift
  {
    ZeroMagnitude();
    Constants();
    assert Assigned(Zero) == 0;
    assert Rank(Rows, Columns, 0, 0) == 1;
  }

  // ---------------------------------------------------------------------
  // The decoder with the missing check

  /** The decoder with the check the source leaves out: the point number
      must not be negative and its combination number must name a cell;
      otherwise the code is refused with UndefinedDecode. Every cell is in
      range, so nothing more is needed. */
  function CheckedSymbols(clean: string): (r: Result<(Seven, Seven)>)
    requires |clean| == 11 && AllSymbols(clean)
    ensures r.Success? <==> SymbolValue(clean) >= Eleven && 1 <= (SymbolValue(clean) - Eleven) / Shift <= MaxCombination
    ensures r.Success? ==> r.value == DecodeSymbols(clean)
    ensures r.Success? ==> Valid(r.value.0) && Valid(r.value.1) && Encode(r.value.0, r.value.1, false) == Success(clean)
    ensures r.Failure? ==> r.error == UndefinedDecode
  {
    var value := SymbolValue(clean);
    if value < Eleven then Failure(UndefinedDecode)
    else
      var point: nat := value - Eleven;
      if !(1 <= point / Shift <= MaxCombination) then Failure(UndefinedDecode)
      else
        var lat_lon := CoordinatesOfPoint(point);
        ReEncode(clean, value, point, lat_lon.0, lat_lon.1);
        Success(lat_lon)
  }

  /** A checked pair is the decoded pair, and encodes back to the code it
      was decoded from. */
  lemma ReEncode(clean: string, value: nat, point: nat, lat: Seven, lon: Seven)
    requires |clean| == 11 && AllSymbols(clean) && value == SymbolValue(clean) && value >= Eleven
    requires point == value - Eleven && 1 <= point / Shift <= MaxCombination
    requires (lat, lon) == CoordinatesOfPoint(point)
    ensures DecodeSymbols(clean) == (lat, lon)
    ensures Valid(lat) && Valid(lon) && Encode(lat, lon, false) == Success(clean)
  {
    Constants();
    DecodedAs(clean, value, point, lat, lon);
    CoordinatesInRange(point);
    CodeOfDecoded(Rows, Columns, clean, point);
    EncodeIs(lat, lon, false, clean);
  }

  /** The checked decoder of a code: failures of unformatting and
      validation pass through. */
  function CheckedDecode(code: string): (r: Result<(Seven, Seven)>)
    ensures r.Success? ==> Decode(code) == r
    ensures r.Success? ==> Valid(r.value.0) && Valid(r.value.1)
    ensures r.Success? ==> Encode(r.value.0, r.value.1, false) == Unformat(Java, code)
    ensures Unformat(Java, code).Failure? ==> r == Failure(Unformat(Java, code).error)
  {
    var clean :- Unformat(Java, code);
    DecodeStages(code);
    CheckedSymbols(clean)
  }

  /** The checked decoder still undoes the encoder, so it accepts exactly
      the codes the encoder produces (up to formatting and case). */
  lemma CheckedRoundTrip(lat: Seven, lon: Seven, formatted: bool)
    requires Valid(lat) && Valid(lon) && LatitudeInRange(lat) && LongitudeInRange(lon)
    ensures CheckedDecode(Encode(lat, lon, formatted).value) == Success((lat, lon))
  {
    Constants();
    InRangeFits(lat, lon);
    var code := CodeOf(Rows, Columns, lat, lon);
    assert Encode(lat, lon, formatted).value == if formatted then Formatted(code) else code;
    CheckedForms(lat, lon);
  }

  /** The bare and the formatted code both pass the check. */
  lemma CheckedForms(lat: Seven, lon: Seven)
    requires Fits(Rows, Columns, lat, lon)
    ensures CheckedDecode(CodeOf(Rows, Columns, lat, lon)) == Success((lat, lon))
    ensures CheckedDecode(Formatted(CodeOf(Rows, Columns, lat, lon))) == Success((lat, lon))
  {
    Constants();
    var code := CodeOf(Rows, Columns, lat, lon);
    CheckedCode(lat, lon);
    UnformatFormat(Java, code);
    UnformatBare(Java, code);
  }

  lemma CheckedCode(lat: Seven, lon: Seven)
    requires Fits(Rows, Columns, lat, lon)
    ensures CheckedSymbols(CodeOf(Rows, Columns, lat, lon)) == Success((lat, lon))
  {
    Constants();
    CodeRoundTrip(Rows, Columns, lat, lon);
    CoordinatesOfCode(lat, lon);
  }

  /** The codes of the findings are refused by the checked decoder. */
  lemma CheckedRefusesFindings()
    ensures CheckedDecode(ZeroCombinationCode()).Failure?
    ensures CheckedDecode(NegativeCode()).Failure?
    ensures CheckedDecode(UnusedCode()).Failure?
  {
    UnformatBare(Java, ZeroCombinationCode());
    UnformatBare(Java, NegativeCode());
    UnformatBare(Java, UnusedCode());
    UnusedIsUnchecked();
  }

  lemma UnusedIsUnchecked()
    ensures CheckedSymbols(UnusedCode()).Failure?
  {
    var value := SymbolValue(UnusedCode());
    var point := value - Eleven;
    assert point / Shift == FirstUnused;
  }
}

=== FILE: outcomes.dfy ===
/**
 This module holds the failure values of the Grid Point Code codec. The
 source signals each of them with an exception (ArgumentOutOfRangeException
 in C#, IllegalArgumentException in Java); here they are values of a
 Success/Failure datatype that can be used with `:-`.
 */
module Outcomes {

  /** Why an encode or decode call did not produce a value. */
  datatype Error =
    | LatitudeOutOfRange     // the latitude range check threw
    | LongitudeOutOfRange    // the longitude range check threw
    | WrongLength            // "Length of GPC must be 11."
    | InvalidCharacter       // "Invalid character in GPC."
    | UndefinedDecode        // a well-formed code that carries no point; the source does not detect this

  datatype Result<+T> = Success(value: T) | Failure(error: Error) {

    predicate IsFailure() {
      Failure?
    }

    function PropagateFailure<U>(): Result<U>
      requires Failure?
    {
      Failure(error)
    }

    function Extract(): T
      requires Success?
    {
      value
    }
  }
}

=== FILE: point_number.dfy ===
/**
 The point number: the combination number placed above a block of ten
 decimal digits that interleave the fractional digits of the two axes,
 longitude first, most significant pair first. Splitting divides by 10^10
 for the combination and reads each digit back as (fractional / 10^p) % 10.
 Both implementations use the same assembly and split (the C# one on
 ulong, the Java one on long; every value stays below 2^53, so the
 Math.Pow factors are exact and the model uses integer arithmetic).
 */
module PointNumber {
  import opened Positional

  /** 10^10, the weight of the combination number. */
  const Shift: nat := 10000000000

  lemma ShiftIsPow()
    ensures Pow(10, 10) == Shift
  {
  }

  /** The ten fractional digits in the order they are written into the
      point number: lon d1, lat d1, lon d2, lat d2, ... */
  function Weave(lon: seq<int>, lat: seq<int>): (ds: seq<int>)
    requires |lon| == |lat|
    ensures |ds| == 2 * |lon|
    ensures forall i :: 0 <= i < |lon| ==> ds[2 * i] == lon[i] && ds[2 * i + 1] == lat[i]
  {
    if |lon| == 0 then [] else [lon[0], lat[0]] + Weave(lon[1..], lat[1..])
  }

  predicate FiveDigits(ds: seq<int>)
  {
    |ds| == 5 && IsDigits(10, ds)
  }

  /** The point number of a combination number and the two digit lists.
      The combination number is read back by dividing by 10^10, and every
      fractional digit by (point / 10^p) % 10 at its own power p: 9 - 2i
      for the longitude digit i, 8 - 2i for the latitude digit i. */
  function Assemble(combination: nat, lat: seq<int>, lon: seq<int>): (point: nat)
    requires FiveDigits(lat) && FiveDigits(lon)
    ensures point / Shift == combination
    ensures point % Shift == Value(10, Weave(lon, lat))
    ensures forall i :: 0 <= i < 5 ==>
      (point / Pow(10, 9 - 2 * i)) % 10 == lon[i] && (point / Pow(10, 8 - 2 * i)) % 10 == lat[i]
  {
    var block := Weave(lon, lat);
    WovenDigits(lat, lon);
    ValueBound(10, block);
    BlockAbove(combination, block);
    combination * Shift + Value(10, block)
  }

  /** Interleaving two digit lists gives a digit list. */
  lemma WovenDigits(lat: seq<int>, lon: seq<int>)
    requires FiveDigits(lat) && FiveDigits(lon)
    ensures |Weave(lon, lat)| == 10 && IsDigits(10, Weave(lon, lat))
  {
    var block := Weave(lon, lat);
    forall k | 0 <= k < 10
      ensures 0 <= block[k] < 10
    {
      if k % 2 == 0 {
        assert block[2 * (k / 2)] == lon[k / 2];
      } else {
        assert block[2 * (k / 2) + 1] == lat[k / 2];
      }
    }
  }

  /** A number placed above a block of ten digits is read back by dividing
      by 10^10, and every digit of the block by its own power of ten. */
  lemma BlockAbove(combination: nat, block: seq<int>)
    requires |block| == 10 && IsDigits(10, block)
    ensures 0 <= Value(10, block) < Shift
    ensures (combination * Shift + Value(10, block)) / Shift == combination
    ensures (combination * Shift + Value(10, block)) % Shift == Value(10, block)
    ensures forall k :: 0 <= k < 10 ==>
      ((combination * Shift + Value(10, block)) / Pow(10, 9 - k)) % 10 == block[k]
  {
    ValueBound(10, block);
    ShiftIsPow();
    var point := combination * Shift + Value(10, block);
    DivUnique(point, Shift, combination, Value(10, block));
    var parts := [combination as int] + block;
    ValueConcat(10, [combination], block);
    assert Value(10, [combination]) == combination by {
      assert [combination as int][..0] == [];
    }
    assert NonNegative(parts) by {
      assert forall j :: 0 < j < |parts| ==> parts[j] == block[j - 1];
    }
    forall k | 0 <= k < 10
      ensures (point / Pow(10, 9 - k)) % 10 == block[k]
    {
      assert parts[k + 1..] == block[k..];
      DigitAt(10, parts, k + 1);
    }
  }

  /** The five longitude digits of a fractional block, at the powers 9, 7, 5, 3, 1. */
  function LongitudeDigits(fractional: nat): (ds: seq<int>)
    ensures FiveDigits(ds)
  {
    seq(5, i requires 0 <= i < 5 => (fractional / Pow(10, 9 - 2 * i)) % 10)
  }

  /** The five latitude digits of a fractional block, at the powers 8, 6, 4, 2, 0. */
  function LatitudeDigits(fractional: nat): (ds: seq<int>)
    ensures FiveDigits(ds)
  {
    seq(5, i requires 0 <= i < 5 => (fractional / Pow(10, 8 - 2 * i)) % 10)
  }

  /** Splitting a point number gives back the combination number and both
      digit lists it was assembled from. */
  lemma SplitAssemble(combination: nat, lat: seq<int>, lon: seq<int>)
    requires FiveDigits(lat) && FiveDigits(lon)
    ensures Assemble(combination, lat, lon) / Shift == combination
    ensures LatitudeDigits(Assemble(combination, lat, lon) % Shift) == lat
    ensures LongitudeDigits(Assemble(combination, lat, lon) % Shift) == lon
  {
    var point := Assemble(combination, lat, lon);
    var f := point % Shift;
    forall p: nat | p < 10
      ensures (point / Pow(10, p)) % 10 == (f / Pow(10, p)) % 10
    {
      LowDigitsOnly(point, p);
    }
  }

  /** Every point number is the assembly of its own split: the split loses
      nothing. */
  lemma AssembleSplit(point: nat)
    ensures Assemble(point / Shift, LatitudeDigits(point % Shift), LongitudeDigits(point % Shift)) == point
  {
    var f := point % Shift;
    WeaveSplit(f);
    ShiftIsPow();
    ToDigitsValue(10, f, 10);
  }

  /** The two digit lists of a block interleave back to its ten digits. */
  lemma WeaveSplit(f: nat)
    ensures Weave(LongitudeDigits(f), LatitudeDigits(f)) == ToDigits(10, f, 10)
  {
    var lat, lon := LatitudeDigits(f), LongitudeDigits(f);
    var block := Weave(lon, lat);
    var ds := ToDigits(10, f, 10);
    forall k | 0 <= k < 10
      ensures block[k] == ds[k]
    {
      ToDigitsAt(10, f, 10, k);
      if k % 2 == 0 {
        assert block[2 * (k / 2)] == lon[k / 2];
      } else {
        assert block[2 * (k / 2) + 1] == lat[k / 2];
      }
    }
  }

  /** Below the weight 10^10 only the fractional block contributes to a digit. */
  lemma LowDigitsOnly(point: nat, p: nat)
    requires p < 10
    ensures (point / Pow(10, p)) % 10 == ((point % Shift) / Pow(10, p)) % 10
  {
    var q, f := point / Shift, point % Shift;
    var w, rest := Pow(10, p), Pow(10, 9 - p);
    ShiftFactors(p);
    DigitOfShifted(point, q, f, w, rest);
  }

  /** 10^10 = 10^p * 10 * 10^(9-p). */
  lemma ShiftFactors(p: nat)
    requires p < 10
    ensures Shift == Pow(10, p) * (10 * Pow(10, 9 - p))
  {
    PowSplit(p, 10 - p);
    ShiftIsPow();
    assert Pow(10, 10 - p) == 10 * Pow(10, 9 - p);
  }

  lemma DigitOfShifted(point: nat, q: nat, f: nat, w: nat, rest: nat)
    requires w > 0 && Shift == w * (10 * rest)
    requires q == point / Shift && f == point % Shift
    ensures (point / w) % 10 == (f / w) % 10
  {
    assert point == ((q * rest) * 10) * w + f by {
      assert point == q * Shift + f;
      Rearrange(q, w, rest);
    }
    DivAddMultiple(f, (q * rest) * 10, w);
    ModAddMultiple(f / w, q * rest, 10);
  }

  lemma Rearrange(q: int, w: int, rest: int)
    ensures q * (w * (10 * rest)) == ((q * rest) * 10) * w
  {
  }

  lemma DivAddMultiple(n: nat, k: nat, m: nat)
    requires m > 0
    ensures (k * m + n) / m == k + n / m
  {
    assert k * m + n == (k + n / m) * m + n % m;
    DivUnique(k * m + n, m, k + n / m, n % m);
  }

  lemma ModAddMultiple(n: nat, k: nat, m: nat)
    requires m > 0
    ensures (k * m + n) % m == n % m
  {
    assert k * m + n == (k + n / m) * m + n % m;
    DivUnique(k * m + n, m, k + n / m, n % m);
  }

  lemma {:induction false} PowSplit(i: nat, j: nat)
    ensures Pow(10, i + j) == Pow(10, i) * Pow(10, j)
    decreases i
  {
    if i > 0 {
      PowSplit(i - 1, j);
    }
  }

  // ---------------------------------------------------------------------
  // GetPointNumber as the source writes it

  /** The fractional loop of GetPointNumber: starting from the combination
      number times 10^10, add each longitude digit times 10^p and each
      latitude digit times 10^(p-1), with p counting down from 9. */
  method AddFractional(combination: nat, lat: seq<int>, lon: seq<int>) returns (point: nat)
    requires FiveDigits(lat) && FiveDigits(lon)
    ensures point == Assemble(combination, lat, lon)
    ensures point / Shift == combination
  {
    var sum: int := combination * Shift;
    var power := 9;
    var index := 0;
    assert lat[..0] == [] && lon[..0] == [];
    assert Value(10, Weave(lon[..0], lat[..0])) == 0;
    while index < 5
      invariant 0 <= index <= 5 && power == 9 - 2 * index
      invariant sum == Partial(combination, lat, lon, index)
    {
      FractionalStep(combination, lat, lon, index, sum);
      sum := sum + Pow(10, power) * lon[index];
      power := power - 1;
      sum := sum + Pow(10, power) * lat[index];
      power := power - 1;
      index := index + 1;
    }
    FractionalDone(combination, lat, lon, sum);
    point := sum;
  }

  /** Partial sum of the fractional loop after k pairs of digits. */
  function Partial(combination: nat, lat: seq<int>, lon: seq<int>, k: nat): int
    requires FiveDigits(lat) && FiveDigits(lon) && k <= 5
  {
    combination * Shift + Value(10, Weave(lon[..k], lat[..k])) * Pow(10, 10 - 2 * k)
  }

  lemma FractionalStep(combination: nat, lat: seq<int>, lon: seq<int>, k: nat, point: int)
    requires FiveDigits(lat) && FiveDigits(lon) && k < 5
    requires point == Partial(combination, lat, lon, k)
    ensures point + Pow(10, 9 - 2 * k) * lon[k] + Pow(10, 8 - 2 * k) * lat[k] == Partial(combination, lat, lon, k + 1)
  {
    var n: nat := 8 - 2 * k;
    var p := Pow(10, n);
    var x, y := lon[k], lat[k];
    var before := Weave(lon[..k], lat[..k]);
    var v := Value(10, before);
    var c := combination * Shift;
    assert Pow(10, 9 - 2 * k) == 10 * p by {
      assert 9 - 2 * k == n + 1;
    }
    assert point == c + v * (100 * p) by {
      assert 10 - 2 * k == n + 2;
      assert Pow(10, n + 2) == 100 * p;
    }
    var after := Weave(lon[..k + 1], lat[..k + 1]);
    assert Value(10, after) == (v * 10 + x) * 10 + y by {
      WeaveSnoc(lon, lat, k);
      ValueTwoMore(before, x, y);
    }
    assert Partial(combination, lat, lon, k + 1) == c + Value(10, after) * p by {
      assert 10 - 2 * (k + 1) == n;
    }
    StepIdentity(v, x, y, p);
  }

  lemma FractionalDone(combination: nat, lat: seq<int>, lon: seq<int>, point: int)
    requires FiveDigits(lat) && FiveDigits(lon)
    requires point == Partial(combination, lat, lon, 5)
    ensures point == Assemble(combination, lat, lon)
  {
    assert lat[..5] == lat && lon[..5] == lon;
    ShiftIsPow();
  }

  /** Interleaving one more pair of digits appends that pair. */
  lemma WeaveSnoc(lon: seq<int>, lat: seq<int>, k: nat)
    requires |lon| == |lat| && k < |lon|
    ensures Weave(lon[..k + 1], lat[..k + 1]) == Weave(lon[..k], lat[..k]) + [lon[k], lat[k]]
  {
    var w := Weave(lon[..k + 1], lat[..k + 1]);
    var v := Weave(lon[..k], lat[..k]) + [lon[k], lat[k]];
    forall i | 0 <= i < |w|
      ensures w[i] == v[i]
    {
      if i % 2 == 0 {
        assert w[2 * (i / 2)] == lon[..k + 1][i / 2];
      } else {
        assert w[2 * (i / 2) + 1] == lat[..k + 1][i / 2];
      }
    }
  }

  lemma ValueTwoMore(ds: seq<int>, x: int, y: int)
    ensures Value(10, ds + [x, y]) == (Value(10, ds) * 10 + x) * 10 + y
  {
    var s := ds + [x, y];
    assert s[..|s| - 1] == ds + [x];
    assert (ds + [x])[..|ds|] == ds;
  }

  lemma StepIdentity(v: int, x: int, y: int, p: int)
    ensures ((v * 10 + x) * 10 + y) * p == v * (100 * p) + (10 * p) * x + p * y
  {
  }

  /** The digit loop of the C# decoder (GetCoordinateSeven): the longitude
      digit is taken at the powers 9, 7, 5, 3, 1 of the fractional block and
      the latitude digit at 8, 6, 4, 2, 0. For a block below 10^10 the two
      lists assemble back to the block. */
  method SplitFractional(fractional: nat) returns (lat: seq<int>, lon: seq<int>)
    ensures lat == LatitudeDigits(fractional) && lon == LongitudeDigits(fractional)
    ensures fractional < Shift ==> Assemble(0, lat, lon) == fractional
  {
    lat, lon := [], [];
    var power := 9;
    var x := 2;
    while x <= 6
      invariant 2 <= x <= 7 && power == 9 - 2 * (x - 2)
      invariant |lat| == x - 2 && |lon| == x - 2
      invariant forall i :: 0 <= i < x - 2 ==> lon[i] == (fractional / Pow(10, 9 - 2 * i)) % 10
      invariant forall i :: 0 <= i < x - 2 ==> lat[i] == (fractional / Pow(10, 8 - 2 * i)) % 10
    {
      ghost var i := x - 2;
      assert power == 9 - 2 * i && power - 1 == 8 - 2 * i;
      lon := lon + [(fractional / Pow(10, power)) % 10];
      power := power - 1;
      lat := lat + [(fractional / Pow(10, power)) % 10];
      power := power - 1;
      x := x + 1;
    }
    assert |lat| == 5 && |lon| == 5;
    if fractional < Shift {
      BlockSplit(fractional);
    }
  }

  /** A fractional block below 10^10 is the assembly of its own digits
      under combination number 0. */
  lemma BlockSplit(fractional: nat)
    requires fractional < Shift
    ensures Assemble(0, LatitudeDigits(fractional), LongitudeDigits(fractional)) == fractional
  {
    assert fractional / Shift == 0 && fractional % Shift == fractional;
    AssembleSplit(fractional);
  }
}

=== FILE: positional.dfy ===
/**
 Positional notation over an arbitrary base: the value of a digit sequence
 read most significant first, the fixed-width digit sequence of a number,
 and the facts that make the two inverse to each other. The codec uses base
 10 for the fractional digits of a coordinate and for the point number, and
 base 27 for the code itself.
 */
module Positional {

  function Pow(base: nat, k: nat): (p: nat)
    ensures base >= 1 ==> p >= 1
  {
    if k == 0 then 1 else base * Pow(base, k - 1)
  }

  /** Every entry of ds is a digit of the given base. */
  predicate IsDigits(base: nat, ds: seq<int>)
  {
    forall i :: 0 <= i < |ds| ==> 0 <= ds[i] < base
  }

  predicate NonNegative(ds: seq<int>)
  {
    forall i :: 0 <= i < |ds| ==> 0 <= ds[i]
  }

  /** The value of ds read most significant first, i.e. the fold
      n := n * base + d over ds from left to right. The first entry may be
      larger than a digit (a whole number of degrees, a combination number
      placed above a block of digits). */
  function Value(base: nat, ds: seq<int>): int
  {
    if |ds| == 0 then 0 else Value(base, ds[..|ds| - 1]) * base + ds[|ds| - 1]
  }

  /** The width lowest digits of n, most significant first. */
  function ToDigits(base: nat, n: nat, width: nat): (ds: seq<int>)
    requires base >= 2
    ensures |ds| == width
    ensures IsDigits(base, ds)
  {
    if width == 0 then [] else ToDigits(base, n / base, width - 1) + [n % base]
  }

  // ---------------------------------------------------------------------
  // Arithmetic helpers

  lemma PowPositive(base: nat, k: nat)
    requires base >= 1
    ensures Pow(base, k) >= 1
  {
  }

  lemma MulAtLeast(x: int, d: int)
    requires x >= 1 && d > 0
    ensures x * d >= d
  {
  }

  lemma MulMonotone(x: int, y: int, c: nat)
    requires x <= y
    ensures x * c <= y * c
  {
  }

  lemma MulCancelLess(x: int, y: int, c: int)
    requires c > 0 && x * c < y * c
    ensures x < y
  {
  }

  /** Euclidean division is unique. */
  lemma DivUnique(n: int, d: int, q: int, r: int)
    requires d > 0 && 0 <= r < d && n == q * d + r
    ensures n / d == q && n % d == r
  {
    var q', r' := n / d, n % d;
    assert (q - q') * d == r' - r;
    if q - q' >= 1 { MulAtLeast(q - q', d); }
    if q' - q >= 1 { MulAtLeast(q' - q, d); }
  }

  /** Dividing twice is dividing by the product. */
  lemma DivDiv(n: nat, b: nat, m: nat)
    requires b > 0 && m > 0
    ensures (n / b) / m == n / (b * m)
  {
    var q, r := n / b, n % b;
    var q2, r2 := q / m, q % m;
    assert n == (b * m) * q2 + (b * r2 + r) by {
      calc {
        n;
        b * q + r;
        b * (m * q2 + r2) + r;
        (b * m) * q2 + (b * r2 + r);
      }
    }
    assert b * r2 + r < b * m by {
      MulMonotone(r2, m - 1, b);
      assert (m - 1) * b == b * m - b;
    }
    DivUnique(n, b * m, q2, b * r2 + r);
  }

  // ---------------------------------------------------------------------
  // Value

  lemma {:induction false} ValueNonNegative(base: nat, ds: seq<int>)
    requires NonNegative(ds)
    ensures Value(base, ds) >= 0
    decreases |ds|
  {
    if |ds| > 0 {
      ValueNonNegative(base, ds[..|ds| - 1]);
    }
  }

  /** A digit sequence of length n denotes a number below base^n. */
  lemma {:induction false} ValueBound(base: nat, ds: seq<int>)
    requires base >= 1 && IsDigits(base, ds)
    ensures 0 <= Value(base, ds) < Pow(base, |ds|)
    decreases |ds|
  {
    if |ds| > 0 {
      var init := ds[..|ds| - 1];
      ValueBound(base, init);
      var v, p := Value(base, init), Pow(base, |init|);
      assert Value(base, ds) == v * base + ds[|ds| - 1];
      assert Pow(base, |ds|) == base * p;
      DigitStep(base, v, p, ds[|ds| - 1]);
    }
  }

  /** Appending a digit to a number below p gives one below base * p. */
  lemma DigitStep(base: nat, v: int, p: int, d: int)
    requires 0 <= v < p && 0 <= d < base
    ensures 0 <= v * base + d < base * p
  {
    MulMonotone(v, p - 1, base);
  }

  /** Concatenation shifts the left part by the width of the right part. */
  lemma {:induction false} ValueConcat(base: nat, xs: seq<int>, ys: seq<int>)
    ensures Value(base, xs + ys) == Value(base, xs) * Pow(base, |ys|) + Value(base, ys)
    decreases |ys|
  {
    if |ys| == 0 {
      assert xs + ys == xs;
    } else {
      var ys' := ys[..|ys| - 1];
      var y := ys[|ys| - 1];
      assert (xs + ys)[..|xs + ys| - 1] == xs + ys';
      ValueConcat(base, xs, ys');
      calc {
        Value(base, xs + ys);
        Value(base, xs + ys') * base + y;
        (Value(base, xs) * Pow(base, |ys'|) + Value(base, ys')) * base + y;
        Value(base, xs) * (Pow(base, |ys'|) * base) + (Value(base, ys') * base + y);
        Value(base, xs) * Pow(base, |ys|) + Value(base, ys);
      }
    }
  }

  /** The entry at position k is recovered by dividing by the weight of that
      position and taking the remainder modulo the base, provided that every
      entry from k on is a digit. */
  lemma DigitAt(base: nat, ds: seq<int>, k: nat)
    requires base >= 2 && k < |ds|
    requires NonNegative(ds) && IsDigits(base, ds[k..])
    ensures (Value(base, ds) / Pow(base, |ds| - 1 - k)) % base == ds[k]
  {
    var head, tail := ds[..k + 1], ds[k + 1..];
    assert ds == head + tail;
    ValueConcat(base, head, tail);
    assert IsDigits(base, tail) by {
      forall i | 0 <= i < |tail|
        ensures 0 <= tail[i] < base
      {
        assert tail[i] == ds[k..][i + 1];
      }
    }
    ValueBound(base, tail);
    assert NonNegative(head) by {
      forall i | 0 <= i < |head|
        ensures 0 <= head[i]
      {
        assert head[i] == ds[i];
      }
    }
    ValueNonNegative(base, head);
    DivUnique(Value(base, ds), Pow(base, |tail|), Value(base, head), Value(base, tail));
    assert head[..|head| - 1] == ds[..k];
    assert 0 <= ds[k] < base by {
      assert ds[k] == ds[k..][0];
    }
    DivUnique(Value(base, head), base, Value(base, ds[..k]), ds[k]);
  }

  // ---------------------------------------------------------------------
  // ToDigits

  /** Entry k of the width-digit representation is the digit of weight
      base^(width-1-k). */
  lemma {:induction false} ToDigitsAt(base: nat, n: nat, width: nat, k: nat)
    requires base >= 2 && k < width
    ensures ToDigits(base, n, width)[k] == (n / Pow(base, width - 1 - k)) % base
    decreases width
  {
    if k < width - 1 {
      ToDigitsAt(base, n / base, width - 1, k);
      PowPositive(base, width - 2 - k);
      DivDiv(n, base, Pow(base, width - 2 - k));
    }
  }

  /** A number below base^width is recovered from its width digits. */
  lemma {:induction false} ToDigitsValue(base: nat, n: nat, width: nat)
    requires base >= 2 && n < Pow(base, width)
    ensures Value(base, ToDigits(base, n, width)) == n
    decreases width
  {
    if width > 0 {
      var ds := ToDigits(base, n, width);
      var q, r := n / base, n % base;
      assert ds == ToDigits(base, q, width - 1) + [r];
      assert ds[..width - 1] == ToDigits(base, q, width - 1);
      var p := Pow(base, width - 1);
      assert n == q * base + r;
      assert q < p by {
        assert Pow(base, width) == base * p;
        assert q * base < p * base;
        MulCancelLess(q, p, base);
      }
      ToDigitsValue(base, q, width - 1);
      assert Value(base, ds) == Value(base, ds[..width - 1]) * base + r;
    }
  }

  /** A digit sequence is the fixed-width representation of its own value. */
  lemma {:induction false} DigitsOfValue(base: nat, ds: seq<int>)
    requires base >= 2 && IsDigits(base, ds)
    ensures Value(base, ds) >= 0 && ToDigits(base, Value(base, ds), |ds|) == ds
    decreases |ds|
  {
    if |ds| > 0 {
      var init := ds[..|ds| - 1];
      ValueBound(base, init);
      DivUnique(Value(base, ds), base, Value(base, init), ds[|ds| - 1]);
      DigitsOfValue(base, init);
    }
  }
}
